=== FILE: README.md ===
# LPG dispatch simulator (ACO planner) in Dafny

This project models the dispatch core of a liquefied-petroleum-gas
delivery simulator. A fleet of tank trucks serves orders on a 70 x 50 grid
city from a main plant at (12,8) and two intermediate tanks. Roads can be
closed for time windows and trucks break down by shift.

The core simulates minute by minute. Each minute it does the following:

- It splits orders larger than the biggest truck.
- It rejects orders with less than four hours of lead time.
- It fires the scheduled deliveries and sends each truck back to the
  nearest tank that can refill it, or to the plant.
- It moves every truck one step.
- It stops at the first overdue order.
- It applies the shift's breakdowns.
- It replans the candidate orders with an ant colony: pheromone-weighted
  roulette sampling, a capacity/deadline/fuel check on every commit,
  evaporation, and a deposit of Q / cost.

Routes are built x-then-y, one cell per step. At the first closed step the
route falls back to an A* search. A second, older greedy dispatcher (first
feasible truck, fixed round trip from the plant) is modelled as well. So
are the two time-stamp parsers (`"01d00h24m"`).

The modules follow the sources:

| module | models |
|---|---|
| `Wrappers` | `Option`/`Result` |
| `JavaInt` | 32-bit wrap-around and Java's truncating `%` |
| `Grid` | cells, Manhattan distance, walks, travel time |
| `Orders` | `core/Pedido.java` |
| `Tanks` | `core/Tanque.java` and the planner's tank handling |
| `Blockage` | `core/Bloqueo.java` |
| `Trucks` | `core/Camion.java` |
| `TimeText` | both parsers |
| `Paths` | `buildManhattanPath`, `findPathAStar` |
| `Intake` | splitting, lead-time filter, collapse check |
| `Delivery` | delivery events, return-tank choice, arrival loop |
| `Shifts` | `turnoDeMinuto`, breakdowns, release |
| `Candidates` | replanning candidates |
| `Colony` | fleet snapshot, feasibility, `asignarPedidoARuta` |
| `Sampling` | desirability and `muestrearPar` |
| `Aco` | ants and `ejecutarACO` |
| `Insertion` | `esDesvioValido`, `posicionOptimaDeInsercion` |
| `Legacy` | the greedy `src/ACOPlanner.java` |

Some inputs are parameters rather than computed:

- **Closures.** The point-blocking test that paths use is the parameter
  `blocked(minute, cell)`. The source calls `Bloqueo.estaBloqueado`, which
  `core/Bloqueo.java` does not define.
- **Random draws.** Each `Math.random()` is a parameter: a function from
  iteration, ant and round to a real.
- **Floating point.** Quantities are exact reals.

## Model

| member | source | states |
|---|---|---|
| JavaInt.Wrap | ACO-algorithm/src/ACOPlanner.java:376 | the `int` result of an exact value: in range, congruent modulo 2^32, identity on in-range values |
| JavaInt.WrapAbsorbs | ACO-algorithm/src/core/ACOPlanner.java:1424 | wrapping after each `+`/`*` equals wrapping once at the end |
| JavaInt.Rem | ACO-algorithm/src/core/ACOPlanner.java:1315 | Java `%`: Euclidean for non-negative dividends; for a negative dividend the value is minus the remainder of its absolute value, in (-b, 0] |
| Grid.TravelTime | ACO-algorithm/src/core/ACOPlanner.java:677-679 | `ceil(d * 60 / 50)` as an integer r with 6d <= 5r < 6d + 5 |
| Grid.WalkAtLeastManhattan | ACO-algorithm/src/core/ACOPlanner.java:810-850 | any unit-step walk is at least as long as the Manhattan distance it covers |
| Grid.WalkConcat | ACO-algorithm/src/core/ACOPlanner.java:841 | an accepted prefix followed by a walk from its end is one walk |
| Orders.NewPedido | ACO-algorithm/src/core/Pedido.java:6-14 | stores the six arguments; atendido, descartado and programado start false |
| Orders.SetAtendido | ACO-algorithm/src/core/Pedido.java:31 | reads back what was set; no other field changes |
| Orders.SetDescartado | ACO-algorithm/src/core/Pedido.java:27-29 | reads back what was set; no other field changes |
| Orders.SetTiempoCreacion | ACO-algorithm/src/core/Pedido.java:26 | only the creation minute changes; the deadline is not recomputed |
| Orders.FlagsIndependent | ACO-algorithm/src/core/Pedido.java:21-31 | the two flag setters do not disturb each other and commute |
| Tanks.NewTanque | ACO-algorithm/src/core/Tanque.java:7-11 | a new tank is full at its position |
| Tanks.SetDisponible | ACO-algorithm/src/core/Tanque.java:19 | only the level changes |
| Tanks.SetDisponibleDoesNotClamp | ACO-algorithm/src/core/Tanque.java:19 | negative levels and levels above capacity are stored as given |
| Tanks.InitialTanks | ACO-algorithm/src/core/ACOPlanner.java:64-65 | two full tanks of 160 m3, the first at (30,15) and the second at (50,40) |
| Tanks.RefreshTanks | ACO-algorithm/src/core/ACOPlanner.java:186-189 | at minutes t > 0 with t % 1440 == 0 every tank is refilled; at other minutes nothing changes |
| Tanks.Deplete | ACO-algorithm/src/core/ACOPlanner.java:290 | the chosen tank loses the shortfall without a bound check; the others are untouched |
| Blockage.AristaId | ACO-algorithm/src/core/Bloqueo.java:27-29 | the key holds min/max of each coordinate pair |
| Blockage.AristaIdSymmetric | ACO-algorithm/src/core/Bloqueo.java:27-29 | swapping the endpoints gives the same key |
| Blockage.AxisAlignedKeyUnique | ACO-algorithm/src/core/Bloqueo.java:27-29 | for axis-aligned pairs, equal keys iff the same unordered endpoints |
| Blockage.DiagonalKeysCollide | ACO-algorithm/src/core/Bloqueo.java:27-29 | the two diagonals of a unit square share a key |
| Blockage.PolylineKeys | ACO-algorithm/src/core/Bloqueo.java:15-20 | no key for fewer than 2 vertices, at most n-1 keys otherwise |
| Blockage.PolylineKeysExact | ACO-algorithm/src/core/Bloqueo.java:15-20 | a key is stored iff it is the key of a consecutive vertex pair |
| Blockage.NewBloqueo | ACO-algorithm/src/core/Bloqueo.java:12-21 | stores the window and exactly the consecutive-pair keys |
| Blockage.Afecta | ACO-algorithm/src/core/Bloqueo.java:23-25 | true iff inicio <= t <= fin (inclusive) and the move's key is stored |
| Blockage.AfectaSymmetric | ACO-algorithm/src/core/Bloqueo.java:23-29 | a move is blocked iff its reverse is |
| Blockage.AfectaOfPolyline | ACO-algorithm/src/core/Bloqueo.java:12-25 | each consecutive vertex pair is blocked inside the window |
| Blockage.UnitMoveInsideLongSegmentsNotBlocked | ACO-algorithm/src/core/Bloqueo.java:15-25 | if every segment is longer than one unit, no unit move is ever blocked |
| Blockage.InteriorOfSegmentExample | ACO-algorithm/src/core/Bloqueo.java:15-25 | the closure (0,0)-(3,0) does not block (1,0)-(2,0) |
| Blockage.HayBloqueo | ACO-algorithm/src/ACOPlanner.java:243-248 | true iff some closure in the list blocks the move |
| Trucks.Reset | ACO-algorithm/src/core/Camion.java:70-84 | the fresh state: full load and fuel, depot, free at 0, available, no route/path/history, counters 0; identity and capacities kept |
| Trucks.NewCamion | ACO-algorithm/src/core/Camion.java:58-65 | stores identity and capacities, then the fresh state |
| Trucks.ResetIdempotent | ACO-algorithm/src/core/Camion.java:70-84 | resetting twice is resetting once |
| Trucks.RecargarCombustible | ACO-algorithm/src/core/Camion.java:89-91 | fuel becomes capacity; nothing else changes |
| Trucks.SetRuta | ACO-algorithm/src/core/Camion.java:119-122 | stores the path and moves the cursor to 0; steps are pending iff the path is non-empty; nothing else changes |
| Trucks.MoverA | ACO-algorithm/src/core/Camion.java:111-114 | moves to the cell and appends it to the history; nothing else changes |
| Trucks.AvanzarUnPaso | ACO-algorithm/src/core/Camion.java:96-106 | with no pending step nothing changes; otherwise moves to the cursor's cell, advances the cursor by 1, appends the cell to the history, and moves the same fuel amount out of the tank into both counters; no other field changes |
| Trucks.AdvanceNWalksPath | ACO-algorithm/src/core/Camion.java:96-114 | n advances walk the next n path cells, add them to the history and burn n steps of fuel |
| Trucks.SetRutaThenWalkAll | ACO-algorithm/src/core/Camion.java:96-135 | after setRuta(path) and \|path\| advances the truck is on the last cell with no step pending, and its history gained exactly the path |
| Trucks.AdvancePastEndIsIdle | ACO-algorithm/src/core/Camion.java:96-98 | advances after the end change nothing |
| Trucks.AppendToHistory | ACO-algorithm/src/core/Camion.java:127-130 | seeds an empty history with the position, then appends the path; a null path adds nothing |
| TimeText.KeepDigits | ACO-algorithm/src/ACOPlanner.java:362 | only digits, never longer than the input, and a digit string is kept whole |
| TimeText.KeepDigitsOne | ACO-algorithm/src/ACOPlanner.java:362 | a single character survives exactly when it is a digit |
| TimeText.KeepDigitsConcat | ACO-algorithm/src/ACOPlanner.java:362 | the digits of a concatenation are the digits of each part, in order; with the one-character case this fixes the result on every string |
| TimeText.KeepDigitsMembers | ACO-algorithm/src/ACOPlanner.java:362 | every digit of the input is kept and no non-digit is |
| TimeText.ParseInt | ACO-algorithm/src/ACOPlanner.java:362-371 | `Integer.parseInt`: succeeds iff the text is an optional sign and at least one digit whose signed value fits an int, and then yields that signed value |
| TimeText.ParseIntOfToString | ACO-algorithm/src/TiempoUtils.java:5-7 | every int printed in decimal parses back to itself |
| TimeText.Read | ACO-algorithm/src/ACOPlanner.java:362 | the part's digits, read: present iff there is a digit and their value fits an int, and then that value |
| TimeText.ReadIgnoresNonDigit | ACO-algorithm/src/ACOPlanner.java:362 | a non-digit character anywhere in a part does not change what is read |
| TimeText.MinutePart | ACO-algorithm/src/ACOPlanner.java:370-372 | 0 without an 'm'; with one, the value of every digit left, or 0 when that read throws |
| TimeText.HourMinute | ACO-algorithm/src/ACOPlanner.java:365-372 | with no 'h' the hour count is 0 and the minutes are read from the whole rest |
| TimeText.HourMinuteSplit | ACO-algorithm/src/ACOPlanner.java:365-369 | for a rest A h B with no 'h' in A: a throwing read of A gives no hours and no minutes; otherwise A's value and the minutes of B |
| TimeText.Components | ACO-algorithm/src/ACOPlanner.java:359-375 | with no 'd' the day count is 0 and hours and minutes come from the whole text; with none of d, h, m every count is 0 |
| TimeText.ComponentsDaySplit | ACO-algorithm/src/ACOPlanner.java:360-364 | for a text A d B with no 'd' in A: a throwing read of A gives (0, 0, 0); otherwise A's value and the hours and minutes of B |
| TimeText.ComponentsOfParts | ACO-algorithm/src/ACOPlanner.java:360-372 | when the day and hour parts read, the counts are their values and the minutes of what follows the 'h' |
| TimeText.ConvertirATiempoMinutos | ACO-algorithm/src/ACOPlanner.java:357-377 | d*1440 + h*60 + m of the extracted counts, wrapped to int |
| TimeText.CombineIsJavaEvaluation | ACO-algorithm/src/TiempoUtils.java:8 | Java's left-to-right wrapping evaluation of days*24*60 + hours*60 + minutes equals one wrap of the exact sum |
| TimeText.CombineIsConvertirEvaluation | ACO-algorithm/src/ACOPlanner.java:376 | Java's wrapping evaluation of d*1440 + h*60 + m equals one wrap of the exact sum |
| TimeText.ParsearMarcaDeTiempo | ACO-algorithm/src/TiempoUtils.java:2-9 | succeeds iff the split has three fields and each of the first three parses, with their wrapped weighted sum; fails for a missing field iff there are fewer than three and all of them parse |
| TimeText.ConvertirStamp | ACO-algorithm/src/core/ACOPlanner.java:1405-1425 | a canonical stamp DDdHHhMMm reads as DD*1440 + HH*60 + MM |
| TimeText.ParsearStamp | ACO-algorithm/src/TiempoUtils.java:2-9 | the strict parser reads a canonical stamp as DD*1440 + HH*60 + MM |
| TimeText.ConvertirExample | ACO-algorithm/src/ACOPlanner.java:357-377 | "01d00h24m" is 1464 minutes |
| TimeText.ParsearExample | ACO-algorithm/src/TiempoUtils.java:3-8 | "01d00h24m" is 1464 minutes |
| TimeText.ParsersAgreeOnStamps | ACO-algorithm/src/TiempoUtils.java:2-9 | the two parsers agree on canonical stamps |
| TimeText.ConvertirReadsDigitsAfterM | ACO-algorithm/src/ACOPlanner.java:370-372 | digits after the 'm' are read into the minutes |
| TimeText.ConvertirKeepsPartsBeforeError | ACO-algorithm/src/ACOPlanner.java:359-375 | for any text A d B h C: a throwing day read gives nothing, a throwing hour read keeps the days, a throwing minute read keeps days and hours, and with all three reading the counts are their values |
| TimeText.ConvertirWithoutDays | ACO-algorithm/src/ACOPlanner.java:359-376 | for any text, a missing d, h or m letter makes that count 0; with no 'd' the result is the wrapped sum of the hours and minutes read from the whole text |
| TimeText.DelimitersInterchangeable | ACO-algorithm/src/TiempoUtils.java:4 | which of d/h/m separates the fields does not matter |
| TimeText.LettersInAnyOrder | ACO-algorithm/src/TiempoUtils.java:4 | "01h00m24d" reads like "01d00h24m" |
| TimeText.ExtraFieldsIgnored | ACO-algorithm/src/TiempoUtils.java:4-8 | fields after the third do not affect the result |
| TimeText.LeadingDelimiterFails | ACO-algorithm/src/TiempoUtils.java:4-5 | a leading delimiter, or a string made only of delimiters, fails |
| TimeText.TwoFieldsFail | ACO-algorithm/src/TiempoUtils.java:7 | two fields fail |
| TimeText.SignedDayField | ACO-algorithm/src/TiempoUtils.java:5-8 | a signed day field is accepted and counted negative |
| Paths.NextStep | ACO-algorithm/src/core/ACOPlanner.java:822-825 | one adjacent cell one unit closer, fixing x before y |
| Paths.DirectPath | ACO-algorithm/src/core/ACOPlanner.java:817-847 | exactly Manhattan-many unit steps, start excluded, target last, x steps before y steps |
| Paths.PathTo | ACO-algorithm/src/core/ACOPlanner.java:957-1001 | the parent chain of a search node: start to node, unit steps in the grid, non-target cells free at their arrival minute |
| Paths.FindPathAStar | ACO-algorithm/src/core/ACOPlanner.java:957-1001 | a result excludes the start, ends at the target, moves by unit steps inside the grid with non-target cells free at tiempo+g; [] when start == target; failure for an off-grid target |
| Paths.JoinDetour | ACO-algorithm/src/core/ACOPlanner.java:831-842 | accepted direct steps plus a search result are one walk that avoids the closures as tested |
| Paths.BuildManhattanPath | ACO-algorithm/src/core/ACOPlanner.java:810-850 | with no step blocked, the direct path; otherwise the accepted prefix plus an A* route from the last accepted cell at the step's minute; any success is a walk to the target avoiding closures; fails only if a step was blocked |
| Paths.FirstBlockUnique | ACO-algorithm/src/core/ACOPlanner.java:831 | the step at which the route leaves the direct path is unique |
| Paths.FreeStepsAvoid | ACO-algorithm/src/core/ACOPlanner.java:1377-1380 | a direct route whose steps pass the move test avoids the closures at t0+k+2 |
| Intake.MaxCapacidad | ACO-algorithm/src/core/ACOPlanner.java:136-139 | the largest capacity (a member of the fleet's) or 0 for an empty fleet |
| Intake.Fraccionar | ACO-algorithm/src/core/ACOPlanner.java:141-168 | orders within the maximum pass through unchanged; larger ones become NumPartes >= 2 pieces |
| Intake.SplitPieces | ACO-algorithm/src/core/ACOPlanner.java:145-162 | ceil(v/max) pieces, each positive and <= max, summing to v, with id p.id*100+i (int) and the parent's creation minute, cell and deadline |
| Intake.SplitKeepsTotal | ACO-algorithm/src/core/ACOPlanner.java:141-168 | splitting the list keeps the total volume |
| Intake.SplitFits | ACO-algorithm/src/core/ACOPlanner.java:141-168 | after splitting, every order fits the largest truck |
| Intake.SplitIdsMayCollide | ACO-algorithm/src/core/ACOPlanner.java:150 | piece ids can clash with existing order ids |
| Intake.Filtrar | ACO-algorithm/src/core/ACOPlanner.java:170-179 | orders with less than 240 minutes of lead time are marked rejected; others unchanged |
| Intake.PorTiempoExact | ACO-algorithm/src/core/ACOPlanner.java:170-179 | an order is listed at minute t iff it passed the filter and was created at t, in list order |
| Intake.RejectedNeverArrive | ACO-algorithm/src/core/ACOPlanner.java:170-179 | a rejected order is never listed |
| Intake.Incumplido | ACO-algorithm/src/core/ACOPlanner.java:314-319 | the first order neither served nor rejected past its deadline, or none |
| Intake.PrimerColapso | ACO-algorithm/src/core/ACOPlanner.java:181-319 | the first minute with an overdue order, or none through tMax |
| Intake.VencidoFacts | ACO-algorithm/src/core/ACOPlanner.java:315 | rejected orders never collapse; an overdue open order stays overdue |
| Delivery.ElegirRetorno | ACO-algorithm/src/core/ACOPlanner.java:232-254 | meets the return rule: the first tank among those holding the shortfall at least distance, if strictly closer than the plant; none iff no such tank is closer |
| Delivery.EsRetornoUnico | ACO-algorithm/src/core/ACOPlanner.java:237-249 | the return rule has at most one answer, so the scan's choice is determined |
| Delivery.Regresar | ACO-algorithm/src/core/ACOPlanner.java:232-268 | the truck returns under the return rule along a walk avoiding closures, the direct route when it is free; failure only when the direct route to the chosen target is closed; nothing else changes |
| Delivery.Entregar | ACO-algorithm/src/core/ACOPlanner.java:199-268 | the order is served, the truck stands on it, free 15 minutes later, unloads only if it has the room, and returns under the return rule along a walk avoiding closures (the direct route when free); nothing else about the truck changes (tare, capacities, fuel level and totals, pending orders); failure only when that route is closed |
| Delivery.ProcesarEventos | ACO-algorithm/src/core/ACOPlanner.java:195-276 | due events leave the list, the others stay in order; fired orders are served and otherwise unchanged; trucks no due event names are untouched, every truck keeps its id, capacities, tare, fuel level and totals and pending orders, a non-negative load stays non-negative and, with non-negative volumes, never grows, the truck of each last due event is in the delivered state, and a truck named by a single due event has unloaded that order if it had the room; failure only when some due event's return route is closed for the shortfall its truck has at that event |
| Delivery.FalloSinRepetidos | ACO-algorithm/src/core/ACOPlanner.java:199-268 | when no truck has two due events, a failure is a closed return route for the shortfall of a truck of the given fleet |
| Delivery.Pendientes | ACO-algorithm/src/core/ACOPlanner.java:229 | an event stays iff it is not due now |
| Delivery.PasoFlota | ACO-algorithm/src/core/ACOPlanner.java:197-229 | one delivered event updates its truck's summary and leaves every other truck's |
| Delivery.Llegada | ACO-algorithm/src/core/ACOPlanner.java:278-303 | pending steps advance one and leave the tanks; an idle truck not returning is unchanged; a returning one reloads: full load and fuel, available, at its cell, free 15 minutes later, its tank (only) losing the shortfall; the tank choice is kept or cleared |
| Delivery.ReturnTrip | ACO-algorithm/src/core/ACOPlanner.java:278-303 | a returning truck with n steps left ends after n+1 minutes on its path's end, refilled, available, and its tank lost exactly the shortfall |
| Delivery.LlegadaFlotaEffect | ACO-algorithm/src/core/ACOPlanner.java:278-303 | each truck's outcome depends only on itself; tanks no arriving truck reloads from are untouched |
| Delivery.LlegadaFlotaRecarga | ACO-algorithm/src/core/ACOPlanner.java:285-290 | a tank exactly one arriving truck reloads from loses that truck's shortfall |
| Shifts.TurnoDeMinuto | ACO-algorithm/src/core/ACOPlanner.java:1314-1319 | one of "T1", "T2", "T3" |
| Shifts.TurnoDeMinutoMeaning | ACO-algorithm/src/ACOPlanner.java:299-304 | for t >= 0: T1 iff t mod 1440 < 480, T2 iff in [480, 960), T3 otherwise; periodic by day |
| Shifts.TurnoDeMinutoNegative | ACO-algorithm/src/core/ACOPlanner.java:1315-1316 | every negative minute is T1 |
| Shifts.Penal | ACO-algorithm/src/core/ACOPlanner.java:333 | 30, 60 or 90 minutes for "T1", "T2", anything else |
| Shifts.FindCamion | ACO-algorithm/src/core/ACOPlanner.java:726-731 | the first truck with the id, or none |
| Shifts.AplicarAveriaEffect | ACO-algorithm/src/core/ACOPlanner.java:328-342 | an applicable breakdown delays only that truck to t + penalty and records key and id; otherwise nothing changes |
| Shifts.AplicarAveriasBounds | ACO-algorithm/src/core/ACOPlanner.java:328-342 | no truck gets free earlier or changes id; keys and ids only grow, by listed ones |
| Shifts.AplicarAveriasOnce | ACO-algorithm/src/core/ACOPlanner.java:329-330 | breakdowns already recorded in this shift change nothing |
| Shifts.NewKeyMeansBusy | ACO-algorithm/src/core/ACOPlanner.java:333-334 | a newly applied breakdown leaves its truck busy past t |
| Shifts.LiberarMeaning | ACO-algorithm/src/core/ACOPlanner.java:344-348 | an id stays disabled iff no truck has it or its first truck is still busy |
| Shifts.PasoAveriasShift | ACO-algorithm/src/core/ACOPlanner.java:322-348 | the sets are cleared exactly on a change of shift; a truck broken down now is not released now |
| Shifts.PasoAveriasOncePerShift | ACO-algorithm/src/core/ACOPlanner.java:327-342 | replaying a shift whose keys are all recorded changes no truck |
| Colony.SnapshotMembers | ACO-algorithm/src/core/ACOPlanner.java:351-364 | a state is in the snapshot iff some available truck has it |
| Colony.Asignar | ACO-algorithm/src/core/ACOPlanner.java:655-712 | refuses an order already on the route or infeasible; otherwise changes that route only |
| Colony.CommitKeepsBounds | ACO-algorithm/src/core/ACOPlanner.java:666-707 | a commit keeps load and fuel non-negative, lowers the load by the volume and arrives by the deadline |
| Colony.ReplayOrders | ACO-algorithm/src/core/ACOPlanner.java:705-709 | a route's orders are its committed ones, in order |
| Colony.ReplayLoad | ACO-algorithm/src/core/ACOPlanner.java:698-707 | the free load falls by exactly the volumes served |
| Candidates.EntregaActualLast | ACO-algorithm/src/core/ACOPlanner.java:367-371 | an order is mapped iff some event names it, to its last event's minute |
| Candidates.MejorAlt | ACO-algorithm/src/core/ACOPlanner.java:397-406 | the least arrival among snapshot trucks with room, or the start value |
| Candidates.MejorAltBeats | ACO-algorithm/src/core/ACOPlanner.java:397-406 | beats the scheduled minute iff some truck with room arrives earlier |
| Candidates.CandidatosSpec | ACO-algorithm/src/core/ACOPlanner.java:383-414 | the candidate iff in terms of events and snapshot, in list order |
| Candidates.InminenteNuncaCandidato | ACO-algorithm/src/core/ACOPlanner.java:410-414 | an order due within a minute is never a candidate |
| Sampling.Eta | ACO-algorithm/src/core/ACOPlanner.java:609-610 | the heuristic is in (0, 1] |
| Sampling.PesoMeaning | ACO-algorithm/src/core/ACOPlanner.java:585-613 | weight > 0 iff feasible (positive pheromone); never negative |
| Sampling.MuestrearInRange | ACO-algorithm/src/core/ACOPlanner.java:624-649 | the sampled order is always unassigned; the truck exists unless the fleet is empty |
| Sampling.MuestrearNoFallback | ACO-algorithm/src/core/ACOPlanner.java:628-647 | with a draw in [0,1) and a truck, the roulette always lands |
| Sampling.RouletteHitsPositiveWeight | ACO-algorithm/src/core/ACOPlanner.java:631-643 | a positive target never lands on a zero-weight pair |
| Aco.RemoveFirst | ACO-algorithm/src/core/ACOPlanner.java:500-507 | drops the first occurrence only |
| Aco.RemoveFirstIsSplice | ACO-algorithm/src/core/ACOPlanner.java:500-507 | the result is the list with its first occurrence of the order cut out, the rest in order |
| Aco.InitialAntState | ACO-algorithm/src/core/ACOPlanner.java:487-492 | fresh routes and all orders unassigned satisfy the ant invariant |
| Aco.RoundKeepsState | ACO-algorithm/src/core/ACOPlanner.java:494-508 | a round keeps the invariant and removes the sampled order whether or not it commits |
| Aco.Hormiga | ACO-algorithm/src/core/ACOPlanner.java:486-509 | ends within N rounds; fails iff orders and no truck; otherwise valid, at most once, every commit feasible |
| Aco.EvaporarShrinks | ACO-algorithm/src/core/ACOPlanner.java:512 | entries keep their sign, positive ones shrink |
| Aco.DepositarExact | ACO-algorithm/src/core/ACOPlanner.java:526-533 | each entry gains the amount once per listing on a route mapped to its row |
| Aco.DepositarProducto | ACO-algorithm/src/core/ACOPlanner.java:526-533 | each entry gains exactly the amount times the number of listings of its order on routes mapped to its row |
| Aco.DepositarMonotone | ACO-algorithm/src/core/ACOPlanner.java:526-533 | no entry decreases; untouched ones stay; touched ones grow; non-negativity kept |
| Aco.IdToIndexLast | ACO-algorithm/src/core/ACOPlanner.java:515-518 | every id maps to its last position |
| Aco.IdToIndexDistinct | ACO-algorithm/src/core/ACOPlanner.java:515-518 | with distinct ids each maps to its own position |
| Aco.FirstBestIsFirstMinimum | ACO-algorithm/src/core/ACOPlanner.java:519-524 | the kept solution is the first of least cost |
| Aco.EjecutarAco | ACO-algorithm/src/core/ACOPlanner.java:474-537 | the first least-cost ant solution, valid; fails as an ant does or on zero cost |
| Insertion.Insertar | ACO-algorithm/src/core/ACOPlanner.java:783-784 | the stops with p placed before position idx |
| Insertion.SimularSpec | ACO-algorithm/src/core/ACOPlanner.java:778-796 | the simulation succeeds iff every stop is reached by its deadline with room left |
| Insertion.SimularFinal | ACO-algorithm/src/core/ACOPlanner.java:778-796 | a success ends on the last stop after all travel with all volumes taken |
| Insertion.EsDesvioValido | ACO-algorithm/src/core/ACOPlanner.java:736-765 | holds iff inserting at the front passes every check |
| Insertion.SimularRuta | ACO-algorithm/src/core/ACOPlanner.java:786-796 | valid iff the simulation succeeds, with its final minute |
| Insertion.PosicionOptima | ACO-algorithm/src/core/ACOPlanner.java:772-805 | the smallest valid index of least final arrival, or n when none is valid |
| Legacy.Reset | ACO-algorithm/src/ACOPlanner.java:96-101 | full load at (12,8), free at 0; fuel total and fixed data kept |
| Legacy.NewCamion | ACO-algorithm/src/ACOPlanner.java:88-94 | zero fuel total, then the reset state |
| Legacy.ResetIdempotent | ACO-algorithm/src/ACOPlanner.java:96-101 | resetting twice is resetting once |
| Legacy.ResetLibres | ACO-algorithm/src/ACOPlanner.java:141-143 | each truck free by t comes out full, at the depot, free from 0; the others are untouched; ids, capacities, tara and fuel totals are kept |
| Legacy.ResetLibresIdempotent | ACO-algorithm/src/ACOPlanner.java:141-143 | resetting the free trucks twice in a minute is resetting them once |
| Legacy.CambioTurno | ACO-algorithm/src/ACOPlanner.java:150-153 | a new shift clears the processed set only |
| Legacy.AplicarAveriaEffect | ACO-algorithm/src/ACOPlanner.java:154-166 | applies iff the truck exists, is free, and is not disabled or processed; then t + 30/60/90, no other truck changes |
| Legacy.AplicarAveriasOnce | ACO-algorithm/src/ACOPlanner.java:154-166 | the sets grow together; processed or disabled trucks are untouched; newly processed trucks are busy past t |
| Legacy.Liberar | ACO-algorithm/src/ACOPlanner.java:169-175 | an id is released iff some truck with it is free |
| Legacy.LiberarMonotone | ACO-algorithm/src/ACOPlanner.java:169-175 | the later the minute, the fewer ids stay disabled |
| Legacy.AveriaNoLiberada | ACO-algorithm/src/ACOPlanner.java:154-175 | with distinct ids, an id disabled by a breakdown in this minute is not released in the same minute |
| Legacy.Consumo | ACO-algorithm/src/ACOPlanner.java:238-241 | non-negative for non-negative load and tara, and 0 for distance 0 |
| Legacy.ConsumoAdditive | ACO-algorithm/src/ACOPlanner.java:238-241 | fuel for two legs is the fuel for their total distance |
| Legacy.ConsumoMonotone | ACO-algorithm/src/ACOPlanner.java:238-241 | more distance or more load never costs less fuel |
| Legacy.ElegirCamion | ACO-algorithm/src/ACOPlanner.java:198-219 | the strict-< loop picks the first feasible truck |
| Legacy.AsignarUnoEffect | ACO-algorithm/src/ACOPlanner.java:221-231 | an assignment marks the order served, busies the truck to t + 4d and takes off the volume |
| Legacy.AsignarHastaPedidos | ACO-algorithm/src/ACOPlanner.java:198-231 | assigned orders are served; the others are untouched |
| Legacy.AsignarHastaCamiones | ACO-algorithm/src/ACOPlanner.java:198-231 | unassigned trucks are untouched; ids and capacities are kept |
| Legacy.UnaPorCamion | ACO-algorithm/src/ACOPlanner.java:206-226 | with no order at the depot, no truck gets two orders in a minute |
| Legacy.DepotOrdersShareTruck | ACO-algorithm/src/ACOPlanner.java:209-226 | two depot orders can both go to one truck in one minute |
| Legacy.AveriadoSinPedido | ACO-algorithm/src/ACOPlanner.java:154-177 | a truck broken down this minute gets no order |
| Legacy.BusyNeverAssigned | ACO-algorithm/src/ACOPlanner.java:206 | a busy truck gets nothing and is unchanged |

## Left out

- The Swing user interface, the grid visualiser, `main`, all logging and
  printing, and the `PrintStream` redirection. They are presentation only.
- The file loaders (`cargarPedidos`, `cargarBloqueos`, `cargarAverias`) and
  the `reset` that reloads from files. Their lists are inputs here.
- `Bloqueo.estaBloqueado`, the point test the planner's paths use. It is
  not part of this model. It is the parameter `blocked(minute, cell)`.
- `stepOneMinute` (core planner 1024-1281). It repeats the body of the
  minute loop, which is modelled once.
- `aplicarRutas` (core planner 854-955), which turns the colony's routes
  into delivery events. The events are an input of `ProcesarEventos`.
- `Math.random`. Every draw is a parameter.
- The holgura statistics, `System.currentTimeMillis`, the `ret*` fields
  kept for display, and the legacy `camionesQueRecibieronPedidosEnT` set.
  None of them affects a decision.
- TimeText.ParseInt: only ASCII digits are digits. `Integer.parseInt` in
  the strict parser also accepts other Unicode decimal digits.
- Delivery.Entregar: a failure is shown to come from a blocked step on
  the direct return path. That the detour search then found no path at
  all is not stated, because the A* search is not proved complete.
- Delivery.Regresar: the same limit on what a failure states.
- Delivery.ProcesarEventos: for a truck named by two or more due events
  in one minute, the final load is bounded but not given exactly, and a
  failure names the fleet the earlier events left only through the
  summaries, not as one fixed value.
- Floating point. Quantities are exact reals, and `Math.pow` with
  exponents 1 and 2 is written out.
- Int overflow in minute arithmetic (`t + 15`, `t + penalty`). Minutes are
  unbounded integers. Overflow is modelled only in the parsers and in the
  piece ids.
- Insertion.PosicionOptima: `posicionOptimaDeInsercion` starts
  `mejorLlegada` at `Integer.MAX_VALUE` and keeps a position only when its
  final arrival is strictly smaller, so the source never picks a valid
  insertion whose final arrival is `Integer.MAX_VALUE` or more. The model
  starts from `None` and accepts any valid position, since its minutes are
  unbounded.
- Aco.EjecutarAco: a solution of cost 0 that serves orders is a failure.
  In the source it would deposit an infinite amount of pheromone.
- Aco.Hormiga: with an empty snapshot and pending orders the ant fails.
  In the source, `rutas.get(0)` throws.
- The `Double.MAX_VALUE` "none yet" sentinels are modelled as `Option`.
  This applies to the best cost in `ejecutarACO` and to `mejorCosto` in the
  legacy dispatcher.
- HashMap iteration order. Breakdown maps and id maps are read in the order
  of the given sequence.
- Colony.Asignar: the `nuevaCapacidad < 0` branch (core planner 699-701) is
  unreachable after the capacity check, so it is not modelled as a
  separate case.
- Two source behaviours are kept as written rather than treated as
  defects:
  - the core breakdown step does not consult the disabled set, while the
    legacy one does;
  - the fleet snapshot filters on status only.

=== FILE: aco.dfy ===
/** `ejecutarACO`: ITERACIONES rounds of HORMIGAS ants. Each ant starts from
    a copy of the fleet snapshot with every order unassigned, and repeatedly
    samples a (truck, order) pair, tries to commit it, and drops the order
    either way. After each round the pheromone evaporates and every
    solution deposits `Q / cost` on its (truck, order) pairs; the first
    solution of least cost is returned. The random draws are parameters. */
module Aco {
  import opened Wrappers
  import opened Orders
  import opened Colony
  import opened Sampling

  const Iteraciones: nat := 50
  const Hormigas: nat := 10
  /** Evaporation rate and deposit numerator. */
  const Rho: real := 0.1
  const Q: real := 1000.0

  /** `NoTruck`: the snapshot is empty but orders are pending, so the
      sampled truck 0 does not exist and `rutas.get(0)` throws.
      `ZeroCost`: a solution that commits orders costs exactly 0, where the
      source would deposit an infinite amount of pheromone. */
  datatype AcoError = NoTruck | ZeroCost

  // ------------------------------------------------------------- one ant

  function InitRuta(e: CamionEstado): Ruta {
    Ruta(e, [], 0, 0.0)
  }

  /** The order positions 0, 1, ..., n - 1. */
  function Range(n: nat): (s: seq<nat>)
    ensures |s| == n
    ensures forall i :: 0 <= i < n ==> s[i] == i
  {
    seq(n, i requires 0 <= i < n => i)
  }

  predicate Distinct(s: seq<nat>) {
    forall i, j :: 0 <= i < j < |s| ==> s[i] != s[j]
  }

  /** `List.remove(Integer.valueOf(x))`: drops the first occurrence. */
  function RemoveFirst(s: seq<nat>, x: nat): (r: seq<nat>)
    ensures x in s ==> |r| == |s| - 1
    ensures x !in s ==> r == s
    ensures forall y :: y in r ==> y in s
    ensures forall y :: y in s && y != x ==> y in r
    ensures Distinct(s) ==> Distinct(r) && x !in r
  {
    if |s| == 0 then []
    else if s[0] == x then
      assert forall y :: y in s[1..] ==> y in s;
      s[1..]
    else
      var rest := RemoveFirst(s[1..], x);
      assert Distinct(s) ==> s[0] !in s[1..];
      [s[0]] + rest
  }

  /** `indexOf`: where `x` first occurs in `s`. */
  function Posicion(s: seq<nat>, x: nat): (i: nat)
    requires x in s
    ensures i < |s| && s[i] == x && x !in s[..i]
  {
    if s[0] == x then 0
    else
      assert x in s[1..];
      var j := Posicion(s[1..], x);
      assert s[..j + 1] == [s[0]] + s[1..][..j];
      j + 1
  }

  /** Removing `x` cuts out exactly its first occurrence: everything before
      it and everything after it stays, in order. */
  lemma {:induction false} RemoveFirstIsSplice(s: seq<nat>, x: nat)
    requires x in s
    ensures RemoveFirst(s, x) == s[..Posicion(s, x)] + s[Posicion(s, x) + 1..]
    decreases |s|
  {
    if s[0] != x {
      assert x in s[1..];
      RemoveFirstIsSplice(s[1..], x);
      var j := Posicion(s[1..], x);
      assert s[..j + 1] == [s[0]] + s[1..][..j];
      assert s[j + 2..] == s[1..][j + 1..];
    }
  }

  /** No order sits on two routes, nor twice on one. */
  predicate AtMostOnce(rutas: seq<Ruta>) {
    forall v1, i1, v2, i2 ::
      0 <= v1 < |rutas| && 0 <= v2 < |rutas| &&
      0 <= i1 < |rutas[v1].pedidos| && 0 <= i2 < |rutas[v2].pedidos| &&
      rutas[v1].pedidos[i1] == rutas[v2].pedidos[i2]
      ==> v1 == v2 && i1 == i2
  }

  /** A route is what committing its orders, in order, to its truck's
      snapshot yields, and every commit passed the three filters. */
  predicate RouteValid(e: CamionEstado, r: Ruta, pedidos: seq<Pedido>, t: int) {
    && AllFeasible(InitRuta(e), r.pedidos, pedidos, t)
    && r == Replay(InitRuta(e), r.pedidos, pedidos, t)
  }

  /** One route per snapshot truck, each valid, no order served twice. */
  predicate ValidSolution(flota: seq<CamionEstado>, pedidos: seq<Pedido>, t: int, rutas: seq<Ruta>) {
    && |rutas| == |flota|
    && (forall v :: 0 <= v < |rutas| ==> RouteValid(flota[v], rutas[v], pedidos, t))
    && AtMostOnce(rutas)
  }

  /** What holds between two rounds of an ant: a valid partial solution,
      and a duplicate-free list of unassigned orders none of which is on a
      route. */
  predicate AntState(flota: seq<CamionEstado>, pedidos: seq<Pedido>, t: int, rutas: seq<Ruta>, na: seq<nat>) {
    && ValidSolution(flota, pedidos, t, rutas)
    && Distinct(na)
    && (forall y :: y in na ==> y < |pedidos|)
    && (forall v, i :: 0 <= v < |rutas| && 0 <= i < |rutas[v].pedidos| ==> rutas[v].pedidos[i] !in na)
  }

  /** `tau` has one row of `n` entries per truck. */
  predicate Shape(tau: seq<seq<real>>, m: nat, n: nat) {
    |tau| == m && forall v :: 0 <= v < m ==> |tau[v]| == n
  }

  lemma InitialAntState(flota: seq<CamionEstado>, pedidos: seq<Pedido>, t: int)
    ensures AntState(flota, pedidos, t, InitRutas(flota), Range(|pedidos|))
  {
    var rs := InitRutas(flota);
    forall v | 0 <= v < |rs| ensures RouteValid(flota[v], rs[v], pedidos, t) {
      assert rs[v] == InitRuta(flota[v]);
    }
  }

  /** One round of an ant keeps the state: whether or not the commit of the
      sampled pair succeeds, the order leaves the unassigned list, and a
      successful commit extends one route by an order no route had. */
  lemma RoundKeepsState(flota: seq<CamionEstado>, pedidos: seq<Pedido>, t: int,
                        rutas: seq<Ruta>, na: seq<nat>, v: nat, idx: nat)
    requires AntState(flota, pedidos, t, rutas, na)
    requires v < |rutas| && idx in na
    ensures idx < |pedidos|
    ensures AntState(flota, pedidos, t, Asignar(v, idx, rutas, pedidos, t).0, RemoveFirst(na, idx))
  {
    var res := Asignar(v, idx, rutas, pedidos, t);
    var na2 := RemoveFirst(na, idx);
    if res.1 {
      var a := Aplicar(rutas[v], idx, pedidos[idx], t);
      CommitRouteValid(flota, pedidos, t, rutas, v, idx);
      AppendKeepsAtMostOnce(rutas, v, a, idx, na);
      var rs := res.0;
      assert rs == rutas[v := a];
      forall u | 0 <= u < |rs| ensures RouteValid(flota[u], rs[u], pedidos, t) {
      }
      NotPendingAfterDrop(rs, na, idx);
    } else {
      NotPendingAfterDrop(rutas, na, idx);
    }
  }

  /** A feasible commit extends a valid route to a valid route. */
  lemma CommitRouteValid(flota: seq<CamionEstado>, pedidos: seq<Pedido>, t: int, rutas: seq<Ruta>, v: nat, idx: nat)
    requires ValidSolution(flota, pedidos, t, rutas) && v < |rutas| && idx < |pedidos|
    requires Factible(rutas[v].estado, pedidos[idx], t)
    ensures Aplicar(rutas[v], idx, pedidos[idx], t).pedidos == rutas[v].pedidos + [idx]
    ensures RouteValid(flota[v], Aplicar(rutas[v], idx, pedidos[idx], t), pedidos, t)
  {
    var r0 := InitRuta(flota[v]);
    assert RouteValid(flota[v], rutas[v], pedidos, t);
    ReplayStep(r0, rutas[v].pedidos, pedidos, t, idx);
  }

  /** Appending to one route an order that no route lists keeps every
      order on at most one route. */
  lemma AppendKeepsAtMostOnce(rutas: seq<Ruta>, v: nat, a: Ruta, idx: nat, na: seq<nat>)
    requires AtMostOnce(rutas) && v < |rutas| && a.pedidos == rutas[v].pedidos + [idx] && idx in na
    requires forall u, i :: 0 <= u < |rutas| && 0 <= i < |rutas[u].pedidos| ==> rutas[u].pedidos[i] !in na
    ensures AtMostOnce(rutas[v := a])
  {
    var rs := rutas[v := a];
    var n := |rutas[v].pedidos|;
    forall v1, i1, v2, i2 |
      0 <= v1 < |rs| && 0 <= v2 < |rs| &&
      0 <= i1 < |rs[v1].pedidos| && 0 <= i2 < |rs[v2].pedidos| &&
      rs[v1].pedidos[i1] == rs[v2].pedidos[i2]
      ensures v1 == v2 && i1 == i2
    {
      var new1 := v1 == v && i1 == n;
      var new2 := v2 == v && i2 == n;
      if !new1 {
        assert rs[v1].pedidos[i1] == rutas[v1].pedidos[i1];
      }
      if !new2 {
        assert rs[v2].pedidos[i2] == rutas[v2].pedidos[i2];
      }
    }
  }

  /** Dropping an order from the unassigned list keeps every routed order
      off it, given the only new routed order is the one dropped. */
  lemma NotPendingAfterDrop(rs: seq<Ruta>, na: seq<nat>, idx: nat)
    requires Distinct(na)
    requires forall u, i :: 0 <= u < |rs| && 0 <= i < |rs[u].pedidos| ==> rs[u].pedidos[i] !in na || rs[u].pedidos[i] == idx
    ensures forall u, i :: 0 <= u < |rs| && 0 <= i < |rs[u].pedidos| ==> rs[u].pedidos[i] !in RemoveFirst(na, idx)
  {
  }

  /** One ant (the body of the `HORMIGAS` loop): rounds of sample, commit,
      drop, until no order is unassigned. `draws(k)` is the `Math.random()`
      of round `k`. The ant fails exactly when orders are pending and the
      snapshot is empty; otherwise its routes form a valid solution. */
  method Hormiga(pedidos: seq<Pedido>, flota: seq<CamionEstado>, tau: seq<seq<real>>, t: int, draws: nat -> real)
    returns (r: Result<seq<Ruta>, AcoError>)
    requires Shape(tau, |flota|, |pedidos|)
    ensures r.Failure? <==> |flota| == 0 && |pedidos| > 0
    ensures r.Failure? ==> r.error == NoTruck
    ensures r.Success? ==> ValidSolution(flota, pedidos, t, r.value)
  {
    var nv := |flota|;
    var na := Range(|pedidos|);
    var rutas := InitRutas(flota);
    InitialAntState(flota, pedidos, t);
    var k := 0;
    while |na| > 0
      invariant AntState(flota, pedidos, t, rutas, na)
      invariant nv == 0 ==> |na| == |pedidos|
      decreases |na|
    {
      var ps := Pairs(nv, na);
      var w := Pesos(rutas, pedidos, tau, t, ps);
      MuestrearInRange(nv, na, w, draws(k));
      var s := Muestrear(ps, w, draws(k), na);
      if s.camion >= |rutas| {
        return Failure(NoTruck);
      }
      RoundKeepsState(flota, pedidos, t, rutas, na, s.camion, s.pedido);
      var res := Asignar(s.camion, s.pedido, rutas, pedidos, t);
      rutas := res.0;
      na := RemoveFirst(na, s.pedido);
      k := k + 1;
    }
    return Success(rutas);
  }

  // ----------------------------------------------------------- pheromone

  /** The initial matrix: every entry 1.0. */
  function Uniform(m: nat, n: nat, x: real): (tau: seq<seq<real>>)
    ensures Shape(tau, m, n)
    ensures forall v, i :: 0 <= v < m && 0 <= i < n ==> tau[v][i] == x
  {
    seq(m, v requires 0 <= v < m => seq(n, i requires 0 <= i < n => x))
  }

  /** Every entry times `1 - RHO`. */
  function Evaporar(tau: seq<seq<real>>): (r: seq<seq<real>>)
    ensures |r| == |tau|
    ensures forall v :: 0 <= v < |tau| ==> |r[v]| == |tau[v]|
  {
    seq(|tau|, v requires 0 <= v < |tau| =>
      seq(|tau[v]|, i requires 0 <= i < |tau[v]| => tau[v][i] * (1.0 - Rho)))
  }

  /** Evaporation loses a tenth of every entry: non-negative entries stay
      non-negative, positive ones strictly shrink, zeros stay zero. */
  lemma EvaporarShrinks(tau: seq<seq<real>>, v: nat, i: nat)
    requires v < |tau| && i < |tau[v]|
    ensures Evaporar(tau)[v][i] + Rho * tau[v][i] == tau[v][i]
    ensures tau[v][i] >= 0.0 ==> 0.0 <= Evaporar(tau)[v][i] <= tau[v][i]
    ensures tau[v][i] > 0.0 ==> Evaporar(tau)[v][i] < tau[v][i]
  {
  }

  /** How often `i` occurs in `s`. */
  function Occurrences(s: seq<nat>, i: nat): nat {
    multiset(s)[i]
  }

  /** Adds `amount` to the entry of each listed order, once per listing. */
  function DepositRow(row: seq<real>, idxs: seq<nat>, amount: real): (r: seq<real>)
    requires forall k :: 0 <= k < |idxs| ==> idxs[k] < |row|
    ensures |r| == |row|
    decreases |idxs|
  {
    if |idxs| == 0 then row
    else DepositRow(row[idxs[0] := row[idxs[0]] + amount], idxs[1..], amount)
  }

  /** Each entry of the row gains `amount` per listing of its order. */
  lemma {:induction false} DepositRowExact(row: seq<real>, idxs: seq<nat>, amount: real, i: nat)
    requires forall k :: 0 <= k < |idxs| ==> idxs[k] < |row|
    requires i < |row|
    ensures DepositRow(row, idxs, amount)[i] == row[i] + Times(amount, Occurrences(idxs, i))
    decreases |idxs|
  {
    if |idxs| > 0 {
      var row1 := row[idxs[0] := row[idxs[0]] + amount];
      DepositRowExact(row1, idxs[1..], amount, i);
      assert idxs == [idxs[0]] + idxs[1..];
      assert multiset(idxs) == multiset{idxs[0]} + multiset(idxs[1..]);
      var c := Occurrences(idxs[1..], i);
      if idxs[0] == i {
        assert Occurrences(idxs, i) == c + 1;
      } else {
        assert Occurrences(idxs, i) == c;
      }
    }
  }

  /** Every listed order indexes into a row of `n` entries. */
  predicate OrdersBelow(sol: seq<Ruta>, n: nat) {
    forall u, k :: 0 <= u < |sol| && 0 <= k < |sol[u].pedidos| ==> sol[u].pedidos[k] < n
  }

  /** Routes' orders index into rows of `n` entries and mapped ids index
      into the matrix. */
  predicate Depositable(tau: seq<seq<real>>, n: nat, ids: map<string, nat>, sol: seq<Ruta>) {
    && Shape(tau, |tau|, n)
    && (forall id :: id in ids ==> ids[id] < |tau|)
    && OrdersBelow(sol, n)
  }

  /** One route's deposit: its truck id is looked up in `ids` (a missing
      id is skipped) and `amount` is added to that row's entry of each of
      the route's orders. */
  function DepositRoute(tau: seq<seq<real>>, n: nat, ids: map<string, nat>, ruta: Ruta, amount: real): (r: seq<seq<real>>)
    requires Depositable(tau, n, ids, [ruta])
    ensures Shape(r, |tau|, n)
  {
    if ruta.estado.id in ids then
      var v := ids[ruta.estado.id];
      assert forall k :: 0 <= k < |ruta.pedidos| ==> ruta.pedidos[k] < n by {
        forall k | 0 <= k < |ruta.pedidos| ensures ruta.pedidos[k] < n {
          assert [ruta][0].pedidos[k] < n;
        }
      }
      tau[v := DepositRow(tau[v], ruta.pedidos, amount)]
    else tau
  }

  /** The deposit loop over one solution, route by route. */
  function Depositar(tau: seq<seq<real>>, n: nat, ids: map<string, nat>, sol: seq<Ruta>, amount: real): (r: seq<seq<real>>)
    requires Depositable(tau, n, ids, sol)
    ensures Shape(r, |tau|, n)
    decreases |sol|
  {
    if |sol| == 0 then tau
    else
      DepositableSplit(sol, n);
      Depositar(DepositRoute(tau, n, ids, sol[0], amount), n, ids, sol[1..], amount)
  }

  lemma DepositableSplit(sol: seq<Ruta>, n: nat)
    requires OrdersBelow(sol, n) && |sol| > 0
    ensures OrdersBelow([sol[0]], n) && OrdersBelow(sol[1..], n)
  {
    forall u, k | 0 <= u < |sol[1..]| && 0 <= k < |sol[1..][u].pedidos|
      ensures sol[1..][u].pedidos[k] < n
    {
      assert sol[1..][u] == sol[u + 1];
    }
    forall u, k | 0 <= u < 1 && 0 <= k < |[sol[0]][u].pedidos|
      ensures [sol[0]][u].pedidos[k] < n
    {
      assert [sol[0]][u] == sol[0];
    }
  }

  /** How many times the solution lists order `i` on a route whose truck id
      maps to row `v`. */
  function Hits(ids: map<string, nat>, sol: seq<Ruta>, v: nat, i: nat): nat
    decreases |sol|
  {
    if |sol| == 0 then 0
    else RouteHits(ids, sol[0], v, i) + Hits(ids, sol[1..], v, i)
  }

  function RouteHits(ids: map<string, nat>, ruta: Ruta, v: nat, i: nat): nat {
    var id := ruta.estado.id;
    if id in ids && ids[id] == v then Occurrences(ruta.pedidos, i) else 0
  }

  lemma DepositRouteExact(tau: seq<seq<real>>, n: nat, ids: map<string, nat>, ruta: Ruta, amount: real, v: nat, i: nat)
    requires Depositable(tau, n, ids, [ruta]) && v < |tau| && i < n
    ensures DepositRoute(tau, n, ids, ruta, amount)[v][i] == tau[v][i] + Times(amount, RouteHits(ids, ruta, v, i))
  {
    var id := ruta.estado.id;
    if id in ids && ids[id] == v {
      assert forall k :: 0 <= k < |ruta.pedidos| ==> ruta.pedidos[k] < n by {
        forall k | 0 <= k < |ruta.pedidos| ensures ruta.pedidos[k] < n {
          assert [ruta][0].pedidos[k] < n;
        }
      }
      DepositRowExact(tau[v], ruta.pedidos, amount, i);
    }
  }

  /** `c` deposits of `a`: repeated addition, which is `a * c`. */
  function Times(a: real, c: nat): real {
    if c == 0 then 0.0 else Times(a, c - 1) + a
  }

  lemma {:induction false} TimesIsProduct(a: real, c: nat)
    ensures Times(a, c) == a * c as real
  {
    if c > 0 {
      TimesIsProduct(a, c - 1);
      assert a * c as real == a * (c - 1) as real + a;
    }
  }

  lemma {:induction false} TimesAdd(a: real, x: nat, y: nat)
    ensures Times(a, x + y) == Times(a, x) + Times(a, y)
  {
    if y > 0 {
      TimesAdd(a, x, y - 1);
    }
  }

  lemma {:induction false} TimesPositive(a: real, c: nat)
    requires a > 0.0 && c > 0
    ensures Times(a, c) >= a
  {
    if c > 1 {
      TimesPositive(a, c - 1);
    }
  }

  /** The deposit adds `amount` to entry (v, i) once for every listing of
      order `i` on a route mapped to row `v`, and nothing else. */
  lemma {:induction false} DepositarExact(tau: seq<seq<real>>, n: nat, ids: map<string, nat>, sol: seq<Ruta>, amount: real, v: nat, i: nat)
    requires Depositable(tau, n, ids, sol) && v < |tau| && i < n
    ensures Depositar(tau, n, ids, sol, amount)[v][i] == tau[v][i] + Times(amount, Hits(ids, sol, v, i))
    decreases |sol|
  {
    if |sol| > 0 {
      DepositableSplit(sol, n);
      var tau1 := DepositRoute(tau, n, ids, sol[0], amount);
      var h0 := RouteHits(ids, sol[0], v, i);
      var h1 := Hits(ids, sol[1..], v, i);
      DepositRouteExact(tau, n, ids, sol[0], amount, v, i);
      DepositarExact(tau1, n, ids, sol[1..], amount, v, i);
      TimesAdd(amount, h0, h1);
      calc {
        Depositar(tau, n, ids, sol, amount)[v][i];
        Depositar(tau1, n, ids, sol[1..], amount)[v][i];
        tau1[v][i] + Times(amount, h1);
        tau[v][i] + Times(amount, h0) + Times(amount, h1);
        tau[v][i] + Times(amount, h0 + h1);
        { assert Hits(ids, sol, v, i) == h0 + h1; }
        tau[v][i] + Times(amount, Hits(ids, sol, v, i));
      }
    }
  }

  /** The gain of entry (v, i) is `amount` times its number of hits. */
  lemma DepositarProducto(tau: seq<seq<real>>, n: nat, ids: map<string, nat>, sol: seq<Ruta>, amount: real, v: nat, i: nat)
    requires Depositable(tau, n, ids, sol) && v < |tau| && i < n
    ensures Depositar(tau, n, ids, sol, amount)[v][i] == tau[v][i] + Producto(amount, Hits(ids, sol, v, i))
  {
    DepositarExact(tau, n, ids, sol, amount, v, i);
    SumaProducto(Depositar(tau, n, ids, sol, amount)[v][i], tau[v][i], amount, Hits(ids, sol, v, i));
  }

  /** `a` times the count `h`. */
  function Producto(a: real, h: nat): real {
    a * (h as real)
  }

  lemma SumaProducto(x: real, base: real, a: real, h: nat)
    requires x == base + Times(a, h)
    ensures x == base + Producto(a, h)
  {
    TimesIsProduct(a, h);
  }

  /** With a positive amount no entry decreases, an entry no route touches
      is unchanged, a touched one strictly grows, and a non-negative matrix
      stays non-negative. */
  lemma DepositarMonotone(tau: seq<seq<real>>, n: nat, ids: map<string, nat>, sol: seq<Ruta>, amount: real, v: nat, i: nat)
    requires Depositable(tau, n, ids, sol) && v < |tau| && i < n && amount > 0.0
    ensures Depositar(tau, n, ids, sol, amount)[v][i] >= tau[v][i]
    ensures Hits(ids, sol, v, i) == 0 <==> Depositar(tau, n, ids, sol, amount)[v][i] == tau[v][i]
    ensures tau[v][i] >= 0.0 ==> Depositar(tau, n, ids, sol, amount)[v][i] >= 0.0
  {
    DepositarExact(tau, n, ids, sol, amount, v, i);
    var h := Hits(ids, sol, v, i);
    if h > 0 {
      TimesPositive(amount, h);
    }
  }

  /** `idToIndex`: each snapshot truck's id to its position; with a
      repeated id the last position wins, as with `HashMap.put`. */
  function IdToIndex(flota: seq<CamionEstado>): (m: map<string, nat>)
    ensures forall id :: id in m ==> m[id] < |flota| && flota[m[id]].id == id
    decreases |flota|
  {
    if |flota| == 0 then map[]
    else IdToIndex(flota[..|flota| - 1])[flota[|flota| - 1].id := |flota| - 1]
  }

  /** Every snapshot id is mapped, to the last truck with that id. */
  lemma {:induction false} IdToIndexLast(flota: seq<CamionEstado>, v: nat)
    requires v < |flota|
    ensures flota[v].id in IdToIndex(flota)
    ensures v <= IdToIndex(flota)[flota[v].id]
    ensures forall u :: IdToIndex(flota)[flota[v].id] < u < |flota| ==> flota[u].id != flota[v].id
  {
    IdToIndexCovers(flota, v);
    IdToIndexNoLater(flota, flota[v].id);
  }

  lemma {:induction false} IdToIndexCovers(flota: seq<CamionEstado>, v: nat)
    requires v < |flota|
    ensures flota[v].id in IdToIndex(flota) && v <= IdToIndex(flota)[flota[v].id]
    decreases |flota|
  {
    var last := |flota| - 1;
    var front := flota[..last];
    if v < last && flota[last].id != flota[v].id {
      IdToIndexCovers(front, v);
      assert front[v] == flota[v];
    }
  }

  lemma {:induction false} IdToIndexNoLater(flota: seq<CamionEstado>, id: string)
    requires id in IdToIndex(flota)
    ensures forall u :: IdToIndex(flota)[id] < u < |flota| ==> flota[u].id != id
    decreases |flota|
  {
    var last := |flota| - 1;
    var front := flota[..last];
    if flota[last].id != id {
      assert id in IdToIndex(front);
      IdToIndexNoLater(front, id);
      forall u | IdToIndex(flota)[id] < u < |flota| ensures flota[u].id != id {
        if u < last {
          assert front[u] == flota[u];
        }
      }
    }
  }

  /** With distinct ids the lookup returns each truck's own position, so
      each route deposits on its own truck's row. */
  lemma IdToIndexDistinct(flota: seq<CamionEstado>, v: nat)
    requires v < |flota|
    requires forall a, b :: 0 <= a < b < |flota| ==> flota[a].id != flota[b].id
    ensures flota[v].id in IdToIndex(flota)
    ensures IdToIndex(flota)[flota[v].id] == v
  {
    IdToIndexLast(flota, v);
  }

  // ---------------------------------------------------------------- cost

  /** `calcularCosteTotal`: the fuel of all routes. */
  function CosteTotal(sol: seq<Ruta>): real {
    if |sol| == 0 then 0.0 else sol[0].consumo + CosteTotal(sol[1..])
  }

  predicate HasOrders(sol: seq<Ruta>) {
    exists u :: 0 <= u < |sol| && |sol[u].pedidos| > 0
  }

  /** The solution `mejorSol` ends on: scanning in order and replacing the
      best only on a strictly smaller cost. */
  function FirstBest(sols: seq<seq<Ruta>>): (k: nat)
    requires |sols| > 0
    ensures k < |sols|
    decreases |sols|
  {
    if |sols| == 1 then 0
    else
      var k := FirstBest(sols[..|sols| - 1]);
      if CosteTotal(sols[|sols| - 1]) < CosteTotal(sols[k]) then |sols| - 1 else k
  }

  /** The scan returns the first solution of least cost. */
  lemma {:induction false} FirstBestIsFirstMinimum(sols: seq<seq<Ruta>>)
    requires |sols| > 0
    ensures forall j :: 0 <= j < |sols| ==> CosteTotal(sols[FirstBest(sols)]) <= CosteTotal(sols[j])
    ensures forall j :: 0 <= j < FirstBest(sols) ==> CosteTotal(sols[FirstBest(sols)]) < CosteTotal(sols[j])
    decreases |sols|
  {
    if |sols| > 1 {
      var front := sols[..|sols| - 1];
      FirstBestIsFirstMinimum(front);
      assert forall j :: 0 <= j < |front| ==> front[j] == sols[j];
    }
  }

  lemma AllFeasibleInRange(r0: Ruta, idxs: seq<nat>, pedidos: seq<Pedido>, t: int)
    requires AllFeasible(r0, idxs, pedidos, t)
    ensures forall k :: 0 <= k < |idxs| ==> idxs[k] < |pedidos|
    decreases |idxs|
  {
    if |idxs| > 0 {
      AllFeasibleInRange(r0, idxs[..|idxs| - 1], pedidos, t);
      assert forall k :: 0 <= k < |idxs| - 1 ==> idxs[..|idxs| - 1][k] == idxs[k];
    }
  }

  lemma ValidDepositable(tau: seq<seq<real>>, flota: seq<CamionEstado>, pedidos: seq<Pedido>, t: int, sol: seq<Ruta>)
    requires Shape(tau, |flota|, |pedidos|) && ValidSolution(flota, pedidos, t, sol)
    ensures Depositable(tau, |pedidos|, IdToIndex(flota), sol)
  {
    forall u | 0 <= u < |sol| ensures forall k :: 0 <= k < |sol[u].pedidos| ==> sol[u].pedidos[k] < |pedidos| {
      AllFeasibleInRange(InitRuta(flota[u]), sol[u].pedidos, pedidos, t);
    }
  }

  // ----------------------------------------------------------- the colony

  /** `ejecutarACO`. `draw(it, h, k)` is the draw of round `k` of ant `h`
      in iteration `it`. `sols` lists every ant's solution in the order the
      source scans them. The result is the first of them of least cost; it
      fails exactly as an ant does, or on a zero-cost solution that serves
      an order. */
  method EjecutarAco(pedidos: seq<Pedido>, flota: seq<CamionEstado>, t: int, draw: (nat, nat, nat) -> real)
    returns (r: Result<seq<Ruta>, AcoError>, sols: seq<seq<Ruta>>)
    ensures r == Failure(NoTruck) <==> |flota| == 0 && |pedidos| > 0
    ensures forall s :: s in sols ==> ValidSolution(flota, pedidos, t, s)
    ensures r == Failure(ZeroCost) ==> |sols| > 0 && CosteTotal(sols[|sols| - 1]) == 0.0 && HasOrders(sols[|sols| - 1])
    ensures r.Success? ==> |sols| == Iteraciones * Hormigas && r.value == sols[FirstBest(sols)]
    ensures r.Success? ==> ValidSolution(flota, pedidos, t, r.value)
  {
    var nv := |flota|;
    var n := |pedidos|;
    var tau := Uniform(nv, n, 1.0);
    var ids := IdToIndex(flota);
    sols := [];
    var it := 0;
    while it < Iteraciones
      invariant it <= Iteraciones
      invariant Shape(tau, nv, n)
      invariant |sols| == it * Hormigas
      invariant forall s :: s in sols ==> ValidSolution(flota, pedidos, t, s)
      invariant it > 0 ==> !(nv == 0 && n > 0)
    {
      var soluciones: seq<seq<Ruta>> := [];
      var h := 0;
      while h < Hormigas
        invariant h <= Hormigas
        invariant |soluciones| == h
        invariant forall s :: s in soluciones ==> ValidSolution(flota, pedidos, t, s)
        invariant h > 0 ==> !(nv == 0 && n > 0)
      {
        var a := Hormiga(pedidos, flota, tau, t, (k: nat) => draw(it, h, k));
        if a.Failure? {
          return Failure(NoTruck), sols;
        }
        soluciones := soluciones + [a.value];
        h := h + 1;
      }
      tau := Evaporar(tau);
      var j := 0;
      while j < |soluciones|
        invariant j <= |soluciones|
        invariant Shape(tau, nv, n)
        invariant |sols| == it * Hormigas + j
        invariant forall s :: s in sols ==> ValidSolution(flota, pedidos, t, s)
      {
        var s := soluciones[j];
        var coste := CosteTotal(s);
        sols := sols + [s];
        if coste == 0.0 && HasOrders(s) {
          return Failure(ZeroCost), sols;
        }
        if coste != 0.0 {
          ValidDepositable(tau, flota, pedidos, t, s);
          tau := Depositar(tau, n, ids, s, Q / coste);
        }
        j := j + 1;
      }
      it := it + 1;
    }
    return Success(sols[FirstBest(sols)]), sols;
  }
}

=== FILE: bloqueo.dfy ===
/** Time-windowed road closures (`Bloqueo`): a polyline of grid vertices whose
    consecutive pairs become blocked edges, active on the closed interval
    [inicio, fin]. Edges are keyed by their normalised corner coordinates. */
module Blockage {
  import opened Grid

  /** The edge key `min x, min y - max x, max y`. The source renders it as a
      string; that rendering is injective, so the four numbers are the key. */
  datatype EdgeKey = EdgeKey(minX: int, minY: int, maxX: int, maxY: int)

  datatype Bloqueo = Bloqueo(inicio: int, fin: int, aristas: set<EdgeKey>)

  function Min(a: int, b: int): int { if a <= b then a else b }
  function Max(a: int, b: int): int { if a <= b then b else a }

  function AristaId(x1: int, y1: int, x2: int, y2: int): (k: EdgeKey)
    ensures k.minX <= k.maxX && k.minY <= k.maxY
    ensures {k.minX, k.maxX} == {x1, x2} && {k.minY, k.maxY} == {y1, y2}
  {
    EdgeKey(Min(x1, x2), Min(y1, y2), Max(x1, x2), Max(y1, y2))
  }

  function EdgeOf(a: Cell, b: Cell): EdgeKey { AristaId(a.x, a.y, b.x, b.y) }

  lemma AristaIdSymmetric(x1: int, y1: int, x2: int, y2: int)
    ensures AristaId(x1, y1, x2, y2) == AristaId(x2, y2, x1, y1)
  {
  }

  predicate AxisAligned(a: Cell, b: Cell) { a.x == b.x || a.y == b.y }

  /** For axis-aligned segments the key identifies the unordered pair of
      endpoints exactly. */
  lemma AxisAlignedKeyUnique(a: Cell, b: Cell, c: Cell, d: Cell)
    requires AxisAligned(a, b) && AxisAligned(c, d)
    ensures EdgeOf(a, b) == EdgeOf(c, d) <==> ((a == c && b == d) || (a == d && b == c))
  {
  }

  /** Diagonal pairs are not told apart: the two diagonals of a unit square
      share one key. */
  lemma DiagonalKeysCollide()
    ensures EdgeOf(Cell(0, 1), Cell(1, 0)) == EdgeOf(Cell(0, 0), Cell(1, 1))
    ensures Cell(0, 1) != Cell(0, 0) && Cell(0, 1) != Cell(1, 1)
  {
  }

  /** The keys of the consecutive vertex pairs of a polyline, collected
      pair by pair as the constructor's loop does. */
  function PolylineKeys(coords: seq<Cell>): (ks: set<EdgeKey>)
    ensures |coords| < 2 ==> ks == {}
    ensures |coords| >= 2 ==> |ks| <= |coords| - 1
    decreases |coords|
  {
    if |coords| < 2 then {}
    else {EdgeOf(coords[0], coords[1])} + PolylineKeys(coords[1..])
  }

  /** A key is recorded exactly when it is the key of some consecutive pair. */
  lemma {:induction false} PolylineKeysExact(coords: seq<Cell>, k: EdgeKey)
    ensures k in PolylineKeys(coords) <==> exists i :: 0 <= i < |coords| - 1 && k == EdgeOf(coords[i], coords[i + 1])
    decreases |coords|
  {
    if |coords| >= 2 {
      var tail := coords[1..];
      PolylineKeysExact(tail, k);
      if k in PolylineKeys(tail) {
        var j :| 0 <= j < |tail| - 1 && k == EdgeOf(tail[j], tail[j + 1]);
        assert k == EdgeOf(coords[j + 1], coords[j + 2]);
      }
      if exists i :: 0 <= i < |coords| - 1 && k == EdgeOf(coords[i], coords[i + 1]) {
        var i :| 0 <= i < |coords| - 1 && k == EdgeOf(coords[i], coords[i + 1]);
        if i > 0 {
          assert k == EdgeOf(tail[i - 1], tail[i]);
        }
      }
    }
  }

  /** The constructor: one key per consecutive vertex pair. */
  function NewBloqueo(inicio: int, fin: int, coords: seq<Cell>): (b: Bloqueo)
    ensures b.inicio == inicio && b.fin == fin
    ensures b.aristas == PolylineKeys(coords)
  {
    Bloqueo(inicio, fin, PolylineKeys(coords))
  }

  /** Whether the closure blocks the move between (x1,y1) and (x2,y2) at minute t. */
  function Afecta(b: Bloqueo, t: int, x1: int, y1: int, x2: int, y2: int): (r: bool)
    ensures r <==> b.inicio <= t <= b.fin && AristaId(x1, y1, x2, y2) in b.aristas
  {
    t >= b.inicio && t <= b.fin && AristaId(x1, y1, x2, y2) in b.aristas
  }

  lemma AfectaSymmetric(b: Bloqueo, t: int, x1: int, y1: int, x2: int, y2: int)
    ensures Afecta(b, t, x1, y1, x2, y2) == Afecta(b, t, x2, y2, x1, y1)
  {
    assert AristaId(x1, y1, x2, y2) == AristaId(x2, y2, x1, y1);
  }

  /** A constructed closure reports exactly the pairs of consecutive vertices
      (in either direction, or anything sharing their key) within its window. */
  lemma AfectaOfPolyline(inicio: int, fin: int, coords: seq<Cell>, t: int, i: nat)
    requires i + 1 < |coords|
    ensures Afecta(NewBloqueo(inicio, fin, coords), t, coords[i].x, coords[i].y, coords[i + 1].x, coords[i + 1].y)
            <==> inicio <= t <= fin
  {
    PolylineKeysExact(coords, EdgeOf(coords[i], coords[i + 1]));
  }

  /** Only vertex pairs are stored: when every segment of the polyline is
      longer than one unit, no unit move is ever reported blocked, not even one
      lying strictly inside a segment. */
  lemma {:induction false} UnitMoveInsideLongSegmentsNotBlocked(inicio: int, fin: int, coords: seq<Cell>, t: int, a: Cell, c: Cell)
    requires forall i :: 0 <= i < |coords| - 1 ==> Manhattan(coords[i], coords[i + 1]) >= 2
    requires Adjacent(a, c)
    ensures !Afecta(NewBloqueo(inicio, fin, coords), t, a.x, a.y, c.x, c.y)
  {
    var k := EdgeOf(a, c);
    PolylineKeysExact(coords, k);
    if k in PolylineKeys(coords) {
      var i :| 0 <= i < |coords| - 1 && k == EdgeOf(coords[i], coords[i + 1]);
      KeySpan(a, c);
      KeySpan(coords[i], coords[i + 1]);
      assert false;
    }
  }

  /** The key remembers the Manhattan length of its segment. */
  lemma KeySpan(a: Cell, b: Cell)
    ensures var k := EdgeOf(a, b); (k.maxX - k.minX) + (k.maxY - k.minY) == Manhattan(a, b)
  {
  }

  /** The concrete case: the closure over (0,0)-(3,0) does not block the unit
      move (1,0)-(2,0) in the middle of that segment. */
  lemma InteriorOfSegmentExample(t: int)
    ensures !Afecta(NewBloqueo(0, 100, [Cell(0, 0), Cell(3, 0)]), t, 1, 0, 2, 0)
  {
    UnitMoveInsideLongSegmentsNotBlocked(0, 100, [Cell(0, 0), Cell(3, 0)], t, Cell(1, 0), Cell(2, 0));
  }

  /** Whether any closure in the list blocks the move at minute t (the
      greedy dispatcher's `hayBloqueo`). */
  function HayBloqueo(bs: seq<Bloqueo>, t: int, x1: int, y1: int, x2: int, y2: int): (r: bool)
    ensures r <==> exists i :: 0 <= i < |bs| && Afecta(bs[i], t, x1, y1, x2, y2)
  {
    if |bs| == 0 then false
    else if Afecta(bs[0], t, x1, y1, x2, y2) then true
    else
      assert forall i :: 1 <= i < |bs| ==> bs[i] == bs[1..][i - 1];
      HayBloqueo(bs[1..], t, x1, y1, x2, y2)
  }
}

=== FILE: camion.dfy ===
/** A truck (`Camion`): load and fuel capacities, its position on the grid,
    the minute it becomes free, the orders it still has to serve and a
    step-by-step path with a cursor. */
module Trucks {
  import opened Wrappers
  import opened Grid
  import opened Orders

  datatype TruckStatus = Available | Delivering | Returning

  datatype Camion = Camion(
    id: string,
    capacidadCarga: real,         // m3 of cargo
    disponible: real,             // m3 still free
    tara: real,
    capacidadCombustible: real,   // gallons
    combustibleDisponible: real,
    pos: Cell,
    libreEn: int,
    enRetorno: bool,
    status: TruckStatus,
    rutaPendiente: seq<Pedido>,
    rutaActual: seq<Cell>,
    pasoActual: nat,
    history: seq<Cell>,
    consumoAcumulado: real,
    combustibleGastado: real,
    reabastecerEnTanque: Option<nat>  // index of the tank it returns to, if any
  )

  /** Empty weight and weight per m3 used by the per-step fuel formula. */
  const PesoTara: real := 2.5
  const PesoCargoPorM3: real := 0.5

  /** The state `reset` leaves behind: full load and fuel, at the depot, free
      at minute 0, available, no route, no path, no history, counters zeroed. */
  predicate IsFresh(c: Camion) {
    && c.disponible == c.capacidadCarga
    && c.combustibleDisponible == c.capacidadCombustible
    && c.pos == Depot && c.libreEn == 0
    && !c.enRetorno && c.status == Available
    && c.rutaPendiente == [] && c.rutaActual == [] && c.pasoActual == 0 && c.history == []
    && c.consumoAcumulado == 0.0 && c.combustibleGastado == 0.0
    && c.reabastecerEnTanque == None
  }

  function Reset(c: Camion): (r: Camion)
    ensures IsFresh(r)
    ensures r.id == c.id && r.capacidadCarga == c.capacidadCarga && r.tara == c.tara
    ensures r.capacidadCombustible == c.capacidadCombustible
  {
    c.(disponible := c.capacidadCarga, combustibleDisponible := c.capacidadCombustible,
       consumoAcumulado := 0.0, combustibleGastado := 0.0, pos := Depot, libreEn := 0,
       enRetorno := false, status := Available, rutaPendiente := [], rutaActual := [],
       pasoActual := 0, history := [], reabastecerEnTanque := None)
  }

  /** The constructor stores the identity and capacities and then resets. */
  function NewCamion(id: string, capacidadCarga: real, tara: real, capacidadCombustible: real): (c: Camion)
    ensures IsFresh(c)
    ensures c.id == id && c.capacidadCarga == capacidadCarga && c.tara == tara
    ensures c.capacidadCombustible == capacidadCombustible
  {
    Reset(Camion(id, capacidadCarga, 0.0, tara, capacidadCombustible, capacidadCombustible,
                 Depot, 0, false, Available, [], [], 0, [], 0.0, 0.0, None))
  }

  /** Resetting twice is the same as resetting once. */
  lemma ResetIdempotent(c: Camion)
    ensures Reset(Reset(c)) == Reset(c)
  {
  }

  function RecargarCombustible(c: Camion): (r: Camion)
    ensures r.combustibleDisponible == r.capacidadCombustible
    ensures r.(combustibleDisponible := c.combustibleDisponible) == c
  {
    c.(combustibleDisponible := c.capacidadCombustible)
  }

  predicate TienePasosPendientes(c: Camion) {
    c.pasoActual < |c.rutaActual|
  }

  /** The path is stored and the cursor goes back to its first step. */
  function SetRuta(c: Camion, ruta: seq<Cell>): (r: Camion)
    ensures r.rutaActual == ruta && r.pasoActual == 0
    ensures TienePasosPendientes(r) <==> |ruta| > 0
    ensures r.(rutaActual := c.rutaActual, pasoActual := c.pasoActual) == c
  {
    c.(rutaActual := ruta, pasoActual := 0)
  }

  /** Moves to `p` and records `p` in the history. */
  function MoverA(c: Camion, p: Cell): (r: Camion)
    ensures r.pos == p && r.history == c.history + [p]
    ensures r.(pos := c.pos, history := c.history) == c
  {
    c.(pos := p, history := c.history + [p])
  }

  /** Gallons burnt per step: (2.5 + disponible * 0.5) / 180. It grows with
      the FREE capacity `disponible`, not with the load carried. */
  function StepFuel(c: Camion): real {
    (PesoTara + c.disponible * PesoCargoPorM3) / 180.0
  }

  /** One step along the current path, burning `StepFuel`; nothing happens
      when no step is pending. */
  function AvanzarUnPaso(c: Camion): (r: Camion)
    ensures !TienePasosPendientes(c) ==> r == c
    ensures TienePasosPendientes(c) ==>
      && r.pos == c.rutaActual[c.pasoActual]
      && r.pasoActual == c.pasoActual + 1
      && r.history == c.history + [c.rutaActual[c.pasoActual]]
      && r.combustibleDisponible == c.combustibleDisponible - StepFuel(c)
      && r.consumoAcumulado == c.consumoAcumulado + StepFuel(c)
      && r.combustibleGastado == c.combustibleGastado + StepFuel(c)
      && r.rutaActual == c.rutaActual && r.disponible == c.disponible
      && r.status == c.status && r.libreEn == c.libreEn && r.rutaPendiente == c.rutaPendiente
    ensures TienePasosPendientes(c) ==>
      r.(pos := c.pos, pasoActual := c.pasoActual, history := c.history,
         combustibleDisponible := c.combustibleDisponible, consumoAcumulado := c.consumoAcumulado,
         combustibleGastado := c.combustibleGastado) == c
  {
    if !TienePasosPendientes(c) then c
    else
      var gasto := StepFuel(c);
      var c1 := c.(consumoAcumulado := c.consumoAcumulado + gasto,
                   combustibleDisponible := c.combustibleDisponible - gasto,
                   combustibleGastado := c.combustibleGastado + gasto);
      var next := c1.rutaActual[c1.pasoActual];
      MoverA(c1.(pasoActual := c1.pasoActual + 1), next)
  }

  /** `n` successive calls of `AvanzarUnPaso`. */
  function AdvanceN(c: Camion, n: nat): Camion
    decreases n
  {
    if n == 0 then c else AdvanceN(AvanzarUnPaso(c), n - 1)
  }

  /** While steps remain, n advances walk exactly the next n cells of the
      path and append them to the history. */
  lemma {:induction false} AdvanceNCells(c: Camion, n: nat)
    requires c.pasoActual + n <= |c.rutaActual|
    ensures var r := AdvanceN(c, n);
      && r.pasoActual == c.pasoActual + n
      && r.rutaActual == c.rutaActual
      && r.disponible == c.disponible
      && r.history == c.history + c.rutaActual[c.pasoActual..c.pasoActual + n]
      && (n > 0 ==> r.pos == c.rutaActual[c.pasoActual + n - 1])
      && (n == 0 ==> r.pos == c.pos)
  {
    AdvanceNCursor(c, n);
    AdvanceNHistory(c, n);
  }

  lemma {:induction false} AdvanceNHistory(c: Camion, n: nat)
    requires c.pasoActual + n <= |c.rutaActual|
    ensures AdvanceN(c, n).history == c.history + c.rutaActual[c.pasoActual..c.pasoActual + n]
    ensures AdvanceN(c, n).disponible == c.disponible
    ensures n == 0 ==> AdvanceN(c, n).pos == c.pos
    decreases n
  {
    if n > 0 {
      var i := c.pasoActual;
      assert TienePasosPendientes(c);
      var c1 := AvanzarUnPaso(c);
      assert c1.pasoActual == i + 1 && c1.rutaActual == c.rutaActual;
      assert c1.history == c.history + [c.rutaActual[i]];
      AdvanceNHistory(c1, n - 1);
      assert AdvanceN(c, n) == AdvanceN(c1, n - 1);
      assert c.rutaActual[i..i + n] == [c.rutaActual[i]] + c.rutaActual[i + 1..i + n];
      assert c.history + c.rutaActual[i..i + n] == c1.history + c.rutaActual[i + 1..i + n];
    }
  }

  /** While steps remain, n advances burn n times the per-step fuel, which
      stays the same because the free capacity does not change on the way. */
  lemma {:induction false} AdvanceNFuel(c: Camion, n: nat)
    requires c.pasoActual + n <= |c.rutaActual|
    ensures var r := AdvanceN(c, n);
      && r.combustibleDisponible == c.combustibleDisponible - (n as real) * StepFuel(c)
      && r.combustibleGastado == c.combustibleGastado + (n as real) * StepFuel(c)
    decreases n
  {
    if n > 0 {
      var c1 := AvanzarUnPaso(c);
      AdvanceNFuel(c1, n - 1);
      assert AdvanceN(c, n) == AdvanceN(c1, n - 1);
      var s := StepFuel(c);
      assert c1.disponible == c.disponible;
      assert StepFuel(c1) == s;
      var k := (n - 1) as real;
      assert n as real == k + 1.0;
      assert (k + 1.0) * s == k * s + s;
    }
  }

  /** While steps remain, n advances walk exactly the next n cells of the path,
      append them to the history and burn n times the per-step fuel. */
  lemma AdvanceNWalksPath(c: Camion, n: nat)
    requires c.pasoActual + n <= |c.rutaActual|
    ensures var r := AdvanceN(c, n);
      && r.pasoActual == c.pasoActual + n
      && r.rutaActual == c.rutaActual
      && r.history == c.history + c.rutaActual[c.pasoActual..c.pasoActual + n]
      && (n > 0 ==> r.pos == c.rutaActual[c.pasoActual + n - 1])
      && (n == 0 ==> r.pos == c.pos)
      && r.combustibleDisponible == c.combustibleDisponible - (n as real) * StepFuel(c)
      && r.combustibleGastado == c.combustibleGastado + (n as real) * StepFuel(c)
  {
    AdvanceNCells(c, n);
    AdvanceNFuel(c, n);
  }

  /** After `SetRuta(path)` and |path| advances the truck stands on the last
      cell of the path with no step pending, and its history gained the path. */
  lemma SetRutaThenWalkAll(c: Camion, path: seq<Cell>)
    requires |path| > 0
    ensures var r := AdvanceN(SetRuta(c, path), |path|);
      && r.pos == path[|path| - 1]
      && !TienePasosPendientes(r)
      && r.history == c.history + path
  {
    SetRutaWalkEndsOnLast(c, path);
    SetRutaWalkLeavesNoStep(c, path);
    SetRutaWalkRecordsPath(c, path);
  }

  /** The last advance of a freshly set path lands on its last cell. */
  lemma SetRutaWalkEndsOnLast(c: Camion, path: seq<Cell>)
    requires |path| > 0
    ensures AdvanceN(SetRuta(c, path), |path|).pos == path[|path| - 1]
  {
    WalkFromStartEndsOnLast(SetRuta(c, path));
  }

  /** Walking a whole path from its first step ends on its last cell. */
  lemma WalkFromStartEndsOnLast(c: Camion)
    requires c.pasoActual == 0 && |c.rutaActual| > 0
    ensures AdvanceN(c, |c.rutaActual|).pos == c.rutaActual[|c.rutaActual| - 1]
  {
    var n := |c.rutaActual|;
    AdvanceNCursor(c, n);
    var r := AdvanceN(c, n);
    assert r.pos == c.rutaActual[c.pasoActual + n - 1];
    assert c.pasoActual + n - 1 == n - 1;
  }

  /** While steps remain, n advances move the cursor by n and leave the truck
      on the last cell walked. */
  lemma {:induction false} AdvanceNCursor(c: Camion, n: nat)
    requires c.pasoActual + n <= |c.rutaActual|
    ensures AdvanceN(c, n).pasoActual == c.pasoActual + n
    ensures AdvanceN(c, n).rutaActual == c.rutaActual
    ensures n > 0 ==> AdvanceN(c, n).pos == c.rutaActual[c.pasoActual + n - 1]
    decreases n
  {
    if n > 0 {
      AdvanceNCursor(AvanzarUnPaso(c), n - 1);
    }
  }

  /** Walking a freshly set path to the end leaves no step pending. */
  lemma SetRutaWalkLeavesNoStep(c: Camion, path: seq<Cell>)
    requires |path| > 0
    ensures !TienePasosPendientes(AdvanceN(SetRuta(c, path), |path|))
  {
    AdvanceNCells(SetRuta(c, path), |path|);
  }

  /** Walking a freshly set path to the end appends it to the history. */
  lemma SetRutaWalkRecordsPath(c: Camion, path: seq<Cell>)
    requires |path| > 0
    ensures AdvanceN(SetRuta(c, path), |path|).history == c.history + path
  {
    AdvanceNCells(SetRuta(c, path), |path|);
    assert path[0..|path|] == path;
  }

  /** Extra advances past the end of the path change nothing. */
  lemma {:induction false} AdvancePastEndIsIdle(c: Camion, n: nat)
    requires !TienePasosPendientes(c)
    ensures AdvanceN(c, n) == c
    decreases n
  {
    if n > 0 {
      AdvancePastEndIsIdle(AvanzarUnPaso(c), n - 1);
    }
  }

  /** Seeds the history with the current position when it is empty, then adds
      the path; a null path (`None`) adds nothing. */
  function AppendToHistory(c: Camion, path: Option<seq<Cell>>): (r: Camion)
    ensures |r.history| == (if |c.history| == 0 then 1 else |c.history|) + (if path.Some? then |path.value| else 0)
    ensures |c.history| == 0 ==> r.history[0] == c.pos
    ensures c.history <= r.history
    ensures path.Some? ==> r.history[|r.history| - |path.value|..] == path.value
    ensures r.(history := c.history) == c
  {
    var seeded := if |c.history| == 0 then [c.pos] else c.history;
    match path
    case None => c.(history := seeded)
    case Some(p) => c.(history := seeded + p)
  }
}

=== FILE: candidates.dfy ===
/** Which pending orders are handed to the colony when the planner replans
    (step 5 of each simulated minute): an order is a candidate when its
    deadline is within the hour, when it has no scheduled delivery, or when
    some available truck could reach it before the scheduled delivery; an
    order whose scheduled delivery is at most a minute away never is. */
module Candidates {
  import opened Grid
  import opened Orders
  import opened Colony

  /** A scheduled delivery: the minute it fires, the order (its position in
      the order list) and the truck (its position in the fleet). */
  datatype EntregaEvent = EntregaEvent(time: int, pedido: nat, camion: nat)

  /** Deadline window that forces an order in, and the "imminent" margin
      that keeps one out. */
  const VentanaUrgente: int := 60
  const MargenInminente: int := 1

  /** `entregaActual`: each scheduled order's delivery minute, filled in
      event order so that a later event for the same order overwrites an
      earlier one. */
  function EntregaActual(evs: seq<EntregaEvent>): (m: map<nat, int>)
    decreases |evs|
  {
    if |evs| == 0 then map[]
    else EntregaActual(evs[..|evs| - 1])[evs[|evs| - 1].pedido := evs[|evs| - 1].time]
  }

  /** An order is in the map exactly when some event lists it. */
  lemma {:induction false} EntregaActualDom(evs: seq<EntregaEvent>, i: nat)
    ensures i in EntregaActual(evs) <==> exists k :: 0 <= k < |evs| && evs[k].pedido == i
    decreases |evs|
  {
    if |evs| > 0 {
      var last := |evs| - 1;
      var front := evs[..last];
      EntregaActualDom(front, i);
      if i in EntregaActual(front) {
        var k :| 0 <= k < |front| && front[k].pedido == i;
        assert evs[k].pedido == i;
      }
      if exists k :: 0 <= k < |evs| && evs[k].pedido == i {
        var k :| 0 <= k < |evs| && evs[k].pedido == i;
        if k < last {
          assert front[k].pedido == i;
        }
      }
    }
  }

  /** A mapped order's minute is that of the last event that lists it. */
  lemma {:induction false} EntregaActualLast(evs: seq<EntregaEvent>, i: nat)
    ensures i in EntregaActual(evs) <==> exists k :: 0 <= k < |evs| && evs[k].pedido == i
    ensures i in EntregaActual(evs) ==>
      exists k :: 0 <= k < |evs| && evs[k].pedido == i && EntregaActual(evs)[i] == evs[k].time &&
        forall l :: k < l < |evs| ==> evs[l].pedido != i
    decreases |evs|
  {
    EntregaActualDom(evs, i);
    if |evs| > 0 {
      var last := |evs| - 1;
      var front := evs[..last];
      if evs[last].pedido != i && i in EntregaActual(front) {
        EntregaActualLast(front, i);
        var k :| 0 <= k < |front| && front[k].pedido == i && EntregaActual(front)[i] == front[k].time &&
          forall l :: k < l < |front| ==> front[l].pedido != i;
        assert evs[k].pedido == i;
        assert forall l :: k < l < last ==> evs[l] == front[l];
      }
    }
  }

  /** Still to serve, not scheduled, and already created. */
  predicate Pendiente(p: Pedido, t: int) {
    !p.atendido && !p.descartado && !p.programado && p.tiempoCreacion <= t
  }

  /** The earliest arrival `t + d` (grid distance, one minute per unit) of a
      snapshot truck with room for the order, starting from `cur`: the loop
      that lowers `mejorAlt`. */
  function MejorAlt(flota: seq<CamionEstado>, p: Pedido, t: int, cur: int): (m: int)
    ensures m <= cur
    ensures forall k :: 0 <= k < |flota| && flota[k].capacidadDisponible >= p.volumen ==>
              m <= t + Manhattan(flota[k].pos, p.Dest())
    ensures m == cur || (exists k :: 0 <= k < |flota| && flota[k].capacidadDisponible >= p.volumen &&
                                     m == t + Manhattan(flota[k].pos, p.Dest()))
    decreases |flota|
  {
    if |flota| == 0 then cur
    else
      var e := flota[0];
      var llegada := t + Manhattan(e.pos, p.Dest());
      var next := if e.capacidadDisponible >= p.volumen && llegada < cur then llegada else cur;
      var m := MejorAlt(flota[1..], p, t, next);
      assert forall k :: 1 <= k < |flota| ==> flota[k] == flota[1..][k - 1];
      m
  }

  /** Some other truck beats the scheduled minute exactly when a snapshot
      truck with room for the order is closer, in minutes, than that. */
  lemma MejorAltBeats(flota: seq<CamionEstado>, p: Pedido, t: int, tPrev: int)
    ensures MejorAlt(flota, p, t, tPrev) < tPrev <==>
      exists k :: 0 <= k < |flota| && flota[k].capacidadDisponible >= p.volumen &&
        t + Manhattan(flota[k].pos, p.Dest()) < tPrev
  {
  }

  /** The candidate test for order `i`. */
  predicate EsCandidato(pedidos: seq<Pedido>, i: nat, ent: map<nat, int>, flota: seq<CamionEstado>, t: int)
    requires i < |pedidos|
  {
    var p := pedidos[i];
    && Pendiente(p, t)
    && (t + VentanaUrgente >= p.tiempoLimite || i !in ent || MejorAlt(flota, p, t, ent[i]) < ent[i])
    && !(i in ent && ent[i] - t <= MargenInminente)
  }

  /** The candidates among the first `k` orders, in list order. */
  function Filtro(pedidos: seq<Pedido>, ent: map<nat, int>, flota: seq<CamionEstado>, t: int, k: nat): (r: seq<nat>)
    requires k <= |pedidos|
    ensures forall j :: 0 <= j < |r| ==> r[j] < k && EsCandidato(pedidos, r[j], ent, flota, t)
    ensures forall i :: 0 <= i < k && EsCandidato(pedidos, i, ent, flota, t) ==> i in r
    ensures forall a, b :: 0 <= a < b < |r| ==> r[a] < r[b]
    decreases k
  {
    if k == 0 then []
    else
      var r := Filtro(pedidos, ent, flota, t, k - 1);
      if EsCandidato(pedidos, k - 1, ent, flota, t) then r + [k - 1] else r
  }

  /** Steps 5.1 to 5.3 of the minute: the candidate orders, by position. */
  function Candidatos(pedidos: seq<Pedido>, evs: seq<EntregaEvent>, flota: seq<CamionEstado>, t: int): seq<nat> {
    Filtro(pedidos, EntregaActual(evs), flota, t, |pedidos|)
  }

  /** The candidates, stated from the events and the snapshot directly: a
      pending order whose last scheduled minute (if any) is more than a
      minute away, and which is due within the hour, or unscheduled, or
      reachable sooner by a truck with room. They come in list order. */
  lemma CandidatosSpec(pedidos: seq<Pedido>, evs: seq<EntregaEvent>, flota: seq<CamionEstado>, t: int, i: nat)
    ensures i in Candidatos(pedidos, evs, flota, t) <==>
      && i < |pedidos|
      && Pendiente(pedidos[i], t)
      && (forall k :: 0 <= k < |evs| && evs[k].pedido == i && (forall l :: k < l < |evs| ==> evs[l].pedido != i) ==>
            && evs[k].time - t > MargenInminente
            && (|| t + VentanaUrgente >= pedidos[i].tiempoLimite
                || exists e :: 0 <= e < |flota| && flota[e].capacidadDisponible >= pedidos[i].volumen &&
                     t + Manhattan(flota[e].pos, pedidos[i].Dest()) < evs[k].time))
    ensures forall a, b :: 0 <= a < b < |Candidatos(pedidos, evs, flota, t)| ==>
      Candidatos(pedidos, evs, flota, t)[a] < Candidatos(pedidos, evs, flota, t)[b]
  {
    var ent := EntregaActual(evs);
    EntregaActualLast(evs, i);
    if i in ent {
      var k :| 0 <= k < |evs| && evs[k].pedido == i && ent[i] == evs[k].time &&
        forall l :: k < l < |evs| ==> evs[l].pedido != i;
      // the last event for `i` is unique
      forall k2 | 0 <= k2 < |evs| && evs[k2].pedido == i && (forall l :: k2 < l < |evs| ==> evs[l].pedido != i)
        ensures k2 == k
      {
      }
      if i < |pedidos| {
        MejorAltBeats(flota, pedidos[i], t, ent[i]);
      }
    }
  }

  /** An order whose scheduled delivery is a minute away or less is left
      alone, however urgent it is. */
  lemma InminenteNuncaCandidato(pedidos: seq<Pedido>, evs: seq<EntregaEvent>, flota: seq<CamionEstado>, t: int, k: nat)
    requires k < |evs| && evs[k].time - t <= MargenInminente
    requires forall l :: k < l < |evs| ==> evs[l].pedido != evs[k].pedido
    ensures evs[k].pedido !in Candidatos(pedidos, evs, flota, t)
  {
    CandidatosSpec(pedidos, evs, flota, t, evs[k].pedido);
  }
}

=== FILE: colony.dfy ===
/** The state an ant works on: a snapshot of each available truck
    (`CamionEstado`), one route per truck (`Ruta`), and the commit step
    `asignarPedidoARuta` that appends an order to a route when the truck
    has the load, the time and the fuel for it. */
module Colony {
  import opened Grid
  import opened Orders
  import opened Trucks

  /** What the planner copies out of a truck before each replanning. */
  datatype CamionEstado = CamionEstado(
    id: string,
    pos: Cell,
    capacidadDisponible: real,
    combustibleDisponible: real,
    tiempoLibre: int,
    tara: real
  )

  /** One truck's route in an ant's solution: the positions (in the list of
      active orders) it serves, in commit order, with the distance and fuel
      committed so far. */
  datatype Ruta = Ruta(estado: CamionEstado, pedidos: seq<nat>, distancia: int, consumo: real)

  /** The planner's snapshot (`flotaEstado`): position, free load,
      free-from minute, tare and fuel of every truck whose status is
      available, in fleet order. */
  function Snapshot(flota: seq<Camion>): (s: seq<CamionEstado>)
    ensures |s| <= |flota|
  {
    if |flota| == 0 then []
    else if flota[0].status == Available then [Estado(flota[0])] + Snapshot(flota[1..])
    else Snapshot(flota[1..])
  }

  function Estado(c: Camion): CamionEstado {
    CamionEstado(c.id, c.pos, c.disponible, c.combustibleDisponible, c.libreEn, c.tara)
  }

  /** A truck is in the snapshot exactly when some available truck has that
      state: the filter is on status alone, so a truck that is broken down
      (`libreEn` in the future) but available still enters. */
  lemma {:induction false} SnapshotMembers(flota: seq<Camion>, e: CamionEstado)
    ensures e in Snapshot(flota) <==>
            exists i :: 0 <= i < |flota| && flota[i].status == Available && e == Estado(flota[i])
    decreases |flota|
  {
    if |flota| > 0 {
      SnapshotMembers(flota[1..], e);
      assert forall i :: 1 <= i < |flota| ==> flota[i] == flota[1..][i - 1];
      if e in Snapshot(flota[1..]) {
        var j :| 0 <= j < |flota[1..]| && flota[1..][j].status == Available && e == Estado(flota[1..][j]);
        assert flota[j + 1] == flota[1..][j];
      }
    }
  }

  // ---------------------------------------------------------- feasibility

  /** Tonnes per m3 of gas, and kilograms per tonne. */
  const TonPorM3: real := 0.5
  const KgPorTon: real := 1000.0

  function Dist(c: CamionEstado, p: Pedido): nat {
    Manhattan(c.pos, p.Dest())
  }

  /** Gallons to drive to `p`: distance times (cargo + tare, in tonnes),
      over 180. */
  function Necesario(c: CamionEstado, p: Pedido): real {
    Dist(c, p) as real * (p.volumen * TonPorM3 + c.tara / KgPorTon) / 180.0
  }

  /** The three filters shared by the probability matrix and the commit:
      free load for the volume, arrival (from now, at 50 km/h) by the
      deadline, and fuel for the distance. */
  predicate Factible(c: CamionEstado, p: Pedido, t: int) {
    && c.capacidadDisponible >= p.volumen
    && t + TravelTime(Dist(c, p)) <= p.tiempoLimite
    && c.combustibleDisponible >= Necesario(c, p)
  }

  /** The effect of a commit on a route: the truck is at the order, free
      when it arrives, with the volume and fuel taken off; the route grows
      by the order, its distance and its fuel. */
  function Aplicar(r: Ruta, idx: nat, p: Pedido, t: int): Ruta {
    var c := r.estado;
    var d := Dist(c, p);
    var g := Necesario(c, p);
    Ruta(c.(tiempoLibre := t + TravelTime(d), pos := p.Dest(),
            capacidadDisponible := c.capacidadDisponible - p.volumen,
            combustibleDisponible := c.combustibleDisponible - g),
         r.pedidos + [idx], r.distancia + d, r.consumo + g)
  }

  /** `asignarPedidoARuta`: refuses an order the route already has, or one
      the truck cannot take now; otherwise applies it to that route only. */
  function Asignar(v: nat, idx: nat, rutas: seq<Ruta>, pedidos: seq<Pedido>, t: int): (res: (seq<Ruta>, bool))
    requires v < |rutas| && idx < |pedidos|
    ensures res.1 <==> idx !in rutas[v].pedidos && Factible(rutas[v].estado, pedidos[idx], t)
    ensures !res.1 ==> res.0 == rutas
    ensures res.1 ==> res.0 == rutas[v := Aplicar(rutas[v], idx, pedidos[idx], t)]
    ensures |res.0| == |rutas|
  {
    var ruta := rutas[v];
    var c := ruta.estado;
    var p := pedidos[idx];
    if idx in ruta.pedidos then (rutas, false)
    else if c.capacidadDisponible < p.volumen then (rutas, false)
    else if t + TravelTime(Dist(c, p)) > p.tiempoLimite then (rutas, false)
    else if c.combustibleDisponible < Necesario(c, p) then (rutas, false)
    else (rutas[v := Aplicar(ruta, idx, p, t)], true)
  }

  /** A successful commit leaves the truck with non-negative load and fuel,
      puts it at the order, lowers its load by exactly the volume, and
      makes it free at the arrival minute, which is within the deadline. */
  lemma CommitKeepsBounds(r: Ruta, idx: nat, p: Pedido, t: int)
    requires Factible(r.estado, p, t)
    ensures var s := Aplicar(r, idx, p, t).estado;
      && s.capacidadDisponible >= 0.0
      && s.capacidadDisponible == r.estado.capacidadDisponible - p.volumen
      && s.combustibleDisponible >= 0.0
      && s.pos == p.Dest()
      && s.tiempoLibre <= p.tiempoLimite
      && s.id == r.estado.id && s.tara == r.estado.tara
  {
  }

  // --------------------------------------------------------------- replay

  function InitRutas(flota: seq<CamionEstado>): (rs: seq<Ruta>)
    ensures |rs| == |flota|
    ensures forall v :: 0 <= v < |flota| ==> rs[v] == Ruta(flota[v], [], 0, 0.0)
  {
    seq(|flota|, v requires 0 <= v < |flota| => Ruta(flota[v], [], 0, 0.0))
  }

  /** A route rebuilt from its truck's snapshot by applying the listed
      orders in turn (positions outside the list are skipped). */
  function Replay(r0: Ruta, idxs: seq<nat>, pedidos: seq<Pedido>, t: int): Ruta
    decreases |idxs|
  {
    if |idxs| == 0 then r0
    else
      var prev := Replay(r0, idxs[..|idxs| - 1], pedidos, t);
      var last := idxs[|idxs| - 1];
      if last < |pedidos| then Aplicar(prev, last, pedidos[last], t) else prev
  }

  /** Every listed order was feasible for the truck as it stood when the
      order was applied. */
  predicate AllFeasible(r0: Ruta, idxs: seq<nat>, pedidos: seq<Pedido>, t: int)
    decreases |idxs|
  {
    |idxs| > 0 ==>
      var last := idxs[|idxs| - 1];
      && AllFeasible(r0, idxs[..|idxs| - 1], pedidos, t)
      && last < |pedidos|
      && Factible(Replay(r0, idxs[..|idxs| - 1], pedidos, t).estado, pedidos[last], t)
  }

  /** Extending a replayed route by a feasible commit keeps it replayed. */
  lemma ReplayStep(r0: Ruta, idxs: seq<nat>, pedidos: seq<Pedido>, t: int, idx: nat)
    requires AllFeasible(r0, idxs, pedidos, t) && idx < |pedidos|
    requires Factible(Replay(r0, idxs, pedidos, t).estado, pedidos[idx], t)
    ensures Replay(r0, idxs + [idx], pedidos, t) == Aplicar(Replay(r0, idxs, pedidos, t), idx, pedidos[idx], t)
    ensures AllFeasible(r0, idxs + [idx], pedidos, t)
  {
    var s := idxs + [idx];
    assert s[..|s| - 1] == idxs;
  }

  /** The orders of a replayed route are the ones applied, after those it
      started with. */
  lemma {:induction false} ReplayOrders(r0: Ruta, idxs: seq<nat>, pedidos: seq<Pedido>, t: int)
    requires AllFeasible(r0, idxs, pedidos, t)
    ensures Replay(r0, idxs, pedidos, t).pedidos == r0.pedidos + idxs
    ensures Replay(r0, idxs, pedidos, t).estado.id == r0.estado.id
    decreases |idxs|
  {
    if |idxs| > 0 {
      ReplayOrders(r0, idxs[..|idxs| - 1], pedidos, t);
      assert idxs == idxs[..|idxs| - 1] + [idxs[|idxs| - 1]];
    }
  }

  /** Along a feasible replay the free load drops by exactly the volumes
      served, and after any commit neither load nor fuel is negative. */
  lemma {:induction false} ReplayLoad(r0: Ruta, idxs: seq<nat>, pedidos: seq<Pedido>, t: int)
    requires AllFeasible(r0, idxs, pedidos, t)
    ensures Replay(r0, idxs, pedidos, t).estado.capacidadDisponible
            == r0.estado.capacidadDisponible - SumVolumes(idxs, pedidos)
    ensures |idxs| > 0 ==> Replay(r0, idxs, pedidos, t).estado.capacidadDisponible >= 0.0
                           && Replay(r0, idxs, pedidos, t).estado.combustibleDisponible >= 0.0
    decreases |idxs|
  {
    if |idxs| > 0 {
      ReplayLoad(r0, idxs[..|idxs| - 1], pedidos, t);
    }
  }

  /** Volumes of the listed orders; positions outside the list count 0. */
  function SumVolumes(idxs: seq<nat>, pedidos: seq<Pedido>): real {
    if |idxs| == 0 then 0.0
    else
      var last := idxs[|idxs| - 1];
      SumVolumes(idxs[..|idxs| - 1], pedidos) + (if last < |pedidos| then pedidos[last].volumen else 0.0)
  }
}

=== FILE: delivery.dfy ===
/** Step 0 of each simulated minute: the scheduled deliveries that fire now
    put the truck at the order, mark the order served and send the truck
    back, to the nearest tank that can refill it if one is closer than the
    depot; then every truck either takes one step along its path or, when a
    returning truck has arrived, reloads and becomes available. */
module Delivery {
  import opened Wrappers
  import opened Grid
  import opened Orders
  import opened Tanks
  import opened Trucks
  import opened Paths
  import opened Candidates

  /** Minutes of service after unloading and after reloading. */
  const TiempoServicio: int := 15

  /** The return rule for a truck at `pos` that lacks `falta` m3: among
      the tanks holding at least `falta`, `mejor` names the first of those
      at the least grid distance, provided that distance is strictly below
      the depot's; `None` means no such tank beats the depot. */
  predicate EsRetorno(pos: Cell, ts: seq<Tanque>, falta: real, mejor: Option<nat>) {
    match mejor
    case None =>
      forall i :: 0 <= i < |ts| && ts[i].disponible >= falta ==> Manhattan(pos, ts[i].Pos()) >= Manhattan(pos, Depot)
    case Some(m) =>
      && m < |ts| && ts[m].disponible >= falta
      && Manhattan(pos, ts[m].Pos()) < Manhattan(pos, Depot)
      && (forall i :: 0 <= i < |ts| && ts[i].disponible >= falta ==> Manhattan(pos, ts[m].Pos()) <= Manhattan(pos, ts[i].Pos()))
      && (forall i :: 0 <= i < m && ts[i].disponible >= falta ==> Manhattan(pos, ts[m].Pos()) < Manhattan(pos, ts[i].Pos()))
  }

  /** The return rule picks at most one answer. */
  lemma EsRetornoUnico(pos: Cell, ts: seq<Tanque>, falta: real, m1: Option<nat>, m2: Option<nat>)
    requires EsRetorno(pos, ts, falta, m1) && EsRetorno(pos, ts, falta, m2)
    ensures m1 == m2
  {
  }

  /** The tank a truck at `pos` that lacks `falta` m3 returns to, by a
      linear scan keeping the strictly closest eligible tank. */
  method ElegirRetorno(pos: Cell, ts: seq<Tanque>, falta: real) returns (mejor: Option<nat>)
    ensures EsRetorno(pos, ts, falta, mejor)
    ensures mejor.None? <==>
      forall i :: 0 <= i < |ts| && ts[i].disponible >= falta ==> Manhattan(pos, ts[i].Pos()) >= Manhattan(pos, Depot)
    ensures mejor.Some? ==>
      && mejor.value < |ts| && ts[mejor.value].disponible >= falta
      && Manhattan(pos, ts[mejor.value].Pos()) < Manhattan(pos, Depot)
      && (forall i :: 0 <= i < |ts| && ts[i].disponible >= falta ==>
            Manhattan(pos, ts[mejor.value].Pos()) <= Manhattan(pos, ts[i].Pos()))
      && (forall i :: 0 <= i < mejor.value && ts[i].disponible >= falta ==>
            Manhattan(pos, ts[mejor.value].Pos()) < Manhattan(pos, ts[i].Pos()))
  {
    var distMin := Manhattan(pos, Depot);
    mejor := None;
    var k := 0;
    while k < |ts|
      invariant k <= |ts|
      invariant distMin <= Manhattan(pos, Depot)
      invariant mejor.None? ==> distMin == Manhattan(pos, Depot)
      invariant mejor.Some? ==>
        && mejor.value < k && ts[mejor.value].disponible >= falta
        && distMin == Manhattan(pos, ts[mejor.value].Pos()) < Manhattan(pos, Depot)
      invariant forall i :: 0 <= i < k && ts[i].disponible >= falta ==> distMin <= Manhattan(pos, ts[i].Pos())
      invariant mejor.Some? ==> forall i :: 0 <= i < mejor.value && ts[i].disponible >= falta ==>
        distMin < Manhattan(pos, ts[i].Pos())
    {
      if ts[k].disponible >= falta {
        var dist := Manhattan(pos, ts[k].Pos());
        if dist < distMin {
          distMin := dist;
          mejor := Some(k);
        }
      }
      k := k + 1;
    }
  }

  /** Where the return path leads. */
  function Destino(ts: seq<Tanque>, mejor: Option<nat>): Cell {
    if mejor.Some? && mejor.value < |ts| then ts[mejor.value].Pos() else Depot
  }

  /** The load left after a delivery of `vol` from `disp`: the volume comes
      off only when the truck holds that much. */
  function Descarga(disp: real, vol: real): (r: real)
    ensures 0.0 <= disp ==> 0.0 <= r
    ensures 0.0 <= vol ==> r <= disp
    ensures r == disp || r == disp - vol
  {
    if disp >= vol then disp - vol else disp
  }

  /** What the truck lacks after unloading `p`, if it could. */
  function Falta(c: Camion, p: Pedido): real {
    c.capacidadCarga - Descarga(c.disponible, p.volumen)
  }

  /** The direct x-then-y route from `pos` to the return target the rule
      picks is closed at some step. */
  ghost predicate RetornoBloqueado(blocked: (int, Cell) -> bool, pos: Cell, ts: seq<Tanque>, falta: real, t: int) {
    exists mejor :: EsRetorno(pos, ts, falta, mejor) && DirectoBloqueado(blocked, pos, Destino(ts, mejor), t)
  }

  ghost predicate DirectoBloqueado(blocked: (int, Cell) -> bool, from: Cell, to: Cell, t: int) {
    exists k: nat :: FirstBlockAt(blocked, DirectPath(from, to), t, k)
  }

  /** The state a delivery at `dest` in minute `t` leaves its truck in. */
  predicate Entregado(blocked: (int, Cell) -> bool, c2: Camion, dest: Cell, ts: seq<Tanque>, t: int) {
    && c2.pos == dest && c2.libreEn == t + TiempoServicio
    && c2.status == Returning && c2.enRetorno && c2.pasoActual == 0
    && EsRetorno(dest, ts, c2.capacidadCarga - c2.disponible, c2.reabastecerEnTanque)
    && IsWalk(dest, c2.rutaActual, Destino(ts, c2.reabastecerEnTanque))
    && AvoidsBlocks(blocked, c2.rutaActual, Destino(ts, c2.reabastecerEnTanque), t + 1)
  }

  /** The return leg from where the truck stands: choose the target by the
      return rule, mark the truck as returning and store the path built
      from minute `t`. Fails when no path exists. */
  method Regresar(blocked: (int, Cell) -> bool, c: Camion, ts: seq<Tanque>, t: int) returns (r: Result<Camion, PathError>)
    ensures r.Success? ==>
      var c2 := r.value;
      && c2.status == Returning && c2.enRetorno && c2.pasoActual == 0
      && EsRetorno(c.pos, ts, c.capacidadCarga - c.disponible, c2.reabastecerEnTanque)
      && IsWalk(c.pos, c2.rutaActual, Destino(ts, c2.reabastecerEnTanque))
      && AvoidsBlocks(blocked, c2.rutaActual, Destino(ts, c2.reabastecerEnTanque), t + 1)
      && c2.(rutaActual := c.rutaActual, pasoActual := c.pasoActual, history := c.history,
             reabastecerEnTanque := c.reabastecerEnTanque, enRetorno := c.enRetorno, status := c.status) == c
    ensures r.Success? && AllStepsFree(blocked, DirectPath(c.pos, Destino(ts, r.value.reabastecerEnTanque)), t) ==>
      r.value.rutaActual == DirectPath(c.pos, Destino(ts, r.value.reabastecerEnTanque))
    ensures r.Failure? ==> RetornoBloqueado(blocked, c.pos, ts, c.capacidadCarga - c.disponible, t)
  {
    var falta := c.capacidadCarga - c.disponible;
    var mejor := ElegirRetorno(c.pos, ts, falta);
    var dest := Destino(ts, mejor);
    var c3 := c.(reabastecerEnTanque := mejor, enRetorno := true, status := Returning);
    var path := BuildManhattanPath(blocked, c3.pos, dest, t);
    if path.Failure? {
      assert DirectoBloqueado(blocked, c.pos, dest, t);
      return Failure(path.error);
    }
    var c4 := AppendToHistory(SetRuta(c3, path.value), Some(path.value));
    assert c4.rutaActual == path.value && c4.reabastecerEnTanque == mejor;
    return Success(c4);
  }

  /** One delivery event. The truck moves to the order and is free 15
      minutes later; the volume is unloaded only if the truck still has that
      much room (otherwise the order is still marked served); the truck
      then heads back along a path built from the delivery minute. Fails
      when no return path exists. */
  method Entregar(blocked: (int, Cell) -> bool, c: Camion, p: Pedido, ts: seq<Tanque>, t: int)
    returns (r: Result<(Camion, Pedido), PathError>)
    ensures r.Success? ==> r.value.1 == SetAtendido(p, true)
    ensures r.Success? ==> Entregado(blocked, r.value.0, p.Dest(), ts, t)
    ensures r.Success? ==>
      var c2 := r.value.0;
      && c2.disponible == (if c.disponible >= p.volumen then c.disponible - p.volumen else c.disponible)
      && c2.id == c.id && c2.capacidadCarga == c.capacidadCarga
      && c2.combustibleDisponible == c.combustibleDisponible
    ensures r.Success? ==>
      r.value.0.(pos := c.pos, libreEn := c.libreEn, disponible := c.disponible,
                 rutaActual := c.rutaActual, pasoActual := c.pasoActual, history := c.history,
                 reabastecerEnTanque := c.reabastecerEnTanque, enRetorno := c.enRetorno, status := c.status) == c
    ensures r.Success? && AllStepsFree(blocked, DirectPath(p.Dest(), Destino(ts, r.value.0.reabastecerEnTanque)), t) ==>
      r.value.0.rutaActual == DirectPath(p.Dest(), Destino(ts, r.value.0.reabastecerEnTanque))
    ensures r.Failure? ==> RetornoBloqueado(blocked, p.Dest(), ts, Falta(c, p), t)
  {
    var c1 := c.(pos := p.Dest(), libreEn := t + TiempoServicio);
    if c1.disponible >= p.volumen {
      c1 := c1.(disponible := c1.disponible - p.volumen);
    }
    assert c1.capacidadCarga - c1.disponible == Falta(c, p);
    var c2 := Regresar(blocked, c1, ts, t);
    if c2.Failure? {
      return Failure(c2.error);
    }
    assert c2.value.pos == c1.pos && c2.value.libreEn == c1.libreEn && c2.value.disponible == c1.disponible;
    return Success((c2.value, SetAtendido(p, true)));
  }

  /** Among the first `n` events, none due at `t` names truck `i`. */
  predicate SinEvento(evs: seq<EntregaEvent>, n: nat, t: int, i: nat)
    requires n <= |evs|
  {
    forall m :: 0 <= m < n && evs[m].time == t ==> evs[m].camion != i
  }

  /** Event `m` is the last one among the first `n` that is due at `t` and
      names its truck. */
  predicate Ultimo(evs: seq<EntregaEvent>, n: nat, m: nat, t: int)
    requires m < n <= |evs|
  {
    && evs[m].time == t
    && forall q :: m < q < n && evs[q].time == t ==> evs[q].camion != evs[m].camion
  }

  /** The orders after the first `n` events: each one a due event names is
      served, the others are as they were, and no order moves. */
  predicate PedidosTras(evs: seq<EntregaEvent>, t: int, n: nat, pedidos: seq<Pedido>, ps: seq<Pedido>)
    requires n <= |evs|
  {
    && |ps| == |pedidos|
    && (forall j :: 0 <= j < |ps| ==> ps[j].Dest() == pedidos[j].Dest())
    && (forall j :: 0 <= j < |ps| ==> ps[j].(atendido := pedidos[j].atendido) == pedidos[j])
    && (forall m :: 0 <= m < n && evs[m].time == t ==> evs[m].pedido < |ps| && ps[evs[m].pedido].atendido)
    && (forall j :: 0 <= j < |pedidos| && (forall m :: 0 <= m < n && evs[m].time == t ==> evs[m].pedido != j) ==>
          ps[j] == pedidos[j])
  }

  /** The fleet after the first `n` events: a truck no due event names is as
      it was, and the truck of each last due event is in the state that
      delivery leaves it in. */
  predicate FlotaTras(blocked: (int, Cell) -> bool, evs: seq<EntregaEvent>, t: int, n: nat, flota: seq<Camion>,
                      pedidos: seq<Pedido>, ts: seq<Tanque>, f: seq<Camion>)
    requires n <= |evs|
    requires forall k :: 0 <= k < |evs| ==> evs[k].camion < |flota| && evs[k].pedido < |pedidos|
  {
    && |f| == |flota|
    && (forall i :: 0 <= i < |flota| && SinEvento(evs, n, t, i) ==> f[i] == flota[i])
    && (forall m :: 0 <= m < n && Ultimo(evs, n, m, t) ==>
          Entregado(blocked, f[evs[m].camion], pedidos[evs[m].pedido].Dest(), ts, t))
  }

  /** Event `m` is the only due event among the first `n` that names its
      truck. */
  predicate Unico(evs: seq<EntregaEvent>, n: nat, m: nat, t: int)
    requires m < n <= |evs|
  {
    && evs[m].time == t
    && forall q :: 0 <= q < n && q != m && evs[q].time == t ==> evs[q].camion != evs[m].camion
  }

  /** Every order's volume is non-negative. */
  predicate VolumenesNoNegativos(pedidos: seq<Pedido>) {
    forall j :: 0 <= j < |pedidos| ==> 0.0 <= pedidos[j].volumen
  }

  /** The fields a delivery leaves alone: identity, capacities, tare, fuel
      level and totals, and the pending orders. */
  predicate Fijos(a: Camion, b: Camion) {
    && a.id == b.id && a.capacidadCarga == b.capacidadCarga && a.tara == b.tara
    && a.capacidadCombustible == b.capacidadCombustible
    && a.combustibleDisponible == b.combustibleDisponible
    && a.consumoAcumulado == b.consumoAcumulado && a.combustibleGastado == b.combustibleGastado
    && a.rutaPendiente == b.rutaPendiente
  }

  /** Loads and identities after the first `n` events: every truck keeps
      the fields `Fijos` names; a non-negative load stays non-negative and,
      with non-negative volumes, never grows; the truck of a due event that
      is the only one naming it has unloaded that order, if it could. */
  predicate CargaTras(evs: seq<EntregaEvent>, t: int, n: nat, flota: seq<Camion>, pedidos: seq<Pedido>,
                      f: seq<Camion>)
    requires n <= |evs|
    requires forall k :: 0 <= k < |evs| ==> evs[k].camion < |flota| && evs[k].pedido < |pedidos|
  {
    && |f| == |flota|
    && (forall i :: 0 <= i < |f| ==> Fijos(f[i], flota[i]))
    && (forall i :: 0 <= i < |f| && 0.0 <= flota[i].disponible ==> 0.0 <= f[i].disponible)
    && (VolumenesNoNegativos(pedidos) ==> forall i :: 0 <= i < |f| ==> f[i].disponible <= flota[i].disponible)
    && (forall m :: 0 <= m < n && Unico(evs, n, m, t) ==>
          f[evs[m].camion].disponible
          == Descarga(flota[evs[m].camion].disponible, pedidos[evs[m].pedido].volumen))
  }

  /** Some due event's return route is closed on its direct path, for the
      shortfall its truck has at that event: the fleet `f` that the events
      before it left. */
  ghost predicate AlgunRetornoBloqueado(blocked: (int, Cell) -> bool, evs: seq<EntregaEvent>, flota: seq<Camion>,
                                       pedidos: seq<Pedido>, ts: seq<Tanque>, t: int)
    requires forall k :: 0 <= k < |evs| ==> evs[k].camion < |flota| && evs[k].pedido < |pedidos|
  {
    exists m: nat, f: seq<Camion> ::
      && m < |evs| && evs[m].time == t
      && FlotaTras(blocked, evs, t, m, flota, pedidos, ts, f)
      && CargaTras(evs, t, m, flota, pedidos, f)
      && RetornoBloqueado(blocked, pedidos[evs[m].pedido].Dest(), ts,
                          Falta(f[evs[m].camion], pedidos[evs[m].pedido]), t)
  }

  /** When no truck is named by two due events, a failure is pinned to a
      truck's shortfall in the fleet as given. */
  lemma FalloSinRepetidos(blocked: (int, Cell) -> bool, evs: seq<EntregaEvent>, flota: seq<Camion>,
                          pedidos: seq<Pedido>, ts: seq<Tanque>, t: int)
    requires forall k :: 0 <= k < |evs| ==> evs[k].camion < |flota| && evs[k].pedido < |pedidos|
    requires forall m :: 0 <= m < |evs| && evs[m].time == t ==> Unico(evs, |evs|, m, t)
    requires AlgunRetornoBloqueado(blocked, evs, flota, pedidos, ts, t)
    ensures exists m ::
      && 0 <= m < |evs| && evs[m].time == t
      && RetornoBloqueado(blocked, pedidos[evs[m].pedido].Dest(), ts,
                          Falta(flota[evs[m].camion], pedidos[evs[m].pedido]), t)
  {
    var m: nat, f: seq<Camion> :|
      && m < |evs| && evs[m].time == t
      && FlotaTras(blocked, evs, t, m, flota, pedidos, ts, f)
      && CargaTras(evs, t, m, flota, pedidos, f)
      && RetornoBloqueado(blocked, pedidos[evs[m].pedido].Dest(), ts,
                          Falta(f[evs[m].camion], pedidos[evs[m].pedido]), t);
    assert Unico(evs, |evs|, m, t);
    assert SinEvento(evs, m, t, evs[m].camion);
    assert f[evs[m].camion] == flota[evs[m].camion];
  }

  /** An event not due leaves both summaries as they were. */
  lemma {:induction false} PasoPendiente(blocked: (int, Cell) -> bool, evs: seq<EntregaEvent>, t: int, n: nat,
                                         flota: seq<Camion>, pedidos: seq<Pedido>, ts: seq<Tanque>,
                                         f: seq<Camion>, ps: seq<Pedido>)
    requires n < |evs| && evs[n].time != t
    requires forall k :: 0 <= k < |evs| ==> evs[k].camion < |flota| && evs[k].pedido < |pedidos|
    requires PedidosTras(evs, t, n, pedidos, ps) && FlotaTras(blocked, evs, t, n, flota, pedidos, ts, f)
    ensures PedidosTras(evs, t, n + 1, pedidos, ps) && FlotaTras(blocked, evs, t, n + 1, flota, pedidos, ts, f)
  {
    forall i | 0 <= i < |flota| && SinEvento(evs, n + 1, t, i) ensures f[i] == flota[i] {
      assert SinEvento(evs, n, t, i);
    }
    forall m | 0 <= m < n + 1 && Ultimo(evs, n + 1, m, t)
      ensures Entregado(blocked, f[evs[m].camion], pedidos[evs[m].pedido].Dest(), ts, t)
    {
      assert Ultimo(evs, n, m, t);
    }
  }

  /** A due event served by `Entregar` updates its order and its truck; a
      truck it does not name keeps its summary. */
  lemma {:induction false} PasoFlota(blocked: (int, Cell) -> bool, evs: seq<EntregaEvent>, t: int, n: nat,
                                     flota: seq<Camion>, pedidos: seq<Pedido>, ts: seq<Tanque>,
                                     f: seq<Camion>, c2: Camion)
    requires n < |evs| && evs[n].time == t
    requires forall k :: 0 <= k < |evs| ==> evs[k].camion < |flota| && evs[k].pedido < |pedidos|
    requires FlotaTras(blocked, evs, t, n, flota, pedidos, ts, f)
    requires Entregado(blocked, c2, pedidos[evs[n].pedido].Dest(), ts, t)
    ensures FlotaTras(blocked, evs, t, n + 1, flota, pedidos, ts, f[evs[n].camion := c2])
  {
    var f2 := f[evs[n].camion := c2];
    forall i | 0 <= i < |flota| && SinEvento(evs, n + 1, t, i) ensures f2[i] == flota[i] {
      assert evs[n].camion != i;
      assert SinEvento(evs, n, t, i);
    }
    PasoUltimos(blocked, evs, t, n, flota, pedidos, ts, f, c2);
  }

  lemma {:induction false} PasoUltimos(blocked: (int, Cell) -> bool, evs: seq<EntregaEvent>, t: int, n: nat,
                                       flota: seq<Camion>, pedidos: seq<Pedido>, ts: seq<Tanque>,
                                       f: seq<Camion>, c2: Camion)
    requires n < |evs| && evs[n].time == t
    requires forall k :: 0 <= k < |evs| ==> evs[k].camion < |flota| && evs[k].pedido < |pedidos|
    requires |f| == |flota|
    requires forall m :: 0 <= m < n && Ultimo(evs, n, m, t) ==>
      Entregado(blocked, f[evs[m].camion], pedidos[evs[m].pedido].Dest(), ts, t)
    requires Entregado(blocked, c2, pedidos[evs[n].pedido].Dest(), ts, t)
    ensures forall m :: 0 <= m < n + 1 && Ultimo(evs, n + 1, m, t) ==>
      Entregado(blocked, f[evs[n].camion := c2][evs[m].camion], pedidos[evs[m].pedido].Dest(), ts, t)
  {
    var f2 := f[evs[n].camion := c2];
    forall m | 0 <= m < n + 1 && Ultimo(evs, n + 1, m, t)
      ensures Entregado(blocked, f2[evs[m].camion], pedidos[evs[m].pedido].Dest(), ts, t)
    {
      if m < n {
        assert evs[m].camion != evs[n].camion;
        assert f2[evs[m].camion] == f[evs[m].camion];
        assert Ultimo(evs, n, m, t);
      } else {
        assert f2[evs[m].camion] == c2;
      }
    }
  }

  lemma {:induction false} PasoPedidos(evs: seq<EntregaEvent>, t: int, n: nat, pedidos: seq<Pedido>, ps: seq<Pedido>, p2: Pedido)
    requires n < |evs| && evs[n].time == t && evs[n].pedido < |pedidos|
    requires PedidosTras(evs, t, n, pedidos, ps)
    requires p2 == SetAtendido(ps[evs[n].pedido], true)
    ensures PedidosTras(evs, t, n + 1, pedidos, ps[evs[n].pedido := p2])
  {
  }

  /** An event not due leaves the loads as they were. */
  lemma {:induction false} PasoCargaPendiente(evs: seq<EntregaEvent>, t: int, n: nat, flota: seq<Camion>,
                                              pedidos: seq<Pedido>, f: seq<Camion>)
    requires n < |evs| && evs[n].time != t
    requires forall k :: 0 <= k < |evs| ==> evs[k].camion < |flota| && evs[k].pedido < |pedidos|
    requires CargaTras(evs, t, n, flota, pedidos, f)
    ensures CargaTras(evs, t, n + 1, flota, pedidos, f)
  {
    forall m | 0 <= m < n + 1 && Unico(evs, n + 1, m, t)
      ensures f[evs[m].camion].disponible
              == Descarga(flota[evs[m].camion].disponible, pedidos[evs[m].pedido].volumen)
    {
      assert m < n;
      assert Unico(evs, n, m, t);
    }
  }

  /** A due event whose truck unloads as `Entregar` does keeps the load
      summary. */
  lemma {:induction false} PasoCarga(evs: seq<EntregaEvent>, t: int, n: nat, flota: seq<Camion>,
                                     pedidos: seq<Pedido>, f: seq<Camion>, c2: Camion)
    requires n < |evs| && evs[n].time == t
    requires forall k :: 0 <= k < |evs| ==> evs[k].camion < |flota| && evs[k].pedido < |pedidos|
    requires CargaTras(evs, t, n, flota, pedidos, f)
    requires SinEvento(evs, n, t, evs[n].camion) ==> f[evs[n].camion] == flota[evs[n].camion]
    requires Fijos(c2, f[evs[n].camion])
    requires c2.disponible == Descarga(f[evs[n].camion].disponible, pedidos[evs[n].pedido].volumen)
    ensures CargaTras(evs, t, n + 1, flota, pedidos, f[evs[n].camion := c2])
  {
    var c := evs[n].camion;
    var f2 := f[c := c2];
    assert 0.0 <= f[c].disponible ==> 0.0 <= c2.disponible;
    assert VolumenesNoNegativos(pedidos) ==> c2.disponible <= f[c].disponible by {
      if VolumenesNoNegativos(pedidos) {
        assert 0.0 <= pedidos[evs[n].pedido].volumen;
      }
    }
    forall m | 0 <= m < n + 1 && Unico(evs, n + 1, m, t)
      ensures f2[evs[m].camion].disponible
              == Descarga(flota[evs[m].camion].disponible, pedidos[evs[m].pedido].volumen)
    {
      if m < n {
        assert evs[m].camion != c;
        assert Unico(evs, n, m, t);
      } else {
        assert SinEvento(evs, n, t, c);
      }
    }
  }

  /** The `n`-th event, due now: `Entregar` on its truck and order. */
  method EventoDebido(blocked: (int, Cell) -> bool, evs: seq<EntregaEvent>, t: int, n: nat,
                      flota: seq<Camion>, pedidos: seq<Pedido>, ts: seq<Tanque>, f: seq<Camion>, ps: seq<Pedido>)
    returns (r: Result<(seq<Camion>, seq<Pedido>), PathError>)
    requires n < |evs| && evs[n].time == t
    requires forall k :: 0 <= k < |evs| ==> evs[k].camion < |flota| && evs[k].pedido < |pedidos|
    requires PedidosTras(evs, t, n, pedidos, ps) && FlotaTras(blocked, evs, t, n, flota, pedidos, ts, f)
    requires CargaTras(evs, t, n, flota, pedidos, f)
    ensures r.Success? ==> PedidosTras(evs, t, n + 1, pedidos, r.value.1)
    ensures r.Success? ==> FlotaTras(blocked, evs, t, n + 1, flota, pedidos, ts, r.value.0)
    ensures r.Success? ==> CargaTras(evs, t, n + 1, flota, pedidos, r.value.0)
    ensures r.Failure? ==> AlgunRetornoBloqueado(blocked, evs, flota, pedidos, ts, t)
  {
    var ev := evs[n];
    var res := Entregar(blocked, f[ev.camion], ps[ev.pedido], ts, t);
    assert ps[ev.pedido].Dest() == pedidos[ev.pedido].Dest();
    assert ps[ev.pedido].volumen == pedidos[ev.pedido].volumen by {
      assert ps[ev.pedido].(atendido := pedidos[ev.pedido].atendido) == pedidos[ev.pedido];
    }
    if res.Failure? {
      assert RetornoBloqueado(blocked, pedidos[evs[n].pedido].Dest(), ts,
                              Falta(f[evs[n].camion], pedidos[evs[n].pedido]), t);
      return Failure(res.error);
    }
    PasoFlota(blocked, evs, t, n, flota, pedidos, ts, f, res.value.0);
    PasoCarga(evs, t, n, flota, pedidos, f, res.value.0);
    PasoPedidos(evs, t, n, pedidos, ps, res.value.1);
    return Success((f[ev.camion := res.value.0], ps[ev.pedido := res.value.1]));
  }

  /** The three summaries of the first `n` events together. */
  predicate Resumen(blocked: (int, Cell) -> bool, evs: seq<EntregaEvent>, t: int, n: nat, flota: seq<Camion>,
                    pedidos: seq<Pedido>, ts: seq<Tanque>, f: seq<Camion>, ps: seq<Pedido>)
    requires n <= |evs|
    requires forall k :: 0 <= k < |evs| ==> evs[k].camion < |flota| && evs[k].pedido < |pedidos|
  {
    && PedidosTras(evs, t, n, pedidos, ps)
    && FlotaTras(blocked, evs, t, n, flota, pedidos, ts, f)
    && CargaTras(evs, t, n, flota, pedidos, f)
  }

  /** The `n`-th event: served and dropped when it is due, otherwise
      left alone and kept pending. */
  method PasoEvento(blocked: (int, Cell) -> bool, evs: seq<EntregaEvent>, t: int, n: nat,
                    flota: seq<Camion>, pedidos: seq<Pedido>, ts: seq<Tanque>,
                    f: seq<Camion>, ps: seq<Pedido>, rest: seq<EntregaEvent>)
    returns (r: Result<(seq<Camion>, seq<Pedido>, seq<EntregaEvent>), PathError>)
    requires n < |evs|
    requires forall k :: 0 <= k < |evs| ==> evs[k].camion < |flota| && evs[k].pedido < |pedidos|
    requires Resumen(blocked, evs, t, n, flota, pedidos, ts, f, ps)
    requires rest == Pendientes(evs[..n], t)
    ensures r.Success? ==> Resumen(blocked, evs, t, n + 1, flota, pedidos, ts, r.value.0, r.value.1)
    ensures r.Success? ==> r.value.2 == Pendientes(evs[..n + 1], t)
    ensures evs[n].time != t ==> r == Success((f, ps, rest + [evs[n]]))
    ensures r.Failure? ==> AlgunRetornoBloqueado(blocked, evs, flota, pedidos, ts, t)
  {
    PendientesTake(evs, n, t);
    if evs[n].time == t {
      var res := EventoDebido(blocked, evs, t, n, flota, pedidos, ts, f, ps);
      if res.Failure? {
        return Failure(res.error);
      }
      r := Success((res.value.0, res.value.1, rest));
    } else {
      PasoPendiente(blocked, evs, t, n, flota, pedidos, ts, f, ps);
      PasoCargaPendiente(evs, t, n, flota, pedidos, f);
      r := Success((f, ps, rest + [evs[n]]));
    }
  }

  /** The events of a minute, in list order: each event due now is applied
      to its truck and order and removed; the others stay, in order. A
      failed return route stops the minute. */
  method ProcesarEventos(blocked: (int, Cell) -> bool, flota: seq<Camion>, pedidos: seq<Pedido>,
                         ts: seq<Tanque>, evs: seq<EntregaEvent>, t: int)
    returns (r: Result<(seq<Camion>, seq<Pedido>, seq<EntregaEvent>), PathError>)
    requires forall k :: 0 <= k < |evs| ==> evs[k].camion < |flota| && evs[k].pedido < |pedidos|
    ensures r.Success? ==> r.value.2 == Pendientes(evs, t)
    ensures r.Success? ==> Resumen(blocked, evs, t, |evs|, flota, pedidos, ts, r.value.0, r.value.1)
    ensures r.Failure? ==> AlgunRetornoBloqueado(blocked, evs, flota, pedidos, ts, t)
  {
    var f := flota;
    var ps := pedidos;
    var rest: seq<EntregaEvent> := [];
    var k := 0;
    while k < |evs|
      invariant k <= |evs|
      invariant rest == Pendientes(evs[..k], t)
      invariant Resumen(blocked, evs, t, k, flota, pedidos, ts, f, ps)
    {
      var res := PasoEvento(blocked, evs, t, k, flota, pedidos, ts, f, ps, rest);
      if res.Failure? {
        return Failure(res.error);
      }
      f, ps, rest := res.value.0, res.value.1, res.value.2;
      k := k + 1;
    }
    assert evs[..k] == evs;
    return Success((f, ps, rest));
  }

  /** The events not due at minute `t`, in order. */
  function Pendientes(evs: seq<EntregaEvent>, t: int): (r: seq<EntregaEvent>)
    ensures forall e :: e in r <==> e in evs && e.time != t
    decreases |evs|
  {
    if |evs| == 0 then []
    else if evs[0].time == t then Pendientes(evs[1..], t)
    else [evs[0]] + Pendientes(evs[1..], t)
  }

  lemma {:induction false} PendientesSnoc(evs: seq<EntregaEvent>, e: EntregaEvent, t: int)
    ensures Pendientes(evs + [e], t) == Pendientes(evs, t) + (if e.time == t then [] else [e])
    decreases |evs|
  {
    if |evs| > 0 {
      assert (evs + [e])[1..] == evs[1..] + [e];
      PendientesSnoc(evs[1..], e, t);
    } else {
      assert (evs + [e])[1..] == [];
    }
  }

  /** One more event of the list: the pending list grows by it unless due. */
  lemma PendientesTake(evs: seq<EntregaEvent>, n: nat, t: int)
    requires n < |evs|
    ensures Pendientes(evs[..n + 1], t) == Pendientes(evs[..n], t) + (if evs[n].time == t then [] else [evs[n]])
  {
    assert evs[..n + 1] == evs[..n] + [evs[n]];
    PendientesSnoc(evs[..n], evs[n], t);
  }

  /** A truck's move in a minute: a step along its path while steps remain;
      otherwise, a returning truck reloads (taking its shortfall from the
      chosen tank, if any) and is available 15 minutes later with full load
      and fuel. Any other idle truck stays as it is. */
  function Llegada(c: Camion, ts: seq<Tanque>, t: int): (r: (Camion, seq<Tanque>))
    requires c.reabastecerEnTanque.Some? ==> c.reabastecerEnTanque.value < |ts|
    ensures |r.1| == |ts|
    ensures TienePasosPendientes(c) ==> r == (AvanzarUnPaso(c), ts)
    ensures !TienePasosPendientes(c) && c.status != Returning ==> r == (c, ts)
    ensures !TienePasosPendientes(c) && c.status == Returning ==>
      && r.0.status == Available && !r.0.enRetorno && r.0.reabastecerEnTanque.None?
      && r.0.disponible == c.capacidadCarga && r.0.combustibleDisponible == c.capacidadCombustible
      && r.0.libreEn == t + TiempoServicio && r.0.pos == c.pos
    ensures forall j :: 0 <= j < |ts| && !RecargaEn(c, j) ==> r.1[j] == ts[j]
    ensures forall j :: 0 <= j < |ts| && RecargaEn(c, j) ==>
      r.1[j].disponible == ts[j].disponible - (c.capacidadCarga - c.disponible)
    ensures r.0.reabastecerEnTanque.Some? ==> r.0.reabastecerEnTanque == c.reabastecerEnTanque
  {
    if TienePasosPendientes(c) then (AvanzarUnPaso(c), ts)
    else if c.status == Returning then
      var falta := c.capacidadCarga - c.disponible;
      var ts2 := if c.reabastecerEnTanque.Some? then Deplete(ts, c.reabastecerEnTanque.value, falta) else ts;
      (c.(disponible := c.capacidadCarga, combustibleDisponible := c.capacidadCombustible,
          enRetorno := false, reabastecerEnTanque := None, status := Available,
          libreEn := t + TiempoServicio),
       ts2)
    else (c, ts)
  }

  /** `n` minutes of `Llegada` for one truck, the tanks threaded through. */
  function LlegadaN(c: Camion, ts: seq<Tanque>, t: int, n: nat): (r: (Camion, seq<Tanque>))
    requires c.reabastecerEnTanque.Some? ==> c.reabastecerEnTanque.value < |ts|
    ensures |r.1| == |ts|
    decreases n
  {
    if n == 0 then (c, ts)
    else
      var s := Llegada(c, ts, t);
      LlegadaN(s.0, s.1, t + 1, n - 1)
  }

  /** A returning truck with `n` steps left walks them in `n` minutes and,
      in the next, reloads: it ends at the path's end (or where it stood),
      available, with full load and fuel, free 15 minutes after that
      minute, and its tank (if any) has lost exactly the shortfall. */
  lemma {:induction false} ReturnTrip(c: Camion, ts: seq<Tanque>, t: int, n: nat)
    requires c.status == Returning
    requires c.reabastecerEnTanque.Some? ==> c.reabastecerEnTanque.value < |ts|
    requires c.pasoActual + n == |c.rutaActual|
    ensures var r := LlegadaN(c, ts, t, n + 1);
      && r.0.status == Available && !r.0.enRetorno && r.0.reabastecerEnTanque == None
      && r.0.disponible == c.capacidadCarga
      && r.0.combustibleDisponible == c.capacidadCombustible
      && r.0.libreEn == t + n + TiempoServicio
      && r.0.pos == (if n == 0 then c.pos else c.rutaActual[|c.rutaActual| - 1])
      && (c.reabastecerEnTanque.Some? ==>
            r.1[c.reabastecerEnTanque.value].disponible
              == ts[c.reabastecerEnTanque.value].disponible - (c.capacidadCarga - c.disponible))
      && (c.reabastecerEnTanque.None? ==> r.1 == ts)
    decreases n
  {
    if n == 0 {
      var s := Llegada(c, ts, t);
      assert LlegadaN(s.0, s.1, t + 1, 0) == s;
    } else {
      var c1 := AvanzarUnPaso(c);
      assert Llegada(c, ts, t) == (c1, ts);
      ReturnTrip(c1, ts, t + 1, n - 1);
      if n == 1 {
        assert c1.pos == c.rutaActual[|c.rutaActual| - 1];
      } else {
        assert c1.rutaActual == c.rutaActual;
      }
    }
  }

  /** Whether truck `c` reloads from tank `j` this minute. */
  predicate RecargaEn(c: Camion, j: nat) {
    !TienePasosPendientes(c) && c.status == Returning && c.reabastecerEnTanque == Some(j)
  }

  /** Every tank reference of the fleet names a tank. */
  predicate TanquesValidos(flota: seq<Camion>, ts: seq<Tanque>) {
    forall i :: 0 <= i < |flota| && flota[i].reabastecerEnTanque.Some? ==> flota[i].reabastecerEnTanque.value < |ts|
  }

  /** The arrival loop over the fleet, in fleet order, the tanks threaded
      through. */
  function LlegadaFlota(flota: seq<Camion>, ts: seq<Tanque>, t: int): (r: (seq<Camion>, seq<Tanque>))
    requires TanquesValidos(flota, ts)
    ensures |r.0| == |flota| && |r.1| == |ts|
    decreases |flota|
  {
    if |flota| == 0 then ([], ts)
    else
      var s := Llegada(flota[0], ts, t);
      var rest := LlegadaFlota(flota[1..], s.1, t);
      ([s.0] + rest.0, rest.1)
  }

  /** Each truck's outcome depends on nothing but the truck: the loop order
      only matters to the tanks. A tank that no arriving truck chose is left
      as it was. */
  lemma {:induction false} LlegadaFlotaEffect(flota: seq<Camion>, ts: seq<Tanque>, t: int)
    requires TanquesValidos(flota, ts)
    ensures forall i :: 0 <= i < |flota| ==> LlegadaFlota(flota, ts, t).0[i] == Llegada(flota[i], ts, t).0
    ensures forall j :: 0 <= j < |ts| && (forall i :: 0 <= i < |flota| ==> !RecargaEn(flota[i], j)) ==>
              LlegadaFlota(flota, ts, t).1[j] == ts[j]
    decreases |flota|
  {
    if |flota| > 0 {
      var s := Llegada(flota[0], ts, t);
      assert TanquesValidos(flota[1..], s.1) by {
        forall i | 0 <= i < |flota[1..]| && flota[1..][i].reabastecerEnTanque.Some?
          ensures flota[1..][i].reabastecerEnTanque.value < |s.1|
        {
          assert flota[1..][i] == flota[i + 1];
        }
      }
      LlegadaFlotaEffect(flota[1..], s.1, t);
      forall i | 0 <= i < |flota|
        ensures LlegadaFlota(flota, ts, t).0[i] == Llegada(flota[i], ts, t).0
      {
        if i > 0 {
          assert flota[1..][i - 1] == flota[i];
          LlegadaTruckIgnoresTanks(flota[i], s.1, ts, t);
        }
      }
      forall j | 0 <= j < |ts| && (forall i :: 0 <= i < |flota| ==> !RecargaEn(flota[i], j))
        ensures LlegadaFlota(flota, ts, t).1[j] == ts[j]
      {
        assert !RecargaEn(flota[0], j);
        forall i | 0 <= i < |flota[1..]| ensures !RecargaEn(flota[1..][i], j) {
          assert flota[1..][i] == flota[i + 1];
        }
      }
    }
  }

  /** A tank exactly one arriving truck reloads from loses that truck's
      shortfall, whatever the other trucks do. */
  lemma {:induction false} LlegadaFlotaRecarga(flota: seq<Camion>, ts: seq<Tanque>, t: int, i: nat, j: nat)
    requires TanquesValidos(flota, ts)
    requires i < |flota| && j < |ts| && RecargaEn(flota[i], j) && SoloRecarga(flota, i, j)
    ensures LlegadaFlota(flota, ts, t).1[j].disponible == ts[j].disponible - (flota[i].capacidadCarga - flota[i].disponible)
    decreases |flota|
  {
    var s := Llegada(flota[0], ts, t);
    TanquesValidosTail(flota, ts, s.1);
    if i == 0 {
      LlegadaFlotaEffect(flota[1..], s.1, t);
      forall q | 0 <= q < |flota[1..]| ensures !RecargaEn(flota[1..][q], j) {
        assert flota[1..][q] == flota[q + 1];
      }
    } else {
      assert !RecargaEn(flota[0], j);
      assert flota[1..][i - 1] == flota[i];
      forall q | 0 <= q < |flota[1..]| && q != i - 1 ensures !RecargaEn(flota[1..][q], j) {
        assert flota[1..][q] == flota[q + 1];
      }
      LlegadaFlotaRecarga(flota[1..], s.1, t, i - 1, j);
    }
  }

  lemma TanquesValidosTail(flota: seq<Camion>, ts: seq<Tanque>, us: seq<Tanque>)
    requires |flota| > 0 && TanquesValidos(flota, ts) && |us| == |ts|
    ensures TanquesValidos(flota[1..], us)
  {
    forall i | 0 <= i < |flota[1..]| && flota[1..][i].reabastecerEnTanque.Some?
      ensures flota[1..][i].reabastecerEnTanque.value < |us|
    {
      assert flota[1..][i] == flota[i + 1];
    }
  }

  /** No truck of the fleet but the `i`-th reloads from tank `j`. */
  predicate SoloRecarga(flota: seq<Camion>, i: nat, j: nat) {
    forall q :: 0 <= q < |flota| && q != i ==> !RecargaEn(flota[q], j)
  }

  /** The truck half of `Llegada` does not read the tanks. */
  lemma LlegadaTruckIgnoresTanks(c: Camion, ts1: seq<Tanque>, ts2: seq<Tanque>, t: int)
    requires c.reabastecerEnTanque.Some? ==> c.reabastecerEnTanque.value < |ts1| && c.reabastecerEnTanque.value < |ts2|
    ensures Llegada(c, ts1, t).0 == Llegada(c, ts2, t).0
  {
  }
}

=== FILE: greedy.dfy ===
/** The earlier, greedy dispatcher: each minute every free truck is put back
    at the depot with full load, the shift's breakdowns disable trucks, the
    disabled trucks that are free again are released, and each created,
    unserved order goes to the first truck that can take it. Its records are
    smaller than the colony planner's: an order has only the `atendido`
    flag, and a truck keeps its fuel total across resets. */
module Legacy {
  import opened Wrappers
  import opened Grid
  import Blockage
  import Shifts

  datatype Pedido = Pedido(id: int, tiempoCreacion: int, x: int, y: int, volumen: real, tiempoLimite: int, atendido: bool)
  {
    function Dest(): Cell { Cell(x, y) }
  }

  datatype Camion = Camion(id: string, capacidad: real, disponible: real, pos: Cell, libreEn: int,
                           combustibleGastado: real, tara: real)

  /** `reset`: full load, at the depot, free from minute 0; the fuel total
      and the fixed data stay. */
  function Reset(c: Camion): (r: Camion)
    ensures r.disponible == r.capacidad && r.pos == Depot && r.libreEn == 0
    ensures r.combustibleGastado == c.combustibleGastado
    ensures r.id == c.id && r.capacidad == c.capacidad && r.tara == c.tara
  {
    c.(disponible := c.capacidad, pos := Depot, libreEn := 0)
  }

  /** The constructor: fuel total zero, then `reset`. */
  function NewCamion(id: string, capacidad: real, tara: real): (c: Camion)
    ensures c.id == id && c.capacidad == capacidad && c.tara == tara
    ensures c.disponible == capacidad && c.pos == Depot && c.libreEn == 0 && c.combustibleGastado == 0.0
  {
    Reset(Camion(id, capacidad, 0.0, Depot, 0, 0.0, tara))
  }

  /** Resetting twice is resetting once, and a reset changes nothing but
      the load, the position and the free minute. */
  lemma ResetIdempotent(c: Camion)
    ensures Reset(Reset(c)) == Reset(c)
    ensures Reset(c).(disponible := c.disponible, pos := c.pos, libreEn := c.libreEn) == c
  {
  }

  /** Start of the minute: every truck free by now is reset. */
  function ResetLibres(flota: seq<Camion>, t: int): (r: seq<Camion>)
    ensures |r| == |flota|
    ensures forall i :: 0 <= i < |flota| && flota[i].libreEn <= t ==>
      r[i].disponible == r[i].capacidad && r[i].pos == Depot && r[i].libreEn == 0
    ensures forall i :: 0 <= i < |flota| && flota[i].libreEn > t ==> r[i] == flota[i]
    ensures forall i :: 0 <= i < |flota| ==>
      r[i].(disponible := flota[i].disponible, pos := flota[i].pos, libreEn := flota[i].libreEn) == flota[i]
  {
    seq(|flota|, i requires 0 <= i < |flota| => if flota[i].libreEn <= t then Reset(flota[i]) else flota[i])
  }

  /** Resetting the free trucks a second time in the same minute changes
      nothing. */
  lemma ResetLibresIdempotent(flota: seq<Camion>, t: int)
    ensures ResetLibres(ResetLibres(flota, t), t) == ResetLibres(flota, t)
  {
    var r := ResetLibres(flota, t);
    forall i | 0 <= i < |flota|
      ensures ResetLibres(r, t)[i] == r[i]
    {
      if r[i].libreEn <= t {
        assert flota[i].libreEn <= t;
        ResetIdempotent(flota[i]);
      }
    }
  }

  // ----------------------------------------------------------- breakdowns

  /** The breakdown bookkeeping across minutes. */
  datatype Estado = Estado(turnoAnterior: string, inhabilitados: set<string>, procesados: set<string>)

  /** A new shift forgets which trucks were processed; the disabled set is
      kept. */
  function CambioTurno(st: Estado, t: int): (r: Estado)
    ensures r.turnoAnterior == Shifts.TurnoDeMinuto(t) && r.inhabilitados == st.inhabilitados
    ensures r.procesados == (if Shifts.TurnoDeMinuto(t) == st.turnoAnterior then st.procesados else {})
  {
    var turno := Shifts.TurnoDeMinuto(t);
    if turno != st.turnoAnterior then st.(procesados := {}, turnoAnterior := turno) else st
  }

  /** The first truck with the given id. */
  function Buscar(flota: seq<Camion>, id: string): (r: Option<nat>)
    ensures r.Some? ==> r.value < |flota| && flota[r.value].id == id
    ensures r.Some? ==> forall j :: 0 <= j < r.value ==> flota[j].id != id
    ensures r.None? <==> forall j :: 0 <= j < |flota| ==> flota[j].id != id
  {
    if |flota| == 0 then None
    else if flota[0].id == id then Some(0)
    else
      match Buscar(flota[1..], id)
      case None => None
      case Some(k) => Some(k + 1)
  }

  /** One entry `(id, tipo)` of the shift's breakdown map: the first truck
      with that id, if it is free, not disabled and not processed in this
      shift, is busy for the penalty and joins both sets. */
  function AplicarAveria(flota: seq<Camion>, st: Estado, id: string, tipo: string, t: int): (r: (seq<Camion>, Estado))
    ensures |r.0| == |flota|
  {
    match Buscar(flota, id)
    case None => (flota, st)
    case Some(i) =>
      if flota[i].libreEn <= t && id !in st.inhabilitados && id !in st.procesados then
        (flota[i := flota[i].(libreEn := t + Shifts.Penal(tipo))],
         st.(inhabilitados := st.inhabilitados + {id}, procesados := st.procesados + {id}))
      else (flota, st)
  }

  /** The entries of the shift's breakdown map in iteration order. */
  function AplicarAverias(flota: seq<Camion>, st: Estado, entradas: seq<(string, string)>, t: int): (r: (seq<Camion>, Estado))
    ensures |r.0| == |flota|
    decreases |entradas|
  {
    if |entradas| == 0 then (flota, st)
    else
      var s := AplicarAveria(flota, st, entradas[0].0, entradas[0].1, t);
      AplicarAverias(s.0, s.1, entradas[1..], t)
  }

  /** A breakdown entry takes effect exactly when the truck exists, is free,
      and is neither disabled nor already processed in this shift; it then
      makes the truck busy for 30, 60 or 90 minutes and changes no other
      truck. */
  lemma AplicarAveriaEffect(flota: seq<Camion>, st: Estado, id: string, tipo: string, t: int)
    ensures var r := AplicarAveria(flota, st, id, tipo, t);
      var hit := Buscar(flota, id).Some? && flota[Buscar(flota, id).value].libreEn <= t
                 && id !in st.inhabilitados && id !in st.procesados;
      && (!hit ==> r == (flota, st))
      && (hit ==>
            && r.0[Buscar(flota, id).value].libreEn == t + Shifts.Penal(tipo)
            && r.0[Buscar(flota, id).value].libreEn > t
            && (forall j :: 0 <= j < |flota| && j != Buscar(flota, id).value ==> r.0[j] == flota[j])
            && r.1.inhabilitados == st.inhabilitados + {id}
            && r.1.procesados == st.procesados + {id})
    ensures AplicarAveria(flota, st, id, tipo, t).1.turnoAnterior == st.turnoAnterior
  {
  }

  /** Over a whole shift map: both sets only grow, together; a truck whose
      id was already processed or disabled is untouched; a newly processed id
      is also newly disabled and its truck is busy past `t`; ids and every
      other field of every truck stay. */
  lemma {:induction false} AplicarAveriasOnce(flota: seq<Camion>, st: Estado, entradas: seq<(string, string)>, t: int)
    ensures var r := AplicarAverias(flota, st, entradas, t);
      && st.inhabilitados <= r.1.inhabilitados && st.procesados <= r.1.procesados
      && r.1.procesados - st.procesados == r.1.inhabilitados - st.inhabilitados
      && r.1.turnoAnterior == st.turnoAnterior
      && (forall j :: 0 <= j < |flota| && (flota[j].id in st.procesados || flota[j].id in st.inhabilitados) ==>
            r.0[j] == flota[j])
      && (forall j :: 0 <= j < |flota| ==> r.0[j].(libreEn := flota[j].libreEn) == flota[j])
      && (forall id :: id in r.1.procesados - st.procesados ==>
            Buscar(flota, id).Some? && r.0[Buscar(flota, id).value].libreEn > t)
    decreases |entradas|
  {
    if |entradas| > 0 {
      var s := AplicarAveria(flota, st, entradas[0].0, entradas[0].1, t);
      AplicarAveriaEffect(flota, st, entradas[0].0, entradas[0].1, t);
      AplicarAveriasOnce(s.0, s.1, entradas[1..], t);
      var r := AplicarAverias(flota, st, entradas, t);
      assert r.1.procesados - st.procesados == (r.1.procesados - s.1.procesados) + (s.1.procesados - st.procesados);
      assert r.1.inhabilitados - st.inhabilitados == (r.1.inhabilitados - s.1.inhabilitados) + (s.1.inhabilitados - st.inhabilitados);
      forall j | 0 <= j < |flota| ensures s.0[j].id == flota[j].id {
      }
      forall id | id in r.1.procesados - st.procesados
        ensures Buscar(flota, id).Some? && r.0[Buscar(flota, id).value].libreEn > t
      {
        BuscarSameIds(flota, s.0, id);
      }
    }
  }

  /** Finding by id only looks at the ids. */
  lemma {:induction false} BuscarSameIds(a: seq<Camion>, b: seq<Camion>, id: string)
    requires |a| == |b| && forall j :: 0 <= j < |a| ==> a[j].id == b[j].id
    ensures Buscar(a, id) == Buscar(b, id)
    decreases |a|
  {
    if |a| > 0 {
      BuscarSameIds(a[1..], b[1..], id);
    }
  }

  /** `removeIf`: a disabled id is released when any truck with that id is
      free. */
  function Liberar(flota: seq<Camion>, inhabilitados: set<string>, t: int): (r: set<string>)
    ensures r <= inhabilitados
    ensures forall id :: id in inhabilitados ==>
      (id in r <==> forall j :: 0 <= j < |flota| && flota[j].id == id ==> flota[j].libreEn > t)
  {
    set id | id in inhabilitados && forall j :: 0 <= j < |flota| && flota[j].id == id ==> flota[j].libreEn > t
  }

  /** The later the minute, the more ids are released: the set kept
      disabled only shrinks as `t` grows. */
  lemma LiberarMonotone(flota: seq<Camion>, inhabilitados: set<string>, t1: int, t2: int)
    requires t1 <= t2
    ensures Liberar(flota, inhabilitados, t2) <= Liberar(flota, inhabilitados, t1)
  {
  }

  /** With distinct truck ids, an id disabled by a breakdown in this minute
      is not released in the same minute. */
  lemma AveriaNoLiberada(flota: seq<Camion>, st: Estado, entradas: seq<(string, string)>, t: int, id: string)
    requires forall i, j :: 0 <= i < j < |flota| ==> flota[i].id != flota[j].id
    requires id in AplicarAverias(flota, st, entradas, t).1.inhabilitados - st.inhabilitados
    ensures var ab := AplicarAverias(flota, st, entradas, t);
      id in Liberar(ab.0, ab.1.inhabilitados, t)
  {
    var ab := AplicarAverias(flota, st, entradas, t);
    AplicarAveriasOnce(flota, st, entradas, t);
    assert id in ab.1.procesados - st.procesados;
    var k := Buscar(flota, id).value;
    assert ab.0[k].libreEn > t;
    forall j | 0 <= j < |ab.0| && ab.0[j].id == id
      ensures ab.0[j].libreEn > t
    {
      assert ab.0[j].id == flota[j].id;
      assert j == k;
    }
  }

  // ---------------------------------------------------------- assignment

  /** What the assignment of a minute reads besides the trucks and orders. */
  datatype Contexto = Contexto(t: int, inhabilitados: set<string>, bloqueos: seq<Blockage.Bloqueo>)

  /** Minutes until the truck is free again: there and back at two minutes
      per block, the distance measured from the depot. */
  function Ocupacion(p: Pedido): nat {
    4 * Manhattan(Depot, p.Dest())
  }

  /** Gallons for the trip: `0.00005 * d * (tara + 500 * volumen)`. */
  function Consumo(d: nat, volumen: real, tara: real): (g: real)
    ensures volumen >= 0.0 && tara >= 0.0 ==> g >= 0.0
    ensures d == 0 ==> g == 0.0
  {
    0.00005 * d as real * (tara + volumen * 500.0)
  }

  /** Fuel is proportional to distance: two legs cost what their sum costs. */
  lemma ConsumoAdditive(d1: nat, d2: nat, volumen: real, tara: real)
    ensures Consumo(d1 + d2, volumen, tara) == Consumo(d1, volumen, tara) + Consumo(d2, volumen, tara)
  {
    var w := tara + volumen * 500.0;
    assert (d1 + d2) as real == d1 as real + d2 as real;
    assert 0.00005 * (d1 as real + d2 as real) * w == 0.00005 * d1 as real * w + 0.00005 * d2 as real * w;
  }

  /** A longer trip or a larger load never costs less fuel. */
  lemma ConsumoMonotone(d1: nat, d2: nat, v1: real, v2: real, tara: real)
    requires d1 <= d2 && 0.0 <= v1 <= v2 && tara >= 0.0
    ensures Consumo(d1, v1, tara) <= Consumo(d2, v2, tara)
  {
    var w1, w2 := tara + v1 * 500.0, tara + v2 * 500.0;
    assert 0.0 <= w1 <= w2;
    assert d1 as real * w1 <= d2 as real * w1;
    assert d2 as real * w1 <= d2 as real * w2;
  }

  /** All the checks of the inner loop. */
  predicate Puede(c: Camion, p: Pedido, ctx: Contexto) {
    && c.libreEn <= ctx.t
    && c.id !in ctx.inhabilitados
    && c.disponible >= p.volumen
    && !Blockage.HayBloqueo(ctx.bloqueos, ctx.t, c.pos.x, c.pos.y, p.x, p.y)
    && ctx.t + Ocupacion(p) <= p.tiempoLimite
  }

  /** The first truck in fleet order that can take the order. */
  function PrimerFactible(flota: seq<Camion>, p: Pedido, ctx: Contexto): (r: Option<nat>)
    ensures r.Some? ==> r.value < |flota| && Puede(flota[r.value], p, ctx)
    ensures r.Some? ==> forall j :: 0 <= j < r.value ==> !Puede(flota[j], p, ctx)
    ensures r.None? <==> forall j :: 0 <= j < |flota| ==> !Puede(flota[j], p, ctx)
  {
    if |flota| == 0 then None
    else if Puede(flota[0], p, ctx) then Some(0)
    else
      match PrimerFactible(flota[1..], p, ctx)
      case None => None
      case Some(k) => Some(k + 1)
  }

  /** The inner loop as written: the best cost starts at "none" and a truck
      replaces the best only at a strictly smaller depot distance. That
      distance is the same for every truck, so the first truck that passes
      the checks is the one chosen. */
  method ElegirCamion(flota: seq<Camion>, p: Pedido, ctx: Contexto) returns (mejor: Option<nat>)
    ensures mejor == PrimerFactible(flota, p, ctx)
  {
    mejor := None;
    var mejorCosto: Option<nat> := None;
    var k := 0;
    while k < |flota|
      invariant k <= |flota|
      invariant mejor.None? <==> mejorCosto.None?
      invariant mejor.None? ==> forall j :: 0 <= j < k ==> !Puede(flota[j], p, ctx)
      invariant mejor.Some? ==> mejor == PrimerFactible(flota, p, ctx) && mejorCosto == Some(Manhattan(Depot, p.Dest()))
    {
      var c := flota[k];
      if Puede(c, p, ctx) {
        var d1 := Manhattan(Depot, p.Dest());
        if mejorCosto.None? || d1 < mejorCosto.value {
          mejor := Some(k);
          mejorCosto := Some(d1);
        }
      }
      k := k + 1;
    }
  }

  /** The truck's side of an assignment. */
  function Cargar(c: Camion, p: Pedido, t: int): Camion {
    c.(libreEn := t + Ocupacion(p), disponible := c.disponible - p.volumen,
       combustibleGastado := c.combustibleGastado + Consumo(Manhattan(Depot, p.Dest()), p.volumen, c.tara))
  }

  /** An assignment: which order went to which truck. */
  datatype Asignacion = Asignacion(pedido: nat, camion: nat)

  /** One order of `asignarPedidos`. */
  function AsignarUno(ps: seq<Pedido>, fl: seq<Camion>, ctx: Contexto, j: nat): (r: (seq<Pedido>, seq<Camion>, Option<nat>))
    requires j < |ps|
    ensures |r.0| == |ps| && |r.1| == |fl|
  {
    var p := ps[j];
    if p.tiempoCreacion > ctx.t || p.atendido then (ps, fl, None)
    else
      match PrimerFactible(fl, p, ctx)
      case None => (ps, fl, None)
      case Some(i) => (ps[j := p.(atendido := true)], fl[i := Cargar(fl[i], p, ctx.t)], Some(i))
  }

  /** `asignarPedidos` over the first `k` orders, in list order. */
  function AsignarHasta(ps: seq<Pedido>, fl: seq<Camion>, ctx: Contexto, k: nat): (r: (seq<Pedido>, seq<Camion>, seq<Asignacion>))
    requires k <= |ps|
    ensures |r.0| == |ps| && |r.1| == |fl|
    decreases k
  {
    if k == 0 then (ps, fl, [])
    else
      var prev := AsignarHasta(ps, fl, ctx, k - 1);
      var step := AsignarUno(prev.0, prev.1, ctx, k - 1);
      (step.0, step.1, prev.2 + (if step.2.Some? then [Asignacion(k - 1, step.2.value)] else []))
  }

  function AsignarPedidos(ps: seq<Pedido>, fl: seq<Camion>, ctx: Contexto): (r: (seq<Pedido>, seq<Camion>, seq<Asignacion>))
    ensures |r.0| == |ps| && |r.1| == |fl|
  {
    AsignarHasta(ps, fl, ctx, |ps|)
  }

  /** The assignments name orders of the first `k`, in increasing order,
      and trucks of the fleet. */
  predicate Ordenadas(as_: seq<Asignacion>, k: nat, nf: nat) {
    && (forall a :: 0 <= a < |as_| ==> as_[a].pedido < k && as_[a].camion < nf)
    && (forall a, b :: 0 <= a < b < |as_| ==> as_[a].pedido < as_[b].pedido)
  }

  /** Orders named by no assignment are untouched, named ones are served,
      and no order changes anything but its served flag. */
  predicate PedidosInv(ps: seq<Pedido>, ps2: seq<Pedido>, as_: seq<Asignacion>)
    requires |ps2| == |ps|
  {
    && (forall a :: 0 <= a < |as_| && as_[a].pedido < |ps| ==> ps2[as_[a].pedido].atendido)
    && (forall j :: 0 <= j < |ps| && (forall a :: 0 <= a < |as_| ==> as_[a].pedido != j) ==> ps2[j] == ps[j])
    && (forall j :: 0 <= j < |ps| ==> ps2[j].(atendido := ps[j].atendido) == ps[j])
  }

  /** Trucks named by no assignment are untouched; every truck keeps its id,
      capacity and tare, and a non-negative load if it had one. */
  predicate CamionesInv(fl: seq<Camion>, fl2: seq<Camion>, as_: seq<Asignacion>)
    requires |fl2| == |fl|
  {
    && (forall i :: 0 <= i < |fl| && (forall a :: 0 <= a < |as_| ==> as_[a].camion != i) ==> fl2[i] == fl[i])
    && (forall i :: 0 <= i < |fl| ==>
          fl2[i].id == fl[i].id && fl2[i].capacidad == fl[i].capacidad && fl2[i].tara == fl[i].tara)
    && (forall i :: 0 <= i < |fl| && fl[i].disponible >= 0.0 ==> fl2[i].disponible >= 0.0)
  }

  /** A truck given an order away from the depot is busy past the minute. */
  predicate Ocupados(ps: seq<Pedido>, fl2: seq<Camion>, as_: seq<Asignacion>, t: int) {
    forall a :: 0 <= a < |as_| && as_[a].pedido < |ps| && as_[a].camion < |fl2| && ps[as_[a].pedido].Dest() != Depot ==>
      fl2[as_[a].camion].libreEn > t
  }

  /** The order side of one step: at most the order itself is marked served. */
  lemma AsignarUnoPedidos(ps: seq<Pedido>, fl: seq<Camion>, ctx: Contexto, j: nat)
    requires j < |ps|
    ensures var r := AsignarUno(ps, fl, ctx, j);
      && (r.2.None? ==> r.0 == ps)
      && (r.2.Some? ==> r.0 == ps[j := ps[j].(atendido := true)])
  {
  }

  /** The truck side of one step: at most the chosen truck is loaded. */
  lemma AsignarUnoCamiones(ps: seq<Pedido>, fl: seq<Camion>, ctx: Contexto, j: nat)
    requires j < |ps|
    ensures var r := AsignarUno(ps, fl, ctx, j);
      && (r.2.None? ==> r.1 == fl)
      && (r.2.Some? ==> r.2.value < |fl| && r.1 == fl[r.2.value := Cargar(fl[r.2.value], ps[j], ctx.t)])
  {
  }

  lemma {:induction false} AsignarHastaOrdenadas(ps: seq<Pedido>, fl: seq<Camion>, ctx: Contexto, k: nat)
    requires k <= |ps|
    ensures Ordenadas(AsignarHasta(ps, fl, ctx, k).2, k, |fl|)
    decreases k
  {
    if k > 0 {
      AsignarHastaOrdenadas(ps, fl, ctx, k - 1);
    }
  }

  /** Marking order `k - 1` served, when no earlier assignment names it,
      keeps the order invariant with the new assignment appended. */
  lemma PedidosInvStep(ps: seq<Pedido>, ps1: seq<Pedido>, as1: seq<Asignacion>, k: nat, i: nat)
    requires |ps1| == |ps| && 0 < k <= |ps|
    requires PedidosInv(ps, ps1, as1)
    requires forall a :: 0 <= a < |as1| ==> as1[a].pedido < k - 1
    ensures PedidosInv(ps, ps1[k - 1 := ps1[k - 1].(atendido := true)], as1 + [Asignacion(k - 1, i)])
  {
    var ps2 := ps1[k - 1 := ps1[k - 1].(atendido := true)];
    var as2 := as1 + [Asignacion(k - 1, i)];
    assert ps1[k - 1] == ps[k - 1];
    forall a | 0 <= a < |as2| && as2[a].pedido < |ps|
      ensures ps2[as2[a].pedido].atendido
    {
      if a < |as1| {
        assert as2[a] == as1[a];
      }
    }
    forall j | 0 <= j < |ps| && (forall a :: 0 <= a < |as2| ==> as2[a].pedido != j)
      ensures ps2[j] == ps[j]
    {
      assert as2[|as1|].pedido == k - 1;
      forall a | 0 <= a < |as1|
        ensures as1[a].pedido != j
      {
        assert as2[a] == as1[a];
      }
    }
  }

  lemma {:induction false} AsignarHastaPedidos(ps: seq<Pedido>, fl: seq<Camion>, ctx: Contexto, k: nat)
    requires k <= |ps|
    ensures PedidosInv(ps, AsignarHasta(ps, fl, ctx, k).0, AsignarHasta(ps, fl, ctx, k).2)
    decreases k
  {
    if k > 0 {
      AsignarHastaPedidos(ps, fl, ctx, k - 1);
      AsignarHastaOrdenadas(ps, fl, ctx, k - 1);
      var prev := AsignarHasta(ps, fl, ctx, k - 1);
      var step := AsignarUno(prev.0, prev.1, ctx, k - 1);
      AsignarUnoPedidos(prev.0, prev.1, ctx, k - 1);
      var r := AsignarHasta(ps, fl, ctx, k);
      assert r.0 == step.0;
      if step.2.Some? {
        assert r.2 == prev.2 + [Asignacion(k - 1, step.2.value)];
        PedidosInvStep(ps, prev.0, prev.2, k, step.2.value);
      } else {
        assert r.2 == prev.2;
      }
    }
  }

  lemma {:induction false} AsignarHastaCamiones(ps: seq<Pedido>, fl: seq<Camion>, ctx: Contexto, k: nat)
    requires k <= |ps|
    ensures CamionesInv(fl, AsignarHasta(ps, fl, ctx, k).1, AsignarHasta(ps, fl, ctx, k).2)
    decreases k
  {
    if k > 0 {
      AsignarHastaCamiones(ps, fl, ctx, k - 1);
      var prev := AsignarHasta(ps, fl, ctx, k - 1);
      var step := AsignarUno(prev.0, prev.1, ctx, k - 1);
      AsignarUnoEffect(prev.0, prev.1, ctx, k - 1);
      var r := AsignarHasta(ps, fl, ctx, k);
      assert r.1 == step.1;
      if step.2.Some? {
        var i := step.2.value;
        assert r.2 == prev.2 + [Asignacion(k - 1, i)];
        forall i2 | 0 <= i2 < |fl| && (forall a :: 0 <= a < |r.2| ==> r.2[a].camion != i2)
          ensures r.1[i2] == fl[i2]
        {
          assert i2 != i by {
            assert r.2[|r.2| - 1].camion == i;
          }
          assert forall a :: 0 <= a < |prev.2| ==> prev.2[a] == r.2[a];
        }
      } else {
        assert r.2 == prev.2;
      }
    }
  }

  /** Loading a truck that is free at `t` with order `k - 1` keeps every
      earlier non-depot assignment's truck busy, and makes this one busy too
      unless the order is on the depot. */
  lemma OcupadosStep(ps: seq<Pedido>, fl1: seq<Camion>, as1: seq<Asignacion>, t: int, k: nat, i: nat)
    requires 0 < k <= |ps| && i < |fl1|
    requires Ocupados(ps, fl1, as1, t)
    requires fl1[i].libreEn <= t
    ensures Ocupados(ps, fl1[i := Cargar(fl1[i], ps[k - 1], t)], as1 + [Asignacion(k - 1, i)], t)
  {
    var fl2 := fl1[i := Cargar(fl1[i], ps[k - 1], t)];
    var as2 := as1 + [Asignacion(k - 1, i)];
    forall a | 0 <= a < |as2| && as2[a].pedido < |ps| && as2[a].camion < |fl2| && ps[as2[a].pedido].Dest() != Depot
      ensures fl2[as2[a].camion].libreEn > t
    {
      if a < |as1| {
        assert as2[a] == as1[a];
        assert fl1[as1[a].camion].libreEn > t;
      }
    }
  }

  lemma {:induction false} AsignarHastaOcupados(ps: seq<Pedido>, fl: seq<Camion>, ctx: Contexto, k: nat)
    requires k <= |ps|
    ensures Ocupados(ps, AsignarHasta(ps, fl, ctx, k).1, AsignarHasta(ps, fl, ctx, k).2, ctx.t)
    decreases k
  {
    if k > 0 {
      AsignarHastaOcupados(ps, fl, ctx, k - 1);
      AsignarHastaPedidos(ps, fl, ctx, k - 1);
      AsignarHastaOrdenadas(ps, fl, ctx, k - 1);
      var prev := AsignarHasta(ps, fl, ctx, k - 1);
      var step := AsignarUno(prev.0, prev.1, ctx, k - 1);
      AsignarUnoCamiones(prev.0, prev.1, ctx, k - 1);
      if step.2.Some? {
        var i := step.2.value;
        assert prev.0[k - 1] == ps[k - 1] by {
          assert forall a :: 0 <= a < |prev.2| ==> prev.2[a].pedido != k - 1;
        }
        assert prev.1[i].libreEn <= ctx.t by {
          AsignarUnoEffect(prev.0, prev.1, ctx, k - 1);
        }
        OcupadosStep(ps, prev.1, prev.2, ctx.t, k, i);
        assert AsignarHasta(ps, fl, ctx, k) == (step.0, step.1, prev.2 + [Asignacion(k - 1, i)]);
      } else {
        assert prev.2 + [] == prev.2;
        assert AsignarHasta(ps, fl, ctx, k) == (step.0, step.1, prev.2);
      }
    }
  }

  /** Unless some pending order lies on the depot, no truck receives two
      orders in the same minute: an assignment makes the truck busy past the
      minute, and a busy truck fails the first check. */
  lemma UnaPorCamion(ps: seq<Pedido>, fl: seq<Camion>, ctx: Contexto)
    requires forall j :: 0 <= j < |ps| ==> ps[j].Dest() != Depot
    ensures var as_ := AsignarPedidos(ps, fl, ctx).2;
      forall a, b :: 0 <= a < b < |as_| ==> as_[a].camion != as_[b].camion
  {
    UnaPorCamionHasta(ps, fl, ctx, |ps|);
    assert AsignarPedidos(ps, fl, ctx) == AsignarHasta(ps, fl, ctx, |ps|);
  }

  /** No truck appears in two assignments. */
  predicate CamionesDistintos(as_: seq<Asignacion>) {
    forall a, b :: 0 <= a < b < |as_| ==> as_[a].camion != as_[b].camion
  }

  lemma {:induction false} UnaPorCamionHasta(ps: seq<Pedido>, fl: seq<Camion>, ctx: Contexto, k: nat)
    requires k <= |ps|
    requires forall j :: 0 <= j < |ps| ==> ps[j].Dest() != Depot
    ensures CamionesDistintos(AsignarHasta(ps, fl, ctx, k).2)
    decreases k
  {
    if k > 0 {
      UnaPorCamionHasta(ps, fl, ctx, k - 1);
      AsignarHastaOcupados(ps, fl, ctx, k - 1);
      AsignarHastaOrdenadas(ps, fl, ctx, k - 1);
      var prev := AsignarHasta(ps, fl, ctx, k - 1);
      var step := AsignarUno(prev.0, prev.1, ctx, k - 1);
      AsignarUnoEffect(prev.0, prev.1, ctx, k - 1);
      var r := AsignarHasta(ps, fl, ctx, k);
      if step.2.Some? {
        var i := step.2.value;
        assert r.2 == prev.2 + [Asignacion(k - 1, i)];
        assert prev.1[i].libreEn <= ctx.t;
        forall a | 0 <= a < |prev.2| ensures prev.2[a].camion != i {
          assert ps[prev.2[a].pedido].Dest() != Depot;
          assert prev.1[prev.2[a].camion].libreEn > ctx.t;
        }
      } else {
        assert r.2 == prev.2;
      }
    }
  }

  /** A truck that takes an order on the depot is still free in the same
      minute, so it can take any further depot order it has room for. */
  lemma DepotOrderKeepsTruckFree(c: Camion, p: Pedido, q: Pedido, ctx: Contexto)
    requires Puede(c, p, ctx) && p.Dest() == Depot && q.Dest() == Depot
    requires c.disponible - p.volumen >= q.volumen && ctx.t <= q.tiempoLimite
    ensures Cargar(c, p, ctx.t).libreEn == ctx.t
    ensures Puede(Cargar(c, p, ctx.t), q, ctx)
  {
  }

  /** The premise is needed: an order on the depot keeps its truck free at
      `t`, so two such orders go to the same truck in one minute. */
  lemma DepotOrdersShareTruck()
    ensures var p := Pedido(0, 0, Depot.x, Depot.y, 1.0, 100, false);
      var c := NewCamion("TA01", 25.0, 7500.0);
      AsignarPedidos([p, p.(id := 1)], [c], Contexto(0, {}, [])).2 == [Asignacion(0, 0), Asignacion(1, 0)]
  {
    var p := Pedido(0, 0, Depot.x, Depot.y, 1.0, 100, false);
    var q := p.(id := 1);
    var c := NewCamion("TA01", 25.0, 7500.0);
    var ctx := Contexto(0, {}, []);
    var ps := [p, q];
    assert Puede(c, p, ctx);
    var c1 := Cargar(c, p, 0);
    DepotOrderKeepsTruckFree(c, p, q, ctx);
    assert PrimerFactible([c], p, ctx) == Some(0);
    assert ps[0] == p;
    assert [c][0 := c1] == [c1];
    var ps1 := ps[0 := p.(atendido := true)];
    AsignarUnoEffect(ps, [c], ctx, 0);
    assert AsignarUno(ps, [c], ctx, 0) == (ps1, [c1], Some(0));
    assert ps1[1] == q;
    assert PrimerFactible([c1], q, ctx) == Some(0);
    AsignarUnoEffect(ps1, [c1], ctx, 1);
    assert AsignarUno(ps1, [c1], ctx, 1).2 == Some(0);
    assert AsignarHasta(ps, [c], ctx, 0) == (ps, [c], []);
    assert [] + [Asignacion(0, 0)] == [Asignacion(0, 0)];
    assert AsignarHasta(ps, [c], ctx, 1) == (ps1, [c1], [Asignacion(0, 0)]);
    assert AsignarHasta(ps, [c], ctx, 2).2 == [Asignacion(0, 0)] + [Asignacion(1, 0)];
  }

  /** An assigned order was created, unserved and feasible for its truck;
      the truck ends the minute free at `t + 4d` if nothing else was given
      to it, with the volume taken off. Stated for the step itself. */
  lemma AsignarUnoEffect(ps: seq<Pedido>, fl: seq<Camion>, ctx: Contexto, j: nat)
    requires j < |ps|
    ensures var r := AsignarUno(ps, fl, ctx, j);
      && (r.2.None? ==> r.0 == ps && r.1 == fl)
      && (r.2.None? <==> ps[j].tiempoCreacion > ctx.t || ps[j].atendido ||
                         forall i :: 0 <= i < |fl| ==> !Puede(fl[i], ps[j], ctx))
      && (r.2.Some? ==>
            var i := r.2.value;
            && i < |fl| && Puede(fl[i], ps[j], ctx)
            && (forall i2 :: 0 <= i2 < i ==> !Puede(fl[i2], ps[j], ctx))
            && r.0 == ps[j := ps[j].(atendido := true)]
            && r.1 == fl[i := Cargar(fl[i], ps[j], ctx.t)]
            && r.1[i].libreEn == ctx.t + Ocupacion(ps[j])
            && r.1[i].disponible == fl[i].disponible - ps[j].volumen
            && r.1[i].disponible >= 0.0
            && (forall i2 :: 0 <= i2 < |fl| && i2 != i ==> r.1[i2] == fl[i2]))
  {
  }

  // ------------------------------------------------------ the whole minute

  /** One minute of the greedy simulation. */
  function Minuto(ps: seq<Pedido>, flota: seq<Camion>, st: Estado, entradas: seq<(string, string)>,
                  bloqueos: seq<Blockage.Bloqueo>, t: int): (r: (seq<Pedido>, seq<Camion>, Estado))
    ensures |r.0| == |ps| && |r.1| == |flota|
  {
    var f1 := ResetLibres(flota, t);
    var st1 := CambioTurno(st, t);
    var ab := AplicarAverias(f1, st1, entradas, t);
    var inhab := Liberar(ab.0, ab.1.inhabilitados, t);
    var st2 := ab.1.(inhabilitados := inhab);
    var asg := AsignarPedidos(ps, ab.0, Contexto(t, inhab, bloqueos));
    (asg.0, asg.1, st2)
  }

  /** A truck that broke down in this minute is given no order in it. */
  lemma AveriadoSinPedido(ps: seq<Pedido>, flota: seq<Camion>, st: Estado, entradas: seq<(string, string)>,
                          bloqueos: seq<Blockage.Bloqueo>, t: int, id: string)
    requires var f1 := ResetLibres(flota, t); var st1 := CambioTurno(st, t);
      id in AplicarAverias(f1, st1, entradas, t).1.procesados - st1.procesados
    ensures var f1 := ResetLibres(flota, t);
      var st1 := CambioTurno(st, t);
      var ab := AplicarAverias(f1, st1, entradas, t);
      var asg := AsignarPedidos(ps, ab.0, Contexto(t, Liberar(ab.0, ab.1.inhabilitados, t), bloqueos));
      Buscar(f1, id).Some? &&
      forall a :: 0 <= a < |asg.2| ==> asg.2[a].camion != Buscar(f1, id).value
  {
    var f1 := ResetLibres(flota, t);
    var st1 := CambioTurno(st, t);
    var ab := AplicarAverias(f1, st1, entradas, t);
    var ctx := Contexto(t, Liberar(ab.0, ab.1.inhabilitados, t), bloqueos);
    AplicarAveriasOnce(f1, st1, entradas, t);
    var i := Buscar(f1, id).value;
    assert ab.0[i].libreEn > t;
    BusyNeverAssigned(ps, ab.0, ctx, |ps|, i);
  }

  /** A truck busy past `t` gets no order and is left as it was. */
  lemma {:induction false} BusyNeverAssigned(ps: seq<Pedido>, fl: seq<Camion>, ctx: Contexto, k: nat, i: nat)
    requires k <= |ps| && i < |fl| && fl[i].libreEn > ctx.t
    ensures var r := AsignarHasta(ps, fl, ctx, k);
      r.1[i] == fl[i] && forall a :: 0 <= a < |r.2| ==> r.2[a].camion != i
    decreases k
  {
    if k > 0 {
      BusyNeverAssigned(ps, fl, ctx, k - 1, i);
    }
  }
}

=== FILE: grid.dfy ===
/** The city grid: integer cells, Manhattan distance, travel time at 50 km/h
    and the fixed 70 x 50 bounds searched by the detour planner. */
module Grid {

  datatype Cell = Cell(x: int, y: int)

  /** Grid bounds used by the A* search (`closed = new boolean[70][50]`). */
  const Width: int := 70
  const Height: int := 50

  /** The main plant (depot) at (12,8). */
  const Depot: Cell := Cell(12, 8)

  function Abs(a: int): nat { if a < 0 then -a else a }

  function Manhattan(a: Cell, b: Cell): nat {
    Abs(a.x - b.x) + Abs(a.y - b.y)
  }

  predicate InBounds(c: Cell) {
    0 <= c.x < Width && 0 <= c.y < Height
  }

  predicate Adjacent(a: Cell, b: Cell) {
    Manhattan(a, b) == 1
  }

  /** Minutes to cover `d` grid units at 1.2 minutes per unit, rounded up:
      the source's `(int) Math.ceil(d * (60.0 / 50.0))`, i.e. the ceiling
      of 6d/5. */
  function TravelTime(d: nat): (r: nat)
    ensures 5 * r >= 6 * d
    ensures 5 * r < 6 * d + 5
  {
    (6 * d + 4) / 5
  }

  /** `path` is a walk of unit moves that starts next to `from` (the start
      cell itself is not included) and finishes on `to`. */
  predicate IsWalk(from: Cell, path: seq<Cell>, to: Cell) {
    && (|path| == 0 ==> from == to)
    && (|path| > 0 ==> Adjacent(from, path[0]) && path[|path| - 1] == to)
    && (forall i :: 0 < i < |path| ==> Adjacent(path[i - 1], path[i]))
  }

  /** A walk has at least as many steps as the Manhattan distance it covers. */
  lemma {:induction false} WalkAtLeastManhattan(from: Cell, path: seq<Cell>, to: Cell)
    requires IsWalk(from, path, to)
    ensures |path| >= Manhattan(from, to)
    decreases |path|
  {
    if |path| > 0 {
      var prev := if |path| == 1 then from else path[|path| - 2];
      var front := path[..|path| - 1];
      assert IsWalk(from, front, prev) by {
        forall i | 0 < i < |front| ensures Adjacent(front[i - 1], front[i]) {
          assert front[i - 1] == path[i - 1] && front[i] == path[i];
        }
      }
      WalkAtLeastManhattan(from, front, prev);
      assert Adjacent(prev, to);
    }
  }

  /** Two walks meeting at `mid` join into one walk. */
  lemma WalkConcat(from: Cell, p: seq<Cell>, mid: Cell, q: seq<Cell>, to: Cell)
    requires IsWalk(from, p, mid) && IsWalk(mid, q, to)
    ensures IsWalk(from, p + q, to)
  {
    var w := p + q;
    forall i | 0 < i < |w| ensures Adjacent(w[i - 1], w[i]) {
      if i < |p| {
        assert w[i - 1] == p[i - 1] && w[i] == p[i];
      } else if i == |p| {
        assert w[i] == q[0];
      } else {
        assert w[i - 1] == q[i - 1 - |p|] && w[i] == q[i - |p|];
      }
    }
  }
}

=== FILE: insertion.dfy ===
/** Inserting a new order into a truck's pending route: each stop is reached
    after ⌈6d/5⌉ minutes of travel and must be reached by its deadline with
    enough room left for its volume. `esDesvioValido` checks the insertion
    at the front; `posicionOptimaDeInsercion` tries every position and keeps
    the one that finishes earliest. */
module Insertion {
  import opened Wrappers
  import opened Grid
  import opened Orders
  import opened Trucks

  /** Where the simulated truck is, the simulated clock, the room left. */
  datatype Sim = Sim(pos: Cell, hora: int, disponible: real)

  /** The simulation starts from the truck as it stands at minute `t`. */
  function Inicio(c: Camion, t: int): Sim {
    Sim(c.pos, t, c.disponible)
  }

  /** One stop: travel there, then the deadline check and the capacity
      check; `None` when either fails. */
  function Parada(s: Sim, q: Pedido): Option<Sim> {
    var hora := s.hora + TravelTime(Manhattan(s.pos, q.Dest()));
    var disp := s.disponible - q.volumen;
    if hora > q.tiempoLimite || disp < 0.0 then None
    else Some(Sim(q.Dest(), hora, disp))
  }

  /** Serving `qs` in order; `None` as soon as a stop fails. */
  function Simular(s: Sim, qs: seq<Pedido>): Option<Sim>
    decreases |qs|
  {
    if |qs| == 0 then Some(s)
    else
      match Parada(s, qs[0])
      case None => None
      case Some(s1) => Simular(s1, qs[1..])
  }

  /** `qs` with `p` inserted before position `idx` (`List.add(idx, p)`). */
  function Insertar(qs: seq<Pedido>, idx: nat, p: Pedido): (r: seq<Pedido>)
    requires idx <= |qs|
    ensures |r| == |qs| + 1 && r[idx] == p
    ensures forall j :: 0 <= j < idx ==> r[j] == qs[j]
    ensures forall j :: idx < j < |r| ==> r[j] == qs[j - 1]
  {
    qs[..idx] + [p] + qs[idx..]
  }

  // ------------------------------------------- the closed-form schedule

  /** The cell the truck leaves for stop `j`. */
  function Prev(start: Cell, qs: seq<Pedido>, j: nat): Cell
    requires j <= |qs|
  {
    if j == 0 then start else qs[j - 1].Dest()
  }

  /** Minutes of travel to reach stop `j`. */
  function Tramo(start: Cell, qs: seq<Pedido>, j: nat): nat
    requires j < |qs|
  {
    TravelTime(Manhattan(Prev(start, qs, j), qs[j].Dest()))
  }

  /** Minutes of travel to reach the first `n` stops. */
  function Tiempo(start: Cell, qs: seq<Pedido>, n: nat): int
    requires n <= |qs|
  {
    if n == 0 then 0 else Tiempo(start, qs, n - 1) + Tramo(start, qs, n - 1)
  }

  /** Volume of the first `n` stops. */
  function Carga(qs: seq<Pedido>, n: nat): real
    requires n <= |qs|
  {
    if n == 0 then 0.0 else Carga(qs, n - 1) + qs[n - 1].volumen
  }

  lemma {:induction false} TiempoShift(start: Cell, qs: seq<Pedido>, n: nat)
    requires 1 <= n <= |qs|
    ensures Tiempo(start, qs, n) == Tramo(start, qs, 0) + Tiempo(qs[0].Dest(), qs[1..], n - 1)
    decreases n
  {
    if n > 1 {
      TiempoShift(start, qs, n - 1);
      assert Tramo(start, qs, n - 1) == Tramo(qs[0].Dest(), qs[1..], n - 2);
    }
  }

  lemma {:induction false} CargaShift(qs: seq<Pedido>, n: nat)
    requires 1 <= n <= |qs|
    ensures Carga(qs, n) == qs[0].volumen + Carga(qs[1..], n - 1)
    decreases n
  {
    if n > 1 {
      CargaShift(qs, n - 1);
      assert qs[n - 1] == qs[1..][n - 2];
    }
  }

  /** How the schedule after the first stop relates to the whole one. */
  lemma AfterFirstStop(s: Sim, qs: seq<Pedido>, k: nat)
    requires 1 <= k <= |qs| && Parada(s, qs[0]).Some?
    ensures var s1 := Parada(s, qs[0]).value;
      && s.hora + Tiempo(s.pos, qs, k) == s1.hora + Tiempo(s1.pos, qs[1..], k - 1)
      && s.disponible - Carga(qs, k) == s1.disponible - Carga(qs[1..], k - 1)
  {
    TiempoShift(s.pos, qs, k);
    CargaShift(qs, k);
  }

  /** Every stop `k` within its deadline and capacity, in closed form. */
  predicate Cumple(s: Sim, qs: seq<Pedido>, k: nat)
    requires k < |qs|
  {
    && s.hora + Tiempo(s.pos, qs, k + 1) <= qs[k].tiempoLimite
    && s.disponible - Carga(qs, k + 1) >= 0.0
  }

  /** The simulation succeeds exactly when every stop `k` is reached, after
      the travel to the first `k + 1` stops, by its deadline, and the room
      left after the first `k + 1` volumes is never negative. */
  lemma {:induction false} SimularSpec(s: Sim, qs: seq<Pedido>)
    ensures Simular(s, qs).Some? <==> forall k :: 0 <= k < |qs| ==> Cumple(s, qs, k)
    decreases |qs|
  {
    if |qs| > 0 {
      AfterFirstStop0(s, qs);
      var step := Parada(s, qs[0]);
      if step.Some? {
        var s1 := step.value;
        var rest := qs[1..];
        SimularSpec(s1, rest);
        forall k | 1 <= k < |qs|
          ensures Cumple(s, qs, k) <==> Cumple(s1, rest, k - 1)
        {
          AfterFirstStop(s, qs, k + 1);
          assert qs[k] == rest[k - 1];
        }
        if !Simular(s, qs).Some? {
          var k :| 0 <= k < |rest| && !Cumple(s1, rest, k);
          assert !Cumple(s, qs, k + 1);
        }
      }
    }
  }

  /** The first stop in closed form. */
  lemma AfterFirstStop0(s: Sim, qs: seq<Pedido>)
    requires 1 <= |qs|
    ensures Parada(s, qs[0]).Some? <==> Cumple(s, qs, 0)
    ensures Parada(s, qs[0]).Some? ==> Parada(s, qs[0]).value.hora == s.hora + Tiempo(s.pos, qs, 1)
    ensures Parada(s, qs[0]).Some? ==> Parada(s, qs[0]).value.disponible == s.disponible - Carga(qs, 1)
  {
    TiempoShift(s.pos, qs, 1);
    CargaShift(qs, 1);
  }

  /** A successful simulation ends on the last stop, after all the travel,
      with all the volumes taken. */
  lemma {:induction false} SimularFinal(s: Sim, qs: seq<Pedido>)
    requires Simular(s, qs).Some?
    ensures Simular(s, qs).value ==
      Sim(Prev(s.pos, qs, |qs|), s.hora + Tiempo(s.pos, qs, |qs|), s.disponible - Carga(qs, |qs|))
    decreases |qs|
  {
    if |qs| > 0 {
      var s1 := Parada(s, qs[0]).value;
      SimularFinal(s1, qs[1..]);
      AfterFirstStop(s, qs, |qs|);
    }
  }

  // ------------------------------------------------------ the two checks

  /** Inserting `p` before position `idx` passes every stop's checks. */
  predicate Valida(c: Camion, p: Pedido, t: int, idx: nat)
    requires idx <= |c.rutaPendiente|
  {
    Simular(Inicio(c, t), Insertar(c.rutaPendiente, idx, p)).Some?
  }

  /** The minute the last stop is reached with `p` before position `idx`. */
  function LlegadaFinal(c: Camion, p: Pedido, t: int, idx: nat): int
    requires idx <= |c.rutaPendiente| && Valida(c, p, t, idx)
  {
    Simular(Inicio(c, t), Insertar(c.rutaPendiente, idx, p)).value.hora
  }

  lemma SimularCons(s: Sim, q: Pedido, qs: seq<Pedido>)
    ensures Simular(s, [q] + qs) == (match Parada(s, q) case None => None case Some(s1) => Simular(s1, qs))
  {
    assert ([q] + qs)[1..] == qs;
  }

  lemma SimularStep(s: Sim, qs: seq<Pedido>, k: nat)
    requires k < |qs|
    ensures Simular(s, qs[k..]) == (match Parada(s, qs[k]) case None => None case Some(s1) => Simular(s1, qs[k + 1..]))
  {
    assert qs[k..][1..] == qs[k + 1..];
  }

  /** `esDesvioValido`: serve `p` first, then the pending route. It holds
      exactly when inserting `p` at the front passes every check. */
  method EsDesvioValido(c: Camion, p: Pedido, t: int) returns (ok: bool)
    ensures ok <==> Valida(c, p, t, 0)
  {
    var ruta := c.rutaPendiente;
    assert Insertar(ruta, 0, p) == [p] + ruta;
    SimularCons(Inicio(c, t), p, ruta);
    var first := Parada(Inicio(c, t), p);
    if first.None? {
      return false;
    }
    var s := first.value;
    var k := 0;
    while k < |ruta|
      invariant k <= |ruta|
      invariant Simular(Inicio(c, t), Insertar(ruta, 0, p)) == Simular(s, ruta[k..])
    {
      SimularStep(s, ruta, k);
      var next := Parada(s, ruta[k]);
      if next.None? {
        return false;
      }
      s := next.value;
      k := k + 1;
    }
    return true;
  }

  /** The inner loop of `posicionOptimaDeInsercion`: walk the stops and
      stop at the first failing one. */
  method SimularRuta(s0: Sim, qs: seq<Pedido>) returns (valido: bool, hora: int)
    ensures valido <==> Simular(s0, qs).Some?
    ensures valido ==> hora == Simular(s0, qs).value.hora
  {
    var s := s0;
    valido := true;
    var k := 0;
    while k < |qs|
      invariant k <= |qs|
      invariant Simular(s0, qs) == Simular(s, qs[k..])
    {
      SimularStep(s, qs, k);
      var next := Parada(s, qs[k]);
      if next.None? {
        valido := false;
        break;
      }
      s := next.value;
      k := k + 1;
    }
    hora := s.hora;
  }

  /** `posicionOptimaDeInsercion`: the first position, in [0, n], whose
      insertion passes every check and reaches the last stop earliest; n
      when no position passes. */
  method PosicionOptima(c: Camion, p: Pedido, t: int) returns (mejorIdx: nat)
    ensures mejorIdx <= |c.rutaPendiente|
    ensures (forall j :: 0 <= j <= |c.rutaPendiente| ==> !Valida(c, p, t, j)) ==> mejorIdx == |c.rutaPendiente|
    ensures (exists j :: 0 <= j <= |c.rutaPendiente| && Valida(c, p, t, j)) ==>
      && Valida(c, p, t, mejorIdx)
      && (forall j :: 0 <= j <= |c.rutaPendiente| && Valida(c, p, t, j) ==>
            LlegadaFinal(c, p, t, mejorIdx) <= LlegadaFinal(c, p, t, j))
      && (forall j :: 0 <= j < mejorIdx && Valida(c, p, t, j) ==>
            LlegadaFinal(c, p, t, mejorIdx) < LlegadaFinal(c, p, t, j))
  {
    var n := |c.rutaPendiente|;
    mejorIdx := n;
    var mejor: Option<int> := None;
    var idx := 0;
    while idx <= n
      invariant idx <= n + 1
      invariant mejor.None? ==> mejorIdx == n && forall j :: 0 <= j < idx ==> !Valida(c, p, t, j)
      invariant mejor.Some? ==>
        && mejorIdx < idx && Valida(c, p, t, mejorIdx) && mejor.value == LlegadaFinal(c, p, t, mejorIdx)
        && (forall j :: 0 <= j < idx && Valida(c, p, t, j) ==> mejor.value <= LlegadaFinal(c, p, t, j))
        && (forall j :: 0 <= j < mejorIdx && Valida(c, p, t, j) ==> mejor.value < LlegadaFinal(c, p, t, j))
    {
      var valido, hora := SimularRuta(Inicio(c, t), Insertar(c.rutaPendiente, idx, p));
      if valido && (mejor.None? || hora < mejor.value) {
        mejor := Some(hora);
        mejorIdx := idx;
      }
      idx := idx + 1;
    }
  }
}

=== FILE: intake.dfy ===
/** Order intake before the minute loop starts: orders larger than the
    biggest truck are split into truck-sized pieces, orders with less than
    four hours of lead time are rejected, and the rest are indexed by their
    creation minute. Also the per-minute collapse check: the simulation ends
    at the first minute an open order is past its deadline. */
module Intake {
  import opened Wrappers
  import opened JavaInt
  import opened Orders

  // ---------------------------------------------------------------- split

  /** The fleet's largest load capacity; 0 for an empty fleet
      (`max().orElse(0)`). */
  function MaxCapacidad(caps: seq<real>): (m: real)
    ensures |caps| == 0 ==> m == 0.0
    ensures forall i :: 0 <= i < |caps| ==> caps[i] <= m
    ensures |caps| > 0 ==> exists i :: 0 <= i < |caps| && caps[i] == m
  {
    if |caps| == 0 then 0.0
    else
      var rest := MaxCapacidad(caps[1..]);
      assert forall i :: 1 <= i < |caps| ==> caps[i] == caps[1..][i - 1];
      if |caps| == 1 || caps[0] >= rest then caps[0] else rest
  }

  /** `(int) Math.ceil(x)` on an exact real. */
  function Ceil(x: real): (n: int)
    ensures n as real - 1.0 < x <= n as real
  {
    if x == x.Floor as real then x.Floor else x.Floor + 1
  }

  function MinReal(a: real, b: real): real { if a <= b then a else b }

  /** `k` full loads of `m`, by repeated addition. */
  function Loads(k: nat, m: real): real {
    if k == 0 then 0.0 else Loads(k - 1, m) + m
  }

  lemma {:induction false} LoadsIsProduct(k: nat, m: real)
    ensures Loads(k, m) == k as real * m
  {
    if k > 0 {
      LoadsIsProduct(k - 1, m);
      assert k as real * m == (k - 1) as real * m + m;
    }
  }

  lemma {:induction false} LoadsAtLeastOne(k: nat, m: real)
    requires k >= 1 && m > 0.0
    ensures Loads(k, m) >= m
  {
    if k > 1 {
      LoadsAtLeastOne(k - 1, m);
    }
  }

  /** Pieces `i..n` of `p` when `restante` is still to be covered: piece
      `i` gets id `id * 100 + i` in 32-bit arithmetic, the parent's creation
      minute, destination and deadline, and `min(maxCap, restante)`; then
      `restante` drops by a full load. Pieces are new orders, so their
      status flags start cleared. */
  function Trozos(p: Pedido, maxCap: real, i: nat, n: int, restante: real): (s: seq<Pedido>)
    requires i >= 1
    ensures |s| == if i <= n then n - i + 1 else 0
    ensures forall k :: 0 <= k < |s| ==>
              && s[k].id == Wrap(p.id * 100 + i + k)
              && s[k].tiempoCreacion == p.tiempoCreacion && s[k].tiempoLimite == p.tiempoLimite
              && s[k].Dest() == p.Dest()
              && !s[k].atendido && !s[k].descartado && !s[k].programado
    decreases n + 1 - i
  {
    if i > n then []
    else
      var sub := NewPedido(Wrap(p.id * 100 + i), p.tiempoCreacion, p.x, p.y,
                           MinReal(maxCap, restante), p.tiempoLimite);
      var rest := Trozos(p, maxCap, i + 1, n, restante - maxCap);
      assert forall k :: 1 <= k < |rest| + 1 ==> ([sub] + rest)[k] == rest[k - 1];
      [sub] + rest
  }

  /** The number of pieces of an order larger than `maxCap`. */
  function NumPartes(p: Pedido, maxCap: real): int
    requires maxCap > 0.0
  {
    Ceil(p.volumen / maxCap)
  }

  /** What splitting does to one order: too-large orders become
      `ceil(v / maxCap)` pieces, others pass through unchanged. */
  function Fraccionar(p: Pedido, maxCap: real): (s: seq<Pedido>)
    requires maxCap > 0.0
    ensures p.volumen <= maxCap ==> s == [p]
    ensures p.volumen > maxCap ==> |s| == NumPartes(p, maxCap) >= 2
  {
    if p.volumen > maxCap then
      NumPartesBounds(p, maxCap);
      Trozos(p, maxCap, 1, NumPartes(p, maxCap), p.volumen)
    else [p]
  }

  /** The whole list, order by order. */
  function FraccionarTodos(ps: seq<Pedido>, maxCap: real): (s: seq<Pedido>)
    requires maxCap > 0.0
    ensures |ps| == 0 ==> s == []
    ensures |s| >= |ps|
  {
    if |ps| == 0 then [] else Fraccionar(ps[0], maxCap) + FraccionarTodos(ps[1..], maxCap)
  }

  function SumVol(ps: seq<Pedido>): real {
    if |ps| == 0 then 0.0 else ps[0].volumen + SumVol(ps[1..])
  }

  /** `n - 1 < v / m <= n`, scaled by `m`. */
  lemma NumPartesBounds(p: Pedido, maxCap: real)
    requires maxCap > 0.0 && p.volumen > maxCap
    ensures NumPartes(p, maxCap) >= 2
    ensures Loads(NumPartes(p, maxCap) - 1, maxCap) < p.volumen <= Loads(NumPartes(p, maxCap), maxCap)
  {
    var n := NumPartes(p, maxCap);
    var q := p.volumen / maxCap;
    assert (n - 1) as real < q <= n as real;
    assert q > 1.0 by {
      if q <= 1.0 {
        MulMonoLe(q, 1.0, maxCap);
        DivMul(p.volumen, maxCap);
        assert false;
      }
    }
    LoadsIsProduct(n - 1, maxCap);
    LoadsIsProduct(n, maxCap);
    calc {
      (n - 1) as real * maxCap;
    < { MulMono((n - 1) as real, q, maxCap); }
      q * maxCap;
    == { DivMul(p.volumen, maxCap); }
      p.volumen;
    }
    calc {
      p.volumen;
    == { DivMul(p.volumen, maxCap); }
      q * maxCap;
    <= { MulMonoLe(q, n as real, maxCap); }
      n as real * maxCap;
    }
  }

  lemma DivMul(v: real, m: real)
    requires m > 0.0
    ensures (v / m) * m == v
  {
  }

  lemma MulMono(a: real, b: real, m: real)
    requires a < b && m > 0.0
    ensures a * m < b * m
  {
  }

  lemma MulMonoLe(a: real, b: real, m: real)
    requires a <= b && m > 0.0
    ensures a * m <= b * m
  {
  }

  /** Pieces `i..n` cover exactly what is left, each positive and at most
      one full load, when what is left needs exactly `n - i + 1` loads. */
  lemma {:induction false} TrozosCover(p: Pedido, maxCap: real, i: nat, n: int, restante: real)
    requires maxCap > 0.0 && 1 <= i <= n
    requires Loads(n - i, maxCap) < restante <= Loads(n - i + 1, maxCap)
    ensures SumVol(Trozos(p, maxCap, i, n, restante)) == restante
    ensures forall k :: 0 <= k < n - i + 1 ==> 0.0 < Trozos(p, maxCap, i, n, restante)[k].volumen <= maxCap
    decreases n - i
  {
    var s := Trozos(p, maxCap, i, n, restante);
    if i == n {
      assert |s| == 1 && s[0].volumen == restante;
    } else {
      var rest := Trozos(p, maxCap, i + 1, n, restante - maxCap);
      assert Loads(n - i + 1, maxCap) == Loads(n - i, maxCap) + maxCap;
      assert Loads(n - i, maxCap) == Loads(n - i - 1, maxCap) + maxCap;
      LoadsAtLeastOne(n - i, maxCap);
      assert s[0].volumen == maxCap;
      TrozosCover(p, maxCap, i + 1, n, restante - maxCap);
      assert s[1..] == rest;
      assert SumVol(s) == s[0].volumen + SumVol(rest);
      forall k | 0 <= k < n - i + 1 ensures 0.0 < s[k].volumen <= maxCap {
        if k > 0 {
          assert s[k] == rest[k - 1];
        }
      }
    }
  }

  /** Splitting an order larger than the largest truck: `n = ceil(v / max)`
      pieces, every one positive and fitting the largest truck, adding up to
      the order's volume; each inherits the parent's creation minute,
      destination and deadline, with id `parent * 100 + i` (32-bit). */
  lemma SplitPieces(p: Pedido, maxCap: real)
    requires maxCap > 0.0 && p.volumen > maxCap
    ensures var s := Fraccionar(p, maxCap);
      && |s| == NumPartes(p, maxCap)
      && (|s| - 1) as real * maxCap < p.volumen <= |s| as real * maxCap
      && SumVol(s) == p.volumen
      && forall i :: 0 <= i < |s| ==>
           && 0.0 < s[i].volumen <= maxCap
           && s[i].id == Wrap(p.id * 100 + i + 1)
           && s[i].tiempoCreacion == p.tiempoCreacion && s[i].tiempoLimite == p.tiempoLimite
           && s[i].Dest() == p.Dest()
           && !s[i].atendido && !s[i].descartado && !s[i].programado
  {
    var n := NumPartes(p, maxCap);
    NumPartesBounds(p, maxCap);
    LoadsIsProduct(n - 1, maxCap);
    LoadsIsProduct(n, maxCap);
    TrozosCover(p, maxCap, 1, n, p.volumen);
  }

  /** Splitting the whole list keeps the total volume. */
  lemma {:induction false} SplitKeepsTotal(ps: seq<Pedido>, maxCap: real)
    requires maxCap > 0.0
    ensures SumVol(FraccionarTodos(ps, maxCap)) == SumVol(ps)
    decreases |ps|
  {
    if |ps| > 0 {
      SplitKeepsTotal(ps[1..], maxCap);
      var head := Fraccionar(ps[0], maxCap);
      if ps[0].volumen > maxCap {
        SplitPieces(ps[0], maxCap);
      }
      assert SumVol(head) == ps[0].volumen;
      SumVolConcat(head, FraccionarTodos(ps[1..], maxCap));
    }
  }

  lemma {:induction false} SumVolConcat(a: seq<Pedido>, b: seq<Pedido>)
    ensures SumVol(a + b) == SumVol(a) + SumVol(b)
    decreases |a|
  {
    if |a| == 0 {
      assert a + b == b;
    } else {
      assert (a + b)[1..] == a[1..] + b;
      SumVolConcat(a[1..], b);
    }
  }

  /** After splitting, every order fits the largest truck. */
  lemma {:induction false} SplitFits(ps: seq<Pedido>, maxCap: real)
    requires maxCap > 0.0
    ensures forall q :: q in FraccionarTodos(ps, maxCap) ==> q.volumen <= maxCap
    decreases |ps|
  {
    if |ps| > 0 {
      SplitFits(ps[1..], maxCap);
      if ps[0].volumen > maxCap {
        SplitPieces(ps[0], maxCap);
      }
    }
  }

  /** Piece ids are not checked against the other orders: the first piece
      of order 1 takes id 101, which an unsplit order 101 may already use. */
  lemma SplitIdsMayCollide()
    ensures var parent := NewPedido(1, 0, 5, 5, 30.0, 600);
      var other := NewPedido(101, 0, 7, 7, 5.0, 600);
      var s := FraccionarTodos([parent, other], 25.0);
      |s| == 3 && s[0].id == s[2].id == 101
  {
    var parent := NewPedido(1, 0, 5, 5, 30.0, 600);
    var other := NewPedido(101, 0, 7, 7, 5.0, 600);
    assert NumPartes(parent, 25.0) == 2 by {
      assert parent.volumen / 25.0 == 1.2;
    }
    assert Fraccionar(other, 25.0) == [other];
    assert FraccionarTodos([other], 25.0) == [other];
  }

  // ------------------------------------------------------- lead-time filter

  /** Minimum lead time between creation and deadline: four hours. */
  const MinAnticipacion: int := 4 * 60

  predicate PocaAnticipacion(p: Pedido) {
    p.tiempoLimite - p.tiempoCreacion < MinAnticipacion
  }

  /** The filter pass: orders with too little lead time are marked
      rejected; the others are left as they are. */
  function Filtrar(ps: seq<Pedido>): (r: seq<Pedido>)
    ensures |r| == |ps|
    ensures forall i :: 0 <= i < |ps| ==> r[i].(descartado := ps[i].descartado) == ps[i]
    ensures forall i :: 0 <= i < |ps| ==> r[i].descartado == (ps[i].descartado || PocaAnticipacion(ps[i]))
  {
    seq(|ps|, i requires 0 <= i < |ps| => if PocaAnticipacion(ps[i]) then SetDescartado(ps[i], true) else ps[i])
  }

  /** `pedidosPorTiempo.getOrDefault(t, empty)`. */
  function Llegan(m: map<int, seq<nat>>, t: int): seq<nat> {
    if t in m then m[t] else []
  }

  /** `pedidosPorTiempo`: creation minute to the positions of the orders
      that passed the filter, in list order. */
  function PorTiempo(ps: seq<Pedido>): map<int, seq<nat>>
  {
    if |ps| == 0 then map[]
    else
      var m := PorTiempo(ps[..|ps| - 1]);
      var p := ps[|ps| - 1];
      if PocaAnticipacion(p) then m
      else m[p.tiempoCreacion := Llegan(m, p.tiempoCreacion) + [|ps| - 1]]
  }

  /** An order position is listed under minute t exactly when the order
      passed the lead-time filter and was created at t; the positions
      under one minute are increasing. */
  lemma {:induction false} PorTiempoExact(ps: seq<Pedido>, t: int)
    ensures forall i :: i in Llegan(PorTiempo(ps), t) <==>
              0 <= i < |ps| && !PocaAnticipacion(ps[i]) && ps[i].tiempoCreacion == t
    ensures forall a, b :: 0 <= a < b < |Llegan(PorTiempo(ps), t)| ==>
              Llegan(PorTiempo(ps), t)[a] < Llegan(PorTiempo(ps), t)[b]
    decreases |ps|
  {
    if |ps| > 0 {
      var front := ps[..|ps| - 1];
      PorTiempoExact(front, t);
      assert forall i :: 0 <= i < |front| ==> front[i] == ps[i];
      var l := Llegan(PorTiempo(front), t);
      forall a | 0 <= a < |l| ensures l[a] < |front| {
        assert l[a] in l;
      }
    }
  }

  /** A rejected order is never scheduled to arrive. */
  lemma RejectedNeverArrive(ps: seq<Pedido>, i: nat, t: int)
    requires i < |ps| && Filtrar(ps)[i].descartado && !ps[i].descartado
    ensures i !in Llegan(PorTiempo(ps), t)
  {
    PorTiempoExact(ps, t);
  }

  // ------------------------------------------------------------- collapse

  /** An order still open (neither delivered nor rejected) after its
      deadline. */
  predicate Vencido(p: Pedido, t: int) {
    !p.atendido && !p.descartado && t > p.tiempoLimite
  }

  /** The collapse check of minute t: the first overdue order, if any. */
  method Incumplido(ps: seq<Pedido>, t: int) returns (r: Option<nat>)
    ensures r.Some? ==> r.value < |ps| && Vencido(ps[r.value], t)
    ensures r.Some? ==> forall j :: 0 <= j < r.value ==> !Vencido(ps[j], t)
    ensures r.None? <==> forall j :: 0 <= j < |ps| ==> !Vencido(ps[j], t)
  {
    var i := 0;
    while i < |ps|
      invariant i <= |ps|
      invariant forall j :: 0 <= j < i ==> !Vencido(ps[j], t)
    {
      if Vencido(ps[i], t) {
        return Some(i);
      }
      i := i + 1;
    }
    return None;
  }

  /** The simulation over minutes 0..tMax, given the order list as it stands
      at each minute's check: it stops at the first minute with an overdue
      order. */
  method PrimerColapso(trace: seq<seq<Pedido>>, tMax: nat) returns (r: Option<nat>)
    requires tMax < |trace|
    ensures r.Some? ==> r.value <= tMax
    ensures r.Some? ==> exists j :: 0 <= j < |trace[r.value]| && Vencido(trace[r.value][j], r.value)
    ensures forall t :: 0 <= t <= tMax && (r.None? || t < r.value) ==>
              forall j :: 0 <= j < |trace[t]| ==> !Vencido(trace[t][j], t)
  {
    var t := 0;
    while t <= tMax
      invariant t <= tMax + 1
      invariant forall u :: 0 <= u < t ==> forall j :: 0 <= j < |trace[u]| ==> !Vencido(trace[u][j], u)
    {
      var v := Incumplido(trace[t], t);
      if v.Some? {
        return Some(t);
      }
      t := t + 1;
    }
    return None;
  }

  /** A rejected order never collapses the simulation, and an open order
      past its deadline stays overdue in every later minute. */
  lemma VencidoFacts(p: Pedido, t: int, u: int)
    ensures p.descartado ==> !Vencido(p, t)
    ensures Vencido(p, t) && t <= u ==> Vencido(p, u)
    ensures Vencido(p, t) <==> !p.atendido && !p.descartado && p.tiempoLimite < t
  {
  }
}

=== FILE: javaint.dfy ===
/** The parts of Java's 32-bit `int` arithmetic that the dispatcher relies on.
    Dafny integers are unbounded, so the wrap-around of `int` multiplication and
    addition, and the truncating remainder `%`, are written out here. */
module JavaInt {

  const IntMin: int := -0x8000_0000
  const IntMax: int := 0x7fff_ffff
  const Modulus: int := 0x1_0000_0000

  predicate InRange(x: int) { IntMin <= x <= IntMax }

  /** The `int` value Java produces for the mathematical result `x`: two's
      complement wrap-around modulo 2^32. */
  function Wrap(x: int): (r: int)
    ensures InRange(r)
    ensures (r - x) % Modulus == 0
    ensures InRange(x) ==> r == x
  {
    (x - IntMin) % Modulus + IntMin
  }

  /** Wrapping an intermediate result does not change the final wrapped value,
      so a chain of Java `int` operations equals one wrap of the exact result. */
  lemma WrapAbsorbs(a: int, b: int)
    ensures Wrap(Wrap(a) + b) == Wrap(a + b)
    ensures Wrap(Wrap(a) * b) == Wrap(a * b)
  {
    var k := (Wrap(a) - a) / Modulus;
    assert Wrap(a) == a + k * Modulus;
    assert Wrap(a) + b == (a + b) + k * Modulus;
    assert Wrap(a) * b == a * b + (k * b) * Modulus;
    SameClass(Wrap(a) + b, a + b, k);
    SameClass(Wrap(a) * b, a * b, k * b);
  }

  /** `x + y + z` evaluated with a wrap after each operation on `int`
      operands `Wrap(x)` and `Wrap(y)` equals one wrap of the exact sum. */
  lemma WrapSum(x: int, y: int, z: int)
    ensures Wrap(Wrap(Wrap(x) + Wrap(y)) + z) == Wrap(x + y + z)
  {
    WrapAbsorbs(x, Wrap(y));
    WrapAbsorbs(y, x);
    assert Wrap(y) + x == x + Wrap(y);
    assert Wrap(Wrap(x) + Wrap(y)) == Wrap(x + y);
    WrapAbsorbs(x + y, z);
  }

  lemma SameClass(x: int, y: int, k: int)
    requires x == y + k * Modulus
    ensures Wrap(x) == Wrap(y)
  {
    assert (x - IntMin) == (y - IntMin) + k * Modulus;
    assert (x - IntMin) % Modulus == (y - IntMin) % Modulus;
  }

  /** Java's `%` on `int`: the remainder takes the sign of the dividend, as
      opposed to Dafny's Euclidean `%`. */
  function Rem(a: int, b: int): (r: int)
    requires b > 0
    ensures a >= 0 ==> r == a % b
    ensures a < 0 ==> -b < r <= 0
    ensures a < 0 ==> r == -((-a) % b)
  {
    if a >= 0 then a % b else -((-a) % b)
  }
}

=== FILE: paths.dfy ===
/** Step-by-step grid paths. The direct route walks x first, then y, and
    checks each step against the closures; on the first blocked step it hands
    over to an A* search from the last accepted cell. The point-closure test
    the search relies on is not part of the given source, so it is a
    parameter here: `blocked(minute, cell)`. */
module Paths {
  import opened Wrappers
  import opened Grid

  datatype PathError =
    | NoRoute      // the A* queue ran empty
    | OutOfGrid    // the search started outside the 70 x 50 grid

  /** The one-cell move `buildManhattanPath` makes from `c` towards `to`:
      fix x first, then y. */
  function NextStep(c: Cell, to: Cell): (n: Cell)
    requires c != to
    ensures Adjacent(c, n)
    ensures Manhattan(n, to) == Manhattan(c, to) - 1
    ensures c.x != to.x ==> n.y == c.y
    ensures c.x == to.x ==> n.x == c.x
  {
    if c.x < to.x then Cell(c.x + 1, c.y)
    else if c.x > to.x then Cell(c.x - 1, c.y)
    else if c.y < to.y then Cell(c.x, c.y + 1)
    else Cell(c.x, c.y - 1)
  }

  /** The unobstructed route: exactly |dx| + |dy| unit steps, start excluded,
      all x steps before any y step. */
  function DirectPath(from: Cell, to: Cell): (p: seq<Cell>)
    ensures |p| == Manhattan(from, to)
    ensures IsWalk(from, p, to)
    ensures forall i :: 0 <= i < |p| ==> Manhattan(p[i], to) == |p| - i - 1
    ensures forall i :: 0 <= i < Abs(to.x - from.x) ==> p[i].y == from.y
    ensures forall i :: Abs(to.x - from.x) <= i < |p| ==> p[i].x == to.x
    decreases Manhattan(from, to)
  {
    if from == to then []
    else
      var n := NextStep(from, to);
      var rest := DirectPath(n, to);
      DirectStep(from, to, rest);
      [n] + rest
  }

  /** One x-then-y step in front of a direct route from the next cell is a
      direct route from `from`. */
  lemma DirectStep(from: Cell, to: Cell, rest: seq<Cell>)
    requires from != to
    requires |rest| == Manhattan(NextStep(from, to), to)
    requires IsWalk(NextStep(from, to), rest, to)
    requires forall i :: 0 <= i < |rest| ==> Manhattan(rest[i], to) == |rest| - i - 1
    requires forall i :: 0 <= i < Abs(to.x - NextStep(from, to).x) ==> rest[i].y == NextStep(from, to).y
    requires forall i :: Abs(to.x - NextStep(from, to).x) <= i < |rest| ==> rest[i].x == to.x
    ensures var p := [NextStep(from, to)] + rest;
      && |p| == Manhattan(from, to)
      && IsWalk(from, p, to)
      && (forall i :: 0 <= i < |p| ==> Manhattan(p[i], to) == |p| - i - 1)
      && (forall i :: 0 <= i < Abs(to.x - from.x) ==> p[i].y == from.y)
      && (forall i :: Abs(to.x - from.x) <= i < |p| ==> p[i].x == to.x)
  {
    var n := NextStep(from, to);
    var p := [n] + rest;
    assert forall i :: 0 < i < |p| ==> p[i] == rest[i - 1];
    assert from.x != to.x ==> Abs(to.x - n.x) == Abs(to.x - from.x) - 1 && n.y == from.y;
    assert from.x == to.x ==> n.x == to.x && Abs(to.x - n.x) == 0;
  }

  /** Non-target cells of `path` are free at the minute the test uses:
      the cell at index j is tested at `t + j + 1`. The target itself is
      exempt (a truck may drive onto a closed cell it is headed for). */
  predicate AvoidsBlocks(blocked: (int, Cell) -> bool, path: seq<Cell>, target: Cell, t: int) {
    forall j :: 0 <= j < |path| ==> path[j] == target || !blocked(t + j + 1, path[j])
  }

  /** What a successful A* search promises. */
  predicate SearchResult(blocked: (int, Cell) -> bool, start: Cell, path: seq<Cell>, target: Cell, t: int) {
    && IsWalk(start, path, target)
    && (forall j :: 0 <= j < |path| ==> InBounds(path[j]))
    && (forall j :: 0 <= j < |path| - 1 ==> path[j] != target)
    && AvoidsBlocks(blocked, path, target, t)
  }

  // -------------------------------------------------------------- A* search

  datatype Node = Node(pt: Cell, g: nat, f: int, parent: Option<nat>)

  /** Node `i` of the search tree hangs off an earlier, expanded node. */
  predicate NodeOk(blocked: (int, Cell) -> bool, nodes: seq<Node>, i: nat, target: Cell, t: int)
    requires i < |nodes|
  {
    var n := nodes[i];
    && n.parent.Some? && n.parent.value < i
    && var p := nodes[n.parent.value];
    && Adjacent(p.pt, n.pt) && n.g == p.g + 1 && InBounds(n.pt)
    && p.pt != target
    && (n.pt == target || !blocked(t + n.g, n.pt))
  }

  predicate TreeOk(blocked: (int, Cell) -> bool, nodes: seq<Node>, start: Cell, target: Cell, t: int) {
    && |nodes| > 0
    && nodes[0].pt == start && nodes[0].g == 0 && nodes[0].parent.None?
    && forall i :: 0 < i < |nodes| ==> NodeOk(blocked, nodes, i, target, t)
  }

  /** The cells from the root to node `i`, following parent links. */
  function PathTo(blocked: (int, Cell) -> bool, nodes: seq<Node>, i: nat, start: Cell, target: Cell, t: int): (p: seq<Cell>)
    requires TreeOk(blocked, nodes, start, target, t) && i < |nodes|
    ensures |p| == nodes[i].g + 1
    ensures p[0] == start && p[|p| - 1] == nodes[i].pt
    ensures forall k :: 0 < k < |p| ==> Adjacent(p[k - 1], p[k]) && InBounds(p[k])
    ensures forall k :: 0 < k < |p| ==> p[k] == target || !blocked(t + k, p[k])
    ensures forall k :: 0 <= k < |p| - 1 ==> p[k] != target
    decreases i
  {
    if i == 0 then [start]
    else
      assert NodeOk(blocked, nodes, i, target, t);
      var j := nodes[i].parent.value;
      var q := PathTo(blocked, nodes, j, start, target, t);
      q + [nodes[i].pt]
  }

  /** The grid cells, as a finite set: the search closes each at most once. */
  function AllCells(): set<Cell> {
    set x, y | 0 <= x < Width && 0 <= y < Height :: Cell(x, y)
  }

  lemma InAllCells(c: Cell)
    requires InBounds(c)
    ensures c in AllCells()
  {
  }

  /** A node the expansion of `c` (index `ci`) may push. */
  predicate KidOk(blocked: (int, Cell) -> bool, c: Node, ci: nat, closed: set<Cell>, target: Cell, t: int, kid: Node) {
    && kid.parent == Some(ci) && kid.g == c.g + 1
    && Adjacent(c.pt, kid.pt) && InBounds(kid.pt) && kid.pt !in closed
    && (kid.pt == target || !blocked(t + kid.g, kid.pt))
    && kid.f == kid.g + Manhattan(kid.pt, target)
  }

  /** The neighbours pushed when node `ci` is expanded, in the source's
      order (+x, -x, +y, -y): inside the grid, not blocked on arrival unless
      it is the target, and not already closed. */
  function Children(blocked: (int, Cell) -> bool, nodes: seq<Node>, ci: nat, closed: set<Cell>, target: Cell, t: int): (kids: seq<Node>)
    requires ci < |nodes|
    ensures forall k :: 0 <= k < |kids| ==> KidOk(blocked, nodes[ci], ci, closed, target, t, kids[k])
  {
    var c := nodes[ci];
    var cands := [Cell(c.pt.x + 1, c.pt.y), Cell(c.pt.x - 1, c.pt.y), Cell(c.pt.x, c.pt.y + 1), Cell(c.pt.x, c.pt.y - 1)];
    Keep(blocked, cands, c, ci, closed, target, t)
  }

  function Keep(blocked: (int, Cell) -> bool, cands: seq<Cell>, c: Node, ci: nat, closed: set<Cell>, target: Cell, t: int): (kids: seq<Node>)
    requires forall k :: 0 <= k < |cands| ==> Adjacent(c.pt, cands[k])
    ensures forall k :: 0 <= k < |kids| ==> KidOk(blocked, c, ci, closed, target, t, kids[k])
  {
    if |cands| == 0 then []
    else
      var nx := cands[0];
      var tLleg := t + c.g + 1;
      assert forall k :: 0 <= k < |cands| - 1 ==> cands[1..][k] == cands[k + 1];
      var rest := Keep(blocked, cands[1..], c, ci, closed, target, t);
      if !InBounds(nx) then rest
      else if blocked(tLleg, nx) && nx != target then rest
      else if nx in closed then rest
      else
        var kid := Node(nx, c.g + 1, c.g + 1 + Manhattan(nx, target), Some(ci));
        assert KidOk(blocked, c, ci, closed, target, t, kid);
        assert forall k :: 1 <= k < |rest| + 1 ==> ([kid] + rest)[k] == rest[k - 1];
        [kid] + rest
  }

  function MinIndex(nodes: seq<Node>, open: seq<nat>): (k: nat)
    requires |open| > 0 && forall j :: 0 <= j < |open| ==> open[j] < |nodes|
    ensures k < |open|
    ensures forall j :: 0 <= j < |open| ==> nodes[open[k]].f <= nodes[open[j]].f
  {
    if |open| == 1 then 0
    else
      var k := MinIndex(nodes, open[1..]);
      assert forall j :: 1 <= j < |open| ==> open[j] == open[1..][j - 1];
      if nodes[open[0]].f <= nodes[open[1..][k]].f then 0 else k + 1
  }

  /** Appending the children of an expanded non-target node keeps the tree
      well formed. */
  lemma ExtendTree(blocked: (int, Cell) -> bool, nodes: seq<Node>, ci: nat, closed: set<Cell>, kids: seq<Node>, start: Cell, target: Cell, t: int)
    requires TreeOk(blocked, nodes, start, target, t) && ci < |nodes| && nodes[ci].pt != target
    requires forall k :: 0 <= k < |kids| ==> KidOk(blocked, nodes[ci], ci, closed, target, t, kids[k])
    ensures TreeOk(blocked, nodes + kids, start, target, t)
  {
    var all := nodes + kids;
    forall i | 0 < i < |all| ensures NodeOk(blocked, all, i, target, t) {
      if i >= |nodes| {
        assert all[i] == kids[i - |nodes|];
        assert all[ci] == nodes[ci];
        assert KidOk(blocked, nodes[ci], ci, closed, target, t, kids[i - |nodes|]);
      } else {
        assert NodeOk(blocked, nodes, i, target, t);
        assert all[i] == nodes[i] && all[nodes[i].parent.value] == nodes[nodes[i].parent.value];
      }
    }
  }

  /** The walk to a popped target node, start removed, is a search result. */
  lemma FoundPath(blocked: (int, Cell) -> bool, nodes: seq<Node>, ci: nat, start: Cell, target: Cell, t: int)
    requires TreeOk(blocked, nodes, start, target, t) && ci < |nodes| && nodes[ci].pt == target
    ensures SearchResult(blocked, start, PathTo(blocked, nodes, ci, start, target, t)[1..], target, t)
  {
    var p := PathTo(blocked, nodes, ci, start, target, t);
    var path := p[1..];
    assert forall j :: 0 <= j < |path| ==> path[j] == p[j + 1];
    if |path| > 0 {
      assert Adjacent(p[0], p[1]);
    }
  }

  /** `findPathAStar`: lowest f = g + Manhattan first (ties broken in any
      order), each cell closed at most once, a neighbour is skipped when it
      is outside the grid, closed, or blocked at the minute of arrival
      `t + g` unless it is the target. The start is not part of the result.
      Fails when the queue runs empty or the start is outside the grid. */
  method FindPathAStar(blocked: (int, Cell) -> bool, start: Cell, target: Cell, t: int)
    returns (r: Result<seq<Cell>, PathError>)
    ensures r.Success? ==> SearchResult(blocked, start, r.value, target, t)
    ensures start == target ==> r == Success([])
    ensures start != target && !InBounds(target) ==> r.Failure?
  {
    var nodes := [Node(start, 0, Manhattan(start, target), None)];
    var open: seq<nat> := [0];
    var closed: set<Cell> := {};
    while |open| > 0
      invariant TreeOk(blocked, nodes, start, target, t)
      invariant forall j :: 0 <= j < |open| ==> open[j] < |nodes|
      invariant closed <= AllCells()
      invariant start == target ==> open == [0] && |nodes| == 1
      decreases AllCells() - closed, |open|
    {
      var k :| 0 <= k < |open| && forall j :: 0 <= j < |open| ==> nodes[open[k]].f <= nodes[open[j]].f by {
        var m := MinIndex(nodes, open);
        assert 0 <= m < |open| && forall j :: 0 <= j < |open| ==> nodes[open[m]].f <= nodes[open[j]].f;
      }
      var ci := open[k];
      open := open[..k] + open[k + 1..];
      var cur := nodes[ci];
      if cur.pt == target {
        FoundPath(blocked, nodes, ci, start, target, t);
        if ci > 0 {
          assert NodeOk(blocked, nodes, ci, target, t);
        }
        return Success(PathTo(blocked, nodes, ci, start, target, t)[1..]);
      }
      if !InBounds(cur.pt) {
        return Failure(OutOfGrid);
      }
      if cur.pt in closed {
        continue;
      }
      InAllCells(cur.pt);
      closed := closed + {cur.pt};
      var kids := Children(blocked, nodes, ci, closed, target, t);
      ExtendTree(blocked, nodes, ci, closed, kids, start, target, t);
      var base := |nodes|;
      nodes := nodes + kids;
      open := open + seq(|kids|, i requires 0 <= i < |kids| => base + i);
    }
    return Failure(NoRoute);
  }

  // ------------------------------------------------------ Manhattan route

  /** Step `i` of a direct route leaving at minute `t0` is checked against
      the closures at `t0 + i + 2`: the loop's clock is one minute ahead of
      the step count, and the move test adds the one-unit step once more. */
  predicate StepFree(blocked: (int, Cell) -> bool, d: seq<Cell>, t0: int, i: nat)
    requires i < |d|
  {
    !blocked(t0 + i + 2, d[i])
  }

  predicate AllStepsFree(blocked: (int, Cell) -> bool, d: seq<Cell>, t0: int) {
    forall i :: 0 <= i < |d| ==> StepFree(blocked, d, t0, i)
  }

  /** Index `k` is the first step of `d` the closures reject. */
  predicate FirstBlockAt(blocked: (int, Cell) -> bool, d: seq<Cell>, t0: int, k: nat) {
    && k < |d|
    && !StepFree(blocked, d, t0, k)
    && forall i :: 0 <= i < k ==> StepFree(blocked, d, t0, i)
  }

  /** The cell a direct route stands on after `k` accepted steps. */
  function Before(from: Cell, d: seq<Cell>, k: nat): Cell
    requires k <= |d|
  {
    if k == 0 then from else d[k - 1]
  }

  /** Accepted direct steps followed by a search result from the last of
      them form one walk whose cells are free at the minutes tested. */
  lemma JoinDetour(blocked: (int, Cell) -> bool, from: Cell, d: seq<Cell>, k: nat, alt: seq<Cell>, to: Cell, t0: int)
    requires k < |d| && IsWalk(from, d[..k], Before(from, d, k))
    requires forall i :: 0 <= i < k ==> StepFree(blocked, d, t0, i)
    requires SearchResult(blocked, Before(from, d, k), alt, to, t0 + k + 1)
    ensures IsWalk(from, d[..k] + alt, to)
    ensures AvoidsBlocks(blocked, d[..k] + alt, to, t0 + 1)
  {
    WalkConcat(from, d[..k], Before(from, d, k), alt, to);
    var w := d[..k] + alt;
    forall j | 0 <= j < |w| ensures w[j] == to || !blocked(t0 + 1 + j + 1, w[j]) {
      if j < k {
        assert w[j] == d[j] && StepFree(blocked, d, t0, j);
      } else {
        assert w[j] == alt[j - k];
        assert alt[j - k] == to || !blocked(t0 + k + 1 + (j - k) + 1, alt[j - k]);
      }
    }
  }

  /** The blocked branch of `buildManhattanPath`: search from the last
      accepted cell and append the result to the accepted steps. */
  method Detour(blocked: (int, Cell) -> bool, from: Cell, d: seq<Cell>, k: nat, to: Cell, t0: int)
    returns (r: Result<seq<Cell>, PathError>)
    requires k < |d| && IsWalk(from, d[..k], Before(from, d, k))
    requires forall i :: 0 <= i < k ==> StepFree(blocked, d, t0, i)
    ensures r.Success? ==> IsWalk(from, r.value, to) && AvoidsBlocks(blocked, r.value, to, t0 + 1)
    ensures r.Success? ==> d[..k] <= r.value && SearchResult(blocked, Before(from, d, k), r.value[k..], to, t0 + k + 1)
  {
    var alt := FindPathAStar(blocked, Before(from, d, k), to, t0 + k + 1);
    if alt.Failure? {
      return Failure(alt.error);
    }
    JoinDetour(blocked, from, d, k, alt.value, to, t0);
    assert (d[..k] + alt.value)[k..] == alt.value;
    return Success(d[..k] + alt.value);
  }

  /** `buildManhattanPath`: take the direct x-then-y route step by step; at
      the first step the closures reject, keep the accepted prefix and append
      an A* route from the last accepted cell, searched from the minute that
      step would have arrived. A search failure is the route's failure. */
  method BuildManhattanPath(blocked: (int, Cell) -> bool, from: Cell, to: Cell, t0: int)
    returns (r: Result<seq<Cell>, PathError>)
    ensures r.Success? ==> IsWalk(from, r.value, to)
    ensures r.Success? ==> AvoidsBlocks(blocked, r.value, to, t0 + 1)
    ensures AllStepsFree(blocked, DirectPath(from, to), t0) ==> r == Success(DirectPath(from, to))
    ensures forall k: nat :: FirstBlockAt(blocked, DirectPath(from, to), t0, k) && r.Success? ==>
              && DirectPath(from, to)[..k] <= r.value
              && SearchResult(blocked, Before(from, DirectPath(from, to), k), r.value[k..], to, t0 + k + 1)
    ensures r.Failure? ==> exists k: nat :: FirstBlockAt(blocked, DirectPath(from, to), t0, k)
  {
    var d := DirectPath(from, to);
    var k := PrimerBloqueo(blocked, d, t0);
    if k.Some? {
      FirstBlockUnique(blocked, d, t0, k.value);
      WalkPrefix(from, d, to, k.value);
      assert !StepFree(blocked, d, t0, k.value);
      r := Detour(blocked, from, d, k.value, to, t0);
    } else {
      NoFirstBlock(blocked, d, t0);
      FreeStepsAvoid(blocked, d, to, t0);
      r := Success(d);
    }
  }

  /** The walk along the direct route: the first step the closures reject,
      or none when every step is free. */
  method PrimerBloqueo(blocked: (int, Cell) -> bool, d: seq<Cell>, t0: int) returns (k: Option<nat>)
    ensures k.None? <==> AllStepsFree(blocked, d, t0)
    ensures k.Some? ==> FirstBlockAt(blocked, d, t0, k.value)
  {
    var i := 0;
    while i < |d|
      invariant i <= |d|
      invariant forall j :: 0 <= j < i ==> StepFree(blocked, d, t0, j)
    {
      if blocked(t0 + i + 2, d[i]) {
        assert !StepFree(blocked, d, t0, i);
        return Some(i);
      }
      i := i + 1;
    }
    return None;
  }

  /** The first `k` cells of a walk are a walk to the cell reached. */
  lemma WalkPrefix(from: Cell, p: seq<Cell>, to: Cell, k: nat)
    requires IsWalk(from, p, to) && k <= |p|
    ensures IsWalk(from, p[..k], Before(from, p, k))
  {
    forall i | 0 < i < k ensures Adjacent(p[..k][i - 1], p[..k][i]) {
      assert p[..k][i - 1] == p[i - 1] && p[..k][i] == p[i];
    }
  }

  /** A route with every step free passes every closure test. */
  lemma FreeStepsAvoid(blocked: (int, Cell) -> bool, d: seq<Cell>, to: Cell, t0: int)
    requires AllStepsFree(blocked, d, t0)
    ensures AvoidsBlocks(blocked, d, to, t0 + 1)
  {
    forall j | 0 <= j < |d| ensures !blocked(t0 + 1 + j + 1, d[j]) {
      assert StepFree(blocked, d, t0, j);
    }
  }

  /** There is at most one first rejected step. */
  lemma FirstBlockUnique(blocked: (int, Cell) -> bool, d: seq<Cell>, t0: int, k: nat)
    requires FirstBlockAt(blocked, d, t0, k)
    ensures forall k': nat :: FirstBlockAt(blocked, d, t0, k') ==> k' == k
  {
  }

  /** A route whose every step is free has no first rejected step. */
  lemma NoFirstBlock(blocked: (int, Cell) -> bool, d: seq<Cell>, t0: int)
    requires AllStepsFree(blocked, d, t0)
    ensures forall k: nat :: !FirstBlockAt(blocked, d, t0, k)
  {
  }
}

=== FILE: pedido.dfy ===
/** An order (`Pedido`): a volume of gas to deliver to a grid cell between a
    creation minute and a deadline, with three status flags. */
module Orders {
  import opened Grid

  datatype Pedido = Pedido(
    id: int,
    tiempoCreacion: int,
    x: int,
    y: int,
    volumen: real,
    tiempoLimite: int,
    atendido: bool,     // delivered
    descartado: bool,   // rejected at intake
    programado: bool    // has a scheduled delivery event
  ) {
    /** The destination cell of the order. */
    function Dest(): Cell { Cell(x, y) }
  }

  /** The six-argument constructor: every status flag starts cleared. */
  function NewPedido(id: int, tiempoCreacion: int, x: int, y: int, volumen: real, tiempoLimite: int): (p: Pedido)
    ensures p.id == id && p.tiempoCreacion == tiempoCreacion && p.tiempoLimite == tiempoLimite
    ensures p.Dest() == Cell(x, y) && p.volumen == volumen
    ensures !p.atendido && !p.descartado && !p.programado
  {
    Pedido(id, tiempoCreacion, x, y, volumen, tiempoLimite, false, false, false)
  }

  function SetAtendido(p: Pedido, a: bool): (q: Pedido)
    ensures q.atendido == a
    ensures q.(atendido := p.atendido) == p
  {
    p.(atendido := a)
  }

  function SetDescartado(p: Pedido, d: bool): (q: Pedido)
    ensures q.descartado == d
    ensures q.(descartado := p.descartado) == p
  {
    p.(descartado := d)
  }

  /** Moving the creation minute does not move the deadline. */
  function SetTiempoCreacion(p: Pedido, tc: int): (q: Pedido)
    ensures q.tiempoCreacion == tc
    ensures q.tiempoLimite == p.tiempoLimite
    ensures q.(tiempoCreacion := p.tiempoCreacion) == p
  {
    p.(tiempoCreacion := tc)
  }

  /** Setting a flag and reading it back returns what was set, and setting the
      other flag in between does not disturb it. */
  lemma FlagsIndependent(p: Pedido, a: bool, d: bool)
    ensures SetDescartado(SetAtendido(p, a), d).atendido == a
    ensures SetAtendido(SetDescartado(p, d), a).descartado == d
    ensures SetAtendido(SetDescartado(p, d), a) == SetDescartado(SetAtendido(p, a), d)
  {
  }
}

=== FILE: sampling.dfy ===
/** How an ant picks its next (truck, order) pair: every pair gets the weight
    `tau^ALPHA * eta^BETA` when the truck can take the order, 0 otherwise,
    and a roulette over the pairs, truck-major, picks the first pair whose
    running total reaches `u * total` for a draw `u` in [0, 1). The draw is
    a parameter: the model covers every value `Math.random` can return. */
module Sampling {
  import opened Wrappers
  import opened Grid
  import opened Orders
  import opened Colony

  /** Exponents of the pheromone and of the heuristic. */
  const Alpha: nat := 1
  const Beta: nat := 2

  function Max0(a: int): nat { if a < 0 then 0 else a }

  function Pow(x: real, n: nat): real {
    if n == 0 then 1.0 else x * Pow(x, n - 1)
  }

  /** The heuristic: closer trucks, and trucks free sooner, are preferred.
      `1 / (d + 1)` times `1 / (1 + max(0, tiempoLibre - t))`. */
  function Eta(c: CamionEstado, p: Pedido, t: int): (e: real)
    ensures 0.0 < e <= 1.0
  {
    var a := (Dist(c, p) + 1) as real;
    var b := (1 + Max0(c.tiempoLibre - t)) as real;
    RecipInUnit(a);
    RecipInUnit(b);
    ProductInUnit(1.0 / a, 1.0 / b);
    (1.0 / a) * (1.0 / b)
  }

  lemma RecipInUnit(a: real)
    requires a >= 1.0
    ensures 0.0 < 1.0 / a <= 1.0
  {
  }

  lemma ProductInUnit(x: real, y: real)
    requires 0.0 < x <= 1.0 && 0.0 < y <= 1.0
    ensures 0.0 < x * y <= 1.0
  {
    assert x * y <= 1.0 * y;
  }

  /** One entry of `calcularProbabilidades`. */
  function Peso(c: CamionEstado, p: Pedido, tau: real, t: int): real {
    if Factible(c, p, t) then Pow(tau, Alpha) * Pow(Eta(c, p, t), Beta) else 0.0
  }

  /** A pair has positive weight exactly when the truck can take the order
      (for positive pheromone); weights are never negative. */
  lemma PesoMeaning(c: CamionEstado, p: Pedido, tau: real, t: int)
    ensures tau > 0.0 ==> (Peso(c, p, tau, t) > 0.0 <==> Factible(c, p, t))
    ensures tau >= 0.0 ==> Peso(c, p, tau, t) >= 0.0
    ensures !Factible(c, p, t) ==> Peso(c, p, tau, t) == 0.0
  {
    var e := Eta(c, p, t);
    assert Pow(tau, Alpha) == tau by {
      assert Pow(tau, 0) == 1.0;
    }
    assert Pow(e, Beta) == e * e by {
      assert Pow(e, 0) == 1.0;
      assert Pow(e, 1) == e;
    }
    assert e * e > 0.0;
    if tau > 0.0 {
      assert tau * (e * e) > 0.0;
    }
    if tau >= 0.0 {
      assert tau * (e * e) >= 0.0;
    }
  }

  // ------------------------------------------------------------- roulette

  datatype Sel = Sel(camion: nat, pedido: nat)

  /** The pairs in the order the roulette visits them: trucks outermost,
      then the unassigned orders in list order. */
  function Pairs(v: nat, noAsig: seq<nat>): (ps: seq<Sel>)
    ensures |ps| == v * |noAsig|
    ensures forall k :: 0 <= k < |ps| ==> ps[k].camion < v && ps[k].pedido in noAsig
    ensures v > 0 && |noAsig| > 0 ==> ps[0] == Sel(0, noAsig[0])
  {
    if v == 0 then []
    else
      var front := Pairs(v - 1, noAsig);
      var row := seq(|noAsig|, j requires 0 <= j < |noAsig| => Sel(v - 1, noAsig[j]));
      front + row
  }

  function Sum(w: seq<real>): real {
    if |w| == 0 then 0.0 else w[0] + Sum(w[1..])
  }

  predicate NonNeg(w: seq<real>) {
    forall k :: 0 <= k < |w| ==> w[k] >= 0.0
  }

  /** The running total after entry `j`, that entry included. */
  function Running(w: seq<real>, j: nat): real
    requires j < |w|
  {
    Sum(w[..j + 1])
  }

  lemma RunningZero(w: seq<real>)
    requires |w| > 0
    ensures Running(w, 0) == w[0]
  {
    assert w[..1] == [w[0]];
    assert Sum(w[..1]) == w[0] + Sum(w[..1][1..]);
    assert w[..1][1..] == [];
  }

  lemma RunningShift(w: seq<real>, j: nat)
    requires 0 < j < |w|
    ensures Running(w, j) == w[0] + Running(w[1..], j - 1)
  {
    assert w[..j + 1][1..] == w[1..][..j];
  }

  /** The first position whose running total reaches `r`. */
  function FirstReach(w: seq<real>, r: real): (k: Option<nat>)
    ensures k.Some? ==> k.value < |w| && Running(w, k.value) >= r
    ensures k.Some? ==> forall j :: 0 <= j < k.value ==> Running(w, j) < r
    ensures k.None? ==> forall j :: 0 <= j < |w| ==> Running(w, j) < r
  {
    if |w| == 0 then None
    else
      RunningZero(w);
      if w[0] >= r then Some(0)
      else
        var k := FirstReach(w[1..], r - w[0]);
        forall j | 0 < j < |w| ensures Running(w, j) == w[0] + Running(w[1..], j - 1) {
          RunningShift(w, j);
        }
        if k.Some? then Some(k.value + 1) else None
  }

  /** The weights of the pairs, from the routes' current truck states and
      the ant's pheromone matrix. */
  function Pesos(rutas: seq<Ruta>, pedidos: seq<Pedido>, tau: seq<seq<real>>, t: int, ps: seq<Sel>): (w: seq<real>)
    requires forall k :: 0 <= k < |ps| ==>
               ps[k].camion < |rutas| && ps[k].camion < |tau| && ps[k].pedido < |pedidos| && ps[k].pedido < |tau[ps[k].camion]|
    ensures |w| == |ps|
    ensures forall k :: 0 <= k < |ps| ==>
              w[k] == Peso(rutas[ps[k].camion].estado, pedidos[ps[k].pedido], tau[ps[k].camion][ps[k].pedido], t)
  {
    seq(|ps|, k requires 0 <= k < |ps| =>
      Peso(rutas[ps[k].camion].estado, pedidos[ps[k].pedido], tau[ps[k].camion][ps[k].pedido], t))
  }

  /** The roulette's target: the draw scaled to the total weight. */
  function Target(w: seq<real>, u: real): real {
    u * Sum(w)
  }

  /** `muestrearPar`: the roulette's pair, or (0, first unassigned order)
      when the running total never reaches the target. */
  function Muestrear(ps: seq<Sel>, w: seq<real>, u: real, noAsig: seq<nat>): (s: Sel)
    requires |noAsig| > 0 && |w| == |ps|
  {
    match FirstReach(w, Target(w, u))
    case Some(k) => ps[k]
    case None => Sel(0, noAsig[0])
  }

  lemma {:induction false} SumNonNeg(w: seq<real>)
    requires NonNeg(w)
    ensures Sum(w) >= 0.0
  {
    if |w| > 0 {
      SumNonNeg(w[1..]);
    }
  }

  /** The sampled order is always one of the unassigned orders; with at
      least one truck the sampled truck exists, and with none the fallback
      names truck 0. Nothing about the weights or the draw is needed. */
  lemma MuestrearInRange(v: nat, noAsig: seq<nat>, w: seq<real>, u: real)
    requires |noAsig| > 0 && |w| == v * |noAsig|
    ensures Muestrear(Pairs(v, noAsig), w, u, noAsig).pedido in noAsig
    ensures v > 0 ==> Muestrear(Pairs(v, noAsig), w, u, noAsig).camion < v
    ensures v == 0 ==> Muestrear(Pairs(v, noAsig), w, u, noAsig) == Sel(0, noAsig[0])
  {
  }

  /** With non-negative weights, a draw in [0, 1) and at least one truck,
      the running total always reaches the target, so the roulette's pair
      is returned and the fallback is never taken. */
  lemma MuestrearNoFallback(v: nat, noAsig: seq<nat>, w: seq<real>, u: real)
    requires |noAsig| > 0 && |w| == v * |noAsig| && NonNeg(w) && 0.0 <= u < 1.0 && v > 0
    ensures FirstReach(w, Target(w, u)).Some?
    ensures Muestrear(Pairs(v, noAsig), w, u, noAsig) == Pairs(v, noAsig)[FirstReach(w, Target(w, u)).value]
  {
    assert |w| > 0 by {
      assert v * |noAsig| >= 1 * |noAsig|;
    }
    FullTotalReaches(w, u);
  }

  /** The last running total is the full total, which reaches any fraction
      of itself. */
  lemma FullTotalReaches(w: seq<real>, u: real)
    requires |w| > 0 && NonNeg(w) && 0.0 <= u < 1.0
    ensures FirstReach(w, Target(w, u)).Some?
  {
    SumNonNeg(w);
    TargetAtMostTotal(w, u);
    RunningLast(w);
  }

  lemma RunningLast(w: seq<real>)
    requires |w| > 0
    ensures Running(w, |w| - 1) == Sum(w)
  {
    assert w[..|w| - 1 + 1] == w;
  }

  lemma TargetAtMostTotal(w: seq<real>, u: real)
    requires Sum(w) >= 0.0 && 0.0 <= u <= 1.0
    ensures Target(w, u) <= Sum(w)
  {
    MulLeSelf(u, Sum(w));
  }

  lemma MulLeSelf(u: real, s: real)
    requires 0.0 <= u <= 1.0 && s >= 0.0
    ensures u * s <= s
  {
    assert s - u * s == (1.0 - u) * s;
  }

  /** With a positive target the roulette never lands on a pair of weight
      zero: the pair sampled has positive weight. */
  lemma RouletteHitsPositiveWeight(w: seq<real>, r: real)
    requires r > 0.0 && FirstReach(w, r).Some?
    ensures w[FirstReach(w, r).value] > 0.0
  {
    var k := FirstReach(w, r).value;
    PrefixSumStep(w, k);
    if k > 0 {
      assert Running(w, k - 1) < r;
    } else {
      assert w[..0] == [];
    }
  }

  lemma {:induction false} PrefixSumStep(w: seq<real>, k: nat)
    requires k < |w|
    ensures Sum(w[..k + 1]) == Sum(w[..k]) + w[k]
    decreases k
  {
    if k == 0 {
      assert w[..1] == [w[0]];
      assert w[..0] == [];
    } else {
      PrefixSumStep(w[1..], k - 1);
      assert w[..k + 1][1..] == w[1..][..k];
      assert w[..k][1..] == w[1..][..k - 1];
    }
  }
}

=== FILE: shift.dfy ===
/** Work shifts and truck breakdowns in the simulation loop: `turnoDeMinuto`
    classifies a minute into "T1", "T2" or "T3"; each minute the breakdowns
    listed for the current shift are applied to free trucks, at most once
    per shift and truck, and trucks whose penalty has run out are released
    from the disabled set. */
module Shifts {
  import opened Wrappers
  import opened JavaInt
  import opened Trucks

  const MinutosDia: int := 1440
  /** First minute of the second and of the third shift within a day. */
  const InicioT2: int := 480
  const InicioT3: int := 960

  /** `turnoDeMinuto`, with Java's `%`: a negative minute leaves a remainder
      in (-1440, 0], which falls in "T1". */
  function TurnoDeMinuto(t: int): (s: string)
    ensures s == "T1" || s == "T2" || s == "T3"
  {
    var m := Rem(t, MinutosDia);
    if m < InicioT2 then "T1" else if m < InicioT3 then "T2" else "T3"
  }

  /** For non-negative minutes the shift is the third of the day the minute
      falls in, and it repeats every day. */
  lemma TurnoDeMinutoMeaning(t: int)
    requires t >= 0
    ensures TurnoDeMinuto(t) == "T1" <==> 0 <= t % MinutosDia < InicioT2
    ensures TurnoDeMinuto(t) == "T2" <==> InicioT2 <= t % MinutosDia < InicioT3
    ensures TurnoDeMinuto(t) == "T3" <==> InicioT3 <= t % MinutosDia < MinutosDia
    ensures TurnoDeMinuto(t + MinutosDia) == TurnoDeMinuto(t)
  {
    assert (t + MinutosDia) % MinutosDia == t % MinutosDia;
  }

  /** Every negative minute counts as the first shift. */
  lemma TurnoDeMinutoNegative(t: int)
    requires t < 0
    ensures TurnoDeMinuto(t) == "T1"
  {
  }

  /** Minutes out of service for a breakdown of type "T1", "T2" or any
      other string. */
  function Penal(tipo: string): (p: nat)
    ensures p == 30 || p == 60 || p == 90
    ensures p == 30 <==> tipo == "T1"
    ensures p == 60 <==> tipo == "T2"
  {
    if tipo == "T1" then 30 else if tipo == "T2" then 60 else 90
  }

  /** `findCamion`: the first truck of the fleet with that id. */
  function FindCamion(flota: seq<Camion>, id: string): (r: Option<nat>)
    ensures r.Some? ==> r.value < |flota| && flota[r.value].id == id
    ensures r.Some? ==> forall j :: 0 <= j < r.value ==> flota[j].id != id
    ensures r.None? <==> forall j :: 0 <= j < |flota| ==> flota[j].id != id
  {
    if |flota| == 0 then None
    else if flota[0].id == id then Some(0)
    else
      match FindCamion(flota[1..], id)
      case None => None
      case Some(k) => Some(k + 1)
  }

  /** Only the truck's ids matter to the lookup. */
  lemma FindCamionIdsOnly(f: seq<Camion>, g: seq<Camion>, id: string)
    requires |f| == |g| && forall j :: 0 <= j < |f| ==> f[j].id == g[j].id
    ensures FindCamion(f, id) == FindCamion(g, id)
  {
  }

  /** One line of the breakdown file for a shift: truck id and type. */
  datatype Averia = Averia(camion: string, tipo: string)

  /** The shift last seen, the breakdown keys applied in it, and the ids of
      the trucks disabled by them. */
  datatype AveriaEstado = AveriaEstado(turnoAnterior: string, aplicadas: set<string>, inhabilitados: set<string>)

  /** The key under which a breakdown is remembered: shift, "_", truck id. */
  function Clave(turno: string, id: string): string {
    turno + "_" + id
  }

  /** A breakdown takes effect when its key is new in this shift and the
      truck exists and is free now. The disabled set is not consulted. */
  predicate Aplica(flota: seq<Camion>, st: AveriaEstado, turno: string, a: Averia, t: int) {
    && Clave(turno, a.camion) !in st.aplicadas
    && FindCamion(flota, a.camion).Some?
    && flota[FindCamion(flota, a.camion).value].libreEn <= t
  }

  /** One entry of the loop over the shift's breakdowns. */
  function AplicarAveria(flota: seq<Camion>, st: AveriaEstado, turno: string, a: Averia, t: int): (r: (seq<Camion>, AveriaEstado))
    ensures |r.0| == |flota| && r.1.turnoAnterior == st.turnoAnterior
  {
    if Aplica(flota, st, turno, a, t) then
      var i := FindCamion(flota, a.camion).value;
      (flota[i := flota[i].(libreEn := t + Penal(a.tipo))],
       st.(aplicadas := st.aplicadas + {Clave(turno, a.camion)},
           inhabilitados := st.inhabilitados + {a.camion}))
    else (flota, st)
  }

  /** A breakdown that takes effect delays exactly the first truck with
      that id, to `t` plus the penalty, and records key and id; one that
      does not changes nothing. */
  lemma AplicarAveriaEffect(flota: seq<Camion>, st: AveriaEstado, turno: string, a: Averia, t: int)
    ensures var r := AplicarAveria(flota, st, turno, a, t);
      && (Aplica(flota, st, turno, a, t) ==>
            var i := FindCamion(flota, a.camion).value;
            && r.0[i].libreEn == t + Penal(a.tipo) > t
            && r.0[i] == flota[i].(libreEn := r.0[i].libreEn)
            && (forall j :: 0 <= j < |flota| && j != i ==> r.0[j] == flota[j])
            && r.1.aplicadas == st.aplicadas + {Clave(turno, a.camion)}
            && r.1.inhabilitados == st.inhabilitados + {a.camion})
      && (!Aplica(flota, st, turno, a, t) ==> r == (flota, st))
  {
  }

  /** The loop over the shift's breakdowns, in the map's iteration order. */
  function AplicarAverias(flota: seq<Camion>, st: AveriaEstado, turno: string, as_: seq<Averia>, t: int): (r: (seq<Camion>, AveriaEstado))
    ensures |r.0| == |flota| && r.1.turnoAnterior == st.turnoAnterior
    decreases |as_|
  {
    if |as_| == 0 then (flota, st)
    else
      var s1 := AplicarAveria(flota, st, turno, as_[0], t);
      AplicarAverias(s1.0, s1.1, turno, as_[1..], t)
  }

  function Claves(turno: string, as_: seq<Averia>): set<string> {
    set k | 0 <= k < |as_| :: Clave(turno, as_[k].camion)
  }

  function Ids(as_: seq<Averia>): set<string> {
    set k | 0 <= k < |as_| :: as_[k].camion
  }

  /** Along the loop no truck changes id or gets free earlier, keys and
      disabled ids only grow, and only by the listed ones. */
  lemma {:induction false} AplicarAveriasBounds(flota: seq<Camion>, st: AveriaEstado, turno: string, as_: seq<Averia>, t: int)
    ensures var r := AplicarAverias(flota, st, turno, as_, t);
      && (forall j :: 0 <= j < |flota| ==> r.0[j].id == flota[j].id && r.0[j].libreEn >= flota[j].libreEn)
      && st.aplicadas <= r.1.aplicadas <= st.aplicadas + Claves(turno, as_)
      && st.inhabilitados <= r.1.inhabilitados <= st.inhabilitados + Ids(as_)
    decreases |as_|
  {
    if |as_| > 0 {
      var s1 := AplicarAveria(flota, st, turno, as_[0], t);
      AplicarAveriaEffect(flota, st, turno, as_[0], t);
      AplicarAveriasBounds(s1.0, s1.1, turno, as_[1..], t);
      assert Claves(turno, as_[1..]) <= Claves(turno, as_) by {
        forall x | x in Claves(turno, as_[1..]) ensures x in Claves(turno, as_) {
          var k :| 0 <= k < |as_[1..]| && x == Clave(turno, as_[1..][k].camion);
          assert as_[1..][k] == as_[k + 1];
        }
      }
      assert Ids(as_[1..]) <= Ids(as_) by {
        forall x | x in Ids(as_[1..]) ensures x in Ids(as_) {
          var k :| 0 <= k < |as_[1..]| && x == as_[1..][k].camion;
          assert as_[1..][k] == as_[k + 1];
        }
      }
      assert Clave(turno, as_[0].camion) in Claves(turno, as_);
      assert as_[0].camion in Ids(as_);
    }
  }

  /** A breakdown whose key was already applied in this shift is skipped:
      when every listed key is recorded, the loop changes nothing. */
  lemma {:induction false} AplicarAveriasOnce(flota: seq<Camion>, st: AveriaEstado, turno: string, as_: seq<Averia>, t: int)
    requires forall k :: 0 <= k < |as_| ==> Clave(turno, as_[k].camion) in st.aplicadas
    ensures AplicarAverias(flota, st, turno, as_, t) == (flota, st)
    decreases |as_|
  {
    if |as_| > 0 {
      assert Clave(turno, as_[0].camion) in st.aplicadas;
      assert AplicarAveria(flota, st, turno, as_[0], t) == (flota, st);
      forall k | 0 <= k < |as_[1..]| ensures Clave(turno, as_[1..][k].camion) in st.aplicadas {
        assert as_[1..][k] == as_[k + 1];
      }
      AplicarAveriasOnce(flota, st, turno, as_[1..], t);
    }
  }

  /** A truck whose breakdown takes effect in the loop ends it busy: its
      new key's truck is free only after `t`. */
  lemma {:induction false} NewKeyMeansBusy(flota: seq<Camion>, st: AveriaEstado, turno: string, as_: seq<Averia>, t: int, id: string)
    requires Clave(turno, id) !in st.aplicadas
    requires Clave(turno, id) in AplicarAverias(flota, st, turno, as_, t).1.aplicadas
    ensures var r := AplicarAverias(flota, st, turno, as_, t);
      && FindCamion(r.0, id).Some? && r.0[FindCamion(r.0, id).value].libreEn > t
      && id in r.1.inhabilitados
    decreases |as_|
  {
    var r := AplicarAverias(flota, st, turno, as_, t);
    if |as_| == 0 {
    } else {
      var a := as_[0];
      var s1 := AplicarAveria(flota, st, turno, a, t);
      AplicarAveriaEffect(flota, st, turno, a, t);
      AplicarAveriasBounds(s1.0, s1.1, turno, as_[1..], t);
      FindCamionIdsOnly(s1.0, r.0, id);
      FindCamionIdsOnly(flota, s1.0, id);
      if Clave(turno, id) in s1.1.aplicadas {
        // the key was added by this entry, so `a` names the same truck
        assert Clave(turno, a.camion) == Clave(turno, id);
        assert a.camion == id by {
          assert (turno + "_" + a.camion)[|turno| + 1..] == a.camion;
          assert (turno + "_" + id)[|turno| + 1..] == id;
        }
      } else {
        NewKeyMeansBusy(s1.0, s1.1, turno, as_[1..], t, id);
      }
    }
  }

  /** Step 3 of a minute, release included: the disabled ids whose truck
      exists and is free now leave the set. */
  function Liberar(flota: seq<Camion>, inhabilitados: set<string>, t: int): (r: set<string>)
    ensures r <= inhabilitados
  {
    set id | id in inhabilitados && !(FindCamion(flota, id).Some? && flota[FindCamion(flota, id).value].libreEn <= t)
  }

  /** An id stays disabled exactly while no truck has it or the first
      truck that has it is still busy. */
  lemma LiberarMeaning(flota: seq<Camion>, inhabilitados: set<string>, t: int, id: string)
    ensures id in Liberar(flota, inhabilitados, t) <==>
      id in inhabilitados &&
      forall j :: 0 <= j < |flota| && flota[j].id == id && (forall i :: 0 <= i < j ==> flota[i].id != id) ==>
        flota[j].libreEn > t
  {
    var f := FindCamion(flota, id);
    if f.Some? {
      forall j | 0 <= j < |flota| && flota[j].id == id && (forall i :: 0 <= i < j ==> flota[i].id != id)
        ensures j == f.value
      {
      }
    }
  }

  /** Step 3 of a minute: on a change of shift both sets are emptied, the
      shift's breakdowns are applied, then recovered trucks are released.
      The flag says whether anything was applied or released (a reason to
      replan). */
  function PasoAverias(flota: seq<Camion>, st: AveriaEstado, t: int, porTurno: map<string, seq<Averia>>): (r: (seq<Camion>, AveriaEstado, bool))
    ensures |r.0| == |flota| && r.1.turnoAnterior == TurnoDeMinuto(t)
  {
    var turno := TurnoDeMinuto(t);
    var st1 := if turno != st.turnoAnterior then AveriaEstado(turno, {}, {}) else st;
    var entries := if turno in porTurno then porTurno[turno] else [];
    var s2 := AplicarAverias(flota, st1, turno, entries, t);
    var libres := Liberar(s2.0, s2.1.inhabilitados, t);
    (s2.0, s2.1.(inhabilitados := libres), s2.1.aplicadas != st1.aplicadas || libres != s2.1.inhabilitados)
  }

  /** Within one shift the applied keys are kept; on a change of shift only
      this shift's keys and ids can be recorded. A truck broken down in this
      minute is never released in it. */
  lemma PasoAveriasShift(flota: seq<Camion>, st: AveriaEstado, t: int, porTurno: map<string, seq<Averia>>)
    ensures var turno := TurnoDeMinuto(t);
      var entries := if turno in porTurno then porTurno[turno] else [];
      var r := PasoAverias(flota, st, t, porTurno);
      && (turno == st.turnoAnterior ==> st.aplicadas <= r.1.aplicadas)
      && (turno != st.turnoAnterior ==> r.1.aplicadas <= Claves(turno, entries) && r.1.inhabilitados <= Ids(entries))
      && (forall id :: Clave(turno, id) in r.1.aplicadas - st.aplicadas ==>
            && FindCamion(r.0, id).Some? && r.0[FindCamion(r.0, id).value].libreEn > t
            && id in r.1.inhabilitados)
  {
    var turno := TurnoDeMinuto(t);
    var st1 := if turno != st.turnoAnterior then AveriaEstado(turno, {}, {}) else st;
    var entries := if turno in porTurno then porTurno[turno] else [];
    AplicarAveriasBounds(flota, st1, turno, entries, t);
    forall id | Clave(turno, id) in PasoAverias(flota, st, t, porTurno).1.aplicadas - st.aplicadas
      ensures var r := PasoAverias(flota, st, t, porTurno);
              && FindCamion(r.0, id).Some? && r.0[FindCamion(r.0, id).value].libreEn > t
              && id in r.1.inhabilitados
    {
      NewKeyMeansBusy(flota, st1, turno, entries, t, id);
    }
  }

  /** In the same shift, a breakdown applied earlier is not applied again:
      replaying the shift's breakdowns on the recorded state changes no
      truck when every key was recorded. */
  lemma PasoAveriasOncePerShift(flota: seq<Camion>, st: AveriaEstado, t: int, porTurno: map<string, seq<Averia>>)
    requires TurnoDeMinuto(t) == st.turnoAnterior
    requires var turno := TurnoDeMinuto(t);
      forall k :: turno in porTurno && 0 <= k < |porTurno[turno]| ==> Clave(turno, porTurno[turno][k].camion) in st.aplicadas
    ensures PasoAverias(flota, st, t, porTurno).0 == flota
    ensures PasoAverias(flota, st, t, porTurno).1.aplicadas == st.aplicadas
  {
    var turno := TurnoDeMinuto(t);
    var entries := if turno in porTurno then porTurno[turno] else [];
    AplicarAveriasOnce(flota, st, turno, entries, t);
  }
}

=== FILE: tanque.dfy ===
/** Intermediate tanks (`Tanque`) where returning trucks reload, and the daily
    refill of every tank. */
module Tanks {
  import opened Grid

  datatype Tanque = Tanque(x: int, y: int, capacidadTotal: real, disponible: real) {
    function Pos(): Cell { Cell(x, y) }
  }

  /** A new tank starts full. */
  function NewTanque(x: int, y: int, cap: real): (t: Tanque)
    ensures t.Pos() == Cell(x, y)
    ensures t.capacidadTotal == cap
    ensures t.disponible == t.capacidadTotal
  {
    Tanque(x, y, cap, cap)
  }

  /** Stores any level, without clamping to [0, capacidadTotal]; the position
      and the total capacity are untouched. */
  function SetDisponible(t: Tanque, d: real): (u: Tanque)
    ensures u.disponible == d
    ensures u.Pos() == t.Pos() && u.capacidadTotal == t.capacidadTotal
  {
    t.(disponible := d)
  }

  /** Levels outside [0, capacity] are accepted as they are. */
  lemma SetDisponibleDoesNotClamp(t: Tanque)
    ensures SetDisponible(t, -1.0).disponible < 0.0
    ensures SetDisponible(t, t.capacidadTotal + 1.0).disponible > t.capacidadTotal
  {
  }

  /** The two tanks the planner creates: (30,15) and (50,40), 160 m3 each. */
  function InitialTanks(): (ts: seq<Tanque>)
    ensures |ts| == 2
    ensures ts[0].Pos() == Cell(30, 15) && ts[1].Pos() == Cell(50, 40)
    ensures forall i :: 0 <= i < |ts| ==> ts[i].disponible == ts[i].capacidadTotal == 160.0
  {
    [NewTanque(30, 15, 160.0), NewTanque(50, 40, 160.0)]
  }

  /** At every minute t > 0 that is a multiple of 1440 (start of a day) each
      tank is refilled to its total capacity; at other minutes nothing
      changes. */
  function RefreshTanks(ts: seq<Tanque>, t: int): (us: seq<Tanque>)
    ensures |us| == |ts|
    ensures forall i :: 0 <= i < |ts| ==> us[i].Pos() == ts[i].Pos() && us[i].capacidadTotal == ts[i].capacidadTotal
    ensures t > 0 && t % 1440 == 0 ==> forall i :: 0 <= i < |ts| ==> us[i].disponible == ts[i].capacidadTotal
    ensures !(t > 0 && t % 1440 == 0) ==> us == ts
  {
    if t > 0 && t % 1440 == 0 then RefillAll(ts) else ts
  }

  function RefillAll(ts: seq<Tanque>): (us: seq<Tanque>)
    ensures |us| == |ts|
    ensures forall i :: 0 <= i < |ts| ==> us[i] == ts[i].(disponible := ts[i].capacidadTotal)
  {
    if |ts| == 0 then [] else [ts[0].(disponible := ts[0].capacidadTotal)] + RefillAll(ts[1..])
  }

  /** A truck that reloads at tank `i` takes `falta` from it, with no check
      that enough is left. */
  function Deplete(ts: seq<Tanque>, i: nat, falta: real): (us: seq<Tanque>)
    requires i < |ts|
    ensures |us| == |ts|
    ensures us[i].disponible == ts[i].disponible - falta
    ensures forall j :: 0 <= j < |ts| && j != i ==> us[j] == ts[j]
  {
    ts[i := SetDisponible(ts[i], ts[i].disponible - falta)]
  }
}

=== FILE: timetext.dfy ===
/** The two parsers of `DDdHHhMMm` time stamps. `ConvertirATiempoMinutos`
    (used for orders and closures) is lenient: it strips non-digits and keeps
    whatever it parsed before an error. `ParsearMarcaDeTiempo` splits on any of
    the letters d, h, m with Java's `String.split` semantics and fails on a
    malformed field. Both return Java `int` arithmetic, wrap-around included. */
module TimeText {
  import opened Wrappers
  import JavaInt

  // ---------------------------------------------------------------- digits

  predicate IsDigit(c: char) { '0' <= c <= '9' }

  predicate AllDigits(s: string) { forall i :: 0 <= i < |s| ==> IsDigit(s[i]) }

  function DigitVal(c: char): nat
    requires IsDigit(c)
  {
    (c as int - '0' as int) as nat
  }

  /** `s.replaceAll("\\D", "")`: the ASCII digits of `s`, in order. */
  function KeepDigits(s: string): (r: string)
    ensures AllDigits(r)
    ensures |r| <= |s|
    ensures AllDigits(s) ==> r == s
  {
    if |s| == 0 then ""
    else if IsDigit(s[0]) then [s[0]] + KeepDigits(s[1..])
    else KeepDigits(s[1..])
  }

  /** The decimal value of a string of digits (leading zeros allowed). */
  function DigitsValue(s: string): nat
    requires AllDigits(s)
  {
    if |s| == 0 then 0 else DigitsValue(s[..|s| - 1]) * 10 + DigitVal(s[|s| - 1])
  }

  predicate IsSign(c: char) { c == '-' || c == '+' }

  /** What `Integer.parseInt` accepts before the range check: an optional
      sign followed by at least one digit. */
  predicate WellFormedInt(s: string) {
    && |s| > 0
    && (IsSign(s[0]) ==> |s| > 1 && AllDigits(s[1..]))
    && (!IsSign(s[0]) ==> AllDigits(s))
  }

  /** The value a well-formed integer literal denotes. */
  function SignedValue(s: string): int
    requires WellFormedInt(s)
  {
    if s[0] == '-' then -(DigitsValue(s[1..]) as int)
    else if s[0] == '+' then DigitsValue(s[1..]) as int
    else DigitsValue(s) as int
  }

  /** `Integer.parseInt` on ASCII input: an optional sign followed by at least
      one digit, whose value must fit in an `int`; anything else throws. */
  function ParseInt(s: string): (r: Option<int>)
    ensures r.Some? <==> WellFormedInt(s) && JavaInt.InRange(SignedValue(s))
    ensures r.Some? ==> r.value == SignedValue(s)
    ensures r.Some? ==> JavaInt.InRange(r.value)
    ensures |s| == 0 ==> r.None?
    ensures AllDigits(s) && |s| > 0 ==>
      (r.Some? <==> DigitsValue(s) <= JavaInt.IntMax) && (r.Some? ==> r.value == DigitsValue(s))
    ensures r.Some? && r.value < 0 ==> s[0] == '-'
  {
    if |s| == 0 then None
    else if s[0] == '-' || s[0] == '+' then
      var body := s[1..];
      if |body| == 0 || !AllDigits(body) then None
      else
        var v: int := if s[0] == '-' then 0 - (DigitsValue(body) as int) else DigitsValue(body) as int;
        if JavaInt.InRange(v) then Some(v) else None
    else if !AllDigits(s) then None
    else if DigitsValue(s) <= JavaInt.IntMax then Some(DigitsValue(s)) else None
  }

  /** `Integer.toString` for a non-negative value: its decimal digits, most
      significant first, without leading zeros. */
  function NatToString(n: nat): (s: string)
    ensures |s| > 0 && AllDigits(s)
    decreases n
  {
    if n < 10 then [Digit(n)] else NatToString(n / 10) + [Digit(n % 10)]
  }

  /** `Integer.toString`: a minus sign before the digits of a negative value. */
  function IntToString(n: int): string {
    if n < 0 then "-" + NatToString(-n) else NatToString(n)
  }

  lemma {:induction false} NatToStringValue(n: nat)
    ensures DigitsValue(NatToString(n)) == n
    decreases n
  {
    var s := NatToString(n);
    if n >= 10 {
      NatToStringValue(n / 10);
      assert s[..|s| - 1] == NatToString(n / 10);
    } else {
      assert s[..0] == [];
    }
  }

  /** `Integer.parseInt` undoes `Integer.toString` on every `int`. */
  lemma ParseIntOfToString(n: int)
    requires JavaInt.InRange(n)
    ensures ParseInt(IntToString(n)) == Some(n)
  {
    var s := IntToString(n);
    if n < 0 {
      NatToStringValue(-n);
      assert s[1..] == NatToString(-n);
      assert WellFormedInt(s);
    } else {
      NatToStringValue(n);
      assert !IsSign(s[0]);
    }
  }

  /** Position of the first occurrence of `ch`, if any. */
  function IndexOf(s: string, ch: char): (r: Option<nat>)
    ensures r.None? <==> ch !in s
    ensures r.Some? ==> r.value < |s| && s[r.value] == ch && ch !in s[..r.value]
  {
    if |s| == 0 then None
    else if s[0] == ch then Some(0)
    else
      match IndexOf(s[1..], ch)
      case None => None
      case Some(i) =>
        assert s[..i + 1] == [s[0]] + s[1..][..i];
        Some(i + 1)
  }

  // ------------------------------------------------- ConvertirATiempoMinutos

  /** `Integer.parseInt(part.replaceAll("\\D", ""))`: the value of the
      digits of `part`, or `None` (the call throws) when there are none or
      their value does not fit in an `int`. */
  function Read(part: string): (r: Option<nat>)
    ensures r.Some? <==> |KeepDigits(part)| > 0 && DigitsValue(KeepDigits(part)) <= JavaInt.IntMax
    ensures r.Some? ==> r.value == DigitsValue(KeepDigits(part))
  {
    match ParseInt(KeepDigits(part))
    case None => None
    case Some(v) => Some(v as nat)
  }

  /** The minute count read from what follows the hour part: all its digits,
      provided an 'm' occurs in it; 0 otherwise or when the read throws. */
  function MinutePart(rest: string): (m: nat)
    ensures 'm' !in rest ==> m == 0
    ensures 'm' in rest && Read(rest).Some? ==> m == DigitsValue(KeepDigits(rest))
    ensures Read(rest).None? ==> m == 0
  {
    if 'm' !in rest then 0
    else match Read(rest)
      case None => 0
      case Some(v) => v
  }

  /** The hour and minute counts read from what follows the day part. When
      the hour read throws, neither count is read. */
  function HourMinute(rest: string): (hm: (nat, nat))
    ensures 'h' !in rest ==> hm == (0, MinutePart(rest))
  {
    match IndexOf(rest, 'h')
    case None => (0, MinutePart(rest))
    case Some(i) =>
      match Read(rest[..i])
      case None => (0, 0)
      case Some(v) => (v, MinutePart(rest[i + 1..]))
  }

  /** The day, hour and minute counts the lenient parser extracts. The day
      count is the digits before the first 'd'; the hour count the digits
      between there and the next 'h'; the minute count ALL digits left if an
      'm' remains. A part that is absent counts 0. When `Integer.parseInt`
      throws (no digits, or too many), that part and every later one stay 0. */
  function Components(texto: string): (dhm: (nat, nat, nat))
    ensures 'd' !in texto ==> dhm == (0, HourMinute(texto).0, HourMinute(texto).1)
    ensures 'd' !in texto && 'h' !in texto && 'm' !in texto ==> dhm == (0, 0, 0)
  {
    match IndexOf(texto, 'd')
    case None => (0, HourMinute(texto).0, HourMinute(texto).1)
    case Some(i) =>
      match Read(texto[..i])
      case None => (0, 0, 0)
      case Some(v) => (v, HourMinute(texto[i + 1..]).0, HourMinute(texto[i + 1..]).1)
  }

  /** Minutes denoted by the text: days * 1440 + hours * 60 + minutes, in
      wrapping `int` arithmetic. Never negative unless that sum overflows. */
  function ConvertirATiempoMinutos(texto: string): (r: int)
    ensures JavaInt.InRange(r)
    ensures var (d, h, m) := Components(texto);
      JavaInt.InRange(d * 1440 + h * 60 + m) ==> r == d * 1440 + h * 60 + m && r >= 0
  {
    var (d, h, m) := Components(texto);
    Combine(d, h, m)
  }

  /** `d * 1440 + h * 60 + m` in `int` arithmetic. Wrapping once at the end
      equals wrapping after every operation (see `CombineIsJavaEvaluation`). */
  function Combine(d: int, h: int, m: int): (r: int)
    ensures JavaInt.InRange(r)
    ensures JavaInt.InRange(d * 1440 + h * 60 + m) ==> r == d * 1440 + h * 60 + m
  {
    JavaInt.Wrap(d * 1440 + h * 60 + m)
  }

  /** Java evaluates `dias * 24 * 60 + horas * 60 + minutos` left to right,
      wrapping after each operation; the result is `Combine`. */
  lemma CombineIsJavaEvaluation(d: int, h: int, m: int)
    ensures JavaInt.Wrap(JavaInt.Wrap(JavaInt.Wrap(JavaInt.Wrap(d * 24) * 60) + JavaInt.Wrap(h * 60)) + m)
            == Combine(d, h, m)
  {
    JavaInt.WrapAbsorbs(d * 24, 60);
    assert d * 24 * 60 == d * 1440;
    JavaInt.WrapSum(d * 1440, h * 60, m);
  }

  /** The lenient parser evaluates `d * 1440 + h * 60 + m` in `int`
      arithmetic, wrapping after each operation; the result is `Combine`. */
  lemma CombineIsConvertirEvaluation(d: int, h: int, m: int)
    ensures JavaInt.Wrap(JavaInt.Wrap(JavaInt.Wrap(d * 1440) + JavaInt.Wrap(h * 60)) + m) == Combine(d, h, m)
  {
    JavaInt.WrapSum(d * 1440, h * 60, m);
  }

  // ---------------------------------------------------- ParsearMarcaDeTiempo

  predicate IsDelim(c: char) { c == 'd' || c == 'h' || c == 'm' }

  predicate HasDelim(s: string) { exists i :: 0 <= i < |s| && IsDelim(s[i]) }

  /** The pieces between delimiters, all of them, empty ones included. */
  function SplitAll(s: string): (parts: seq<string>)
    ensures |parts| >= 1
    ensures forall k :: 0 <= k < |parts| ==> forall j :: 0 <= j < |parts[k]| ==> !IsDelim(parts[k][j])
  {
    if |s| == 0 then [""]
    else
      var rest := SplitAll(s[1..]);
      if IsDelim(s[0]) then [""] + rest
      else [[s[0]] + rest[0]] + rest[1..]
  }

  function DropTrailingEmpty(parts: seq<string>): (r: seq<string>)
    ensures r <= parts
    ensures |r| > 0 ==> r[|r| - 1] != ""
    ensures forall k :: |r| <= k < |parts| ==> parts[k] == ""
  {
    if |parts| == 0 then []
    else if parts[|parts| - 1] == "" then DropTrailingEmpty(parts[..|parts| - 1])
    else parts
  }

  /** `marca.split("[dhm]")`: with no delimiter the whole string is the only
      piece; otherwise the pieces, with the trailing empty ones dropped. */
  function JavaSplit(s: string): seq<string> {
    if !HasDelim(s) then [s] else DropTrailingEmpty(SplitAll(s))
  }

  datatype ParseError = MissingField | BadNumber

  /** Reads field `i` and parses it, in the order the source does. */
  function Field(parts: seq<string>, i: nat): Result<int, ParseError> {
    if i >= |parts| then Failure(MissingField)
    else match ParseInt(parts[i])
      case None => Failure(BadNumber)
      case Some(v) => Success(v)
  }

  /** The first three fields exist and each is an `int` literal. */
  predicate FieldsParse(parts: seq<string>) {
    && |parts| >= 3
    && ParseInt(parts[0]).Some? && ParseInt(parts[1]).Some? && ParseInt(parts[2]).Some?
  }

  /** Fewer than three fields, every one of them an `int` literal: the
      read of the first missing field is what fails. */
  predicate TooFewFields(parts: seq<string>) {
    && |parts| < 3
    && forall k :: 0 <= k < |parts| ==> ParseInt(parts[k]).Some?
  }

  function ParsearMarcaDeTiempo(marca: string): (r: Result<int, ParseError>)
    ensures r.Success? <==> FieldsParse(JavaSplit(marca))
    ensures r.Success? ==>
      var parts := JavaSplit(marca);
      && FieldsParse(parts)
      && r.value == Combine(ParseInt(parts[0]).value, ParseInt(parts[1]).value, ParseInt(parts[2]).value)
    ensures r == Failure(MissingField) <==> TooFewFields(JavaSplit(marca))
    ensures r.Success? ==> forall k :: 0 <= k < 3 ==> JavaSplit(marca)[k] != ""
    ensures r.Success? ==> JavaInt.InRange(r.value)
  {
    var parts := JavaSplit(marca);
    var dias :- Field(parts, 0);
    var horas :- Field(parts, 1);
    var minutos :- Field(parts, 2);
    Success(Combine(dias, horas, minutos))
  }

  // ---------------------------------------------------------------- lemmas

  function Digit(n: nat): (c: char)
    requires n < 10
    ensures IsDigit(c) && DigitVal(c) == n
  {
    ('0' as int + n) as char
  }

  /** Two-digit zero-padded rendering of n < 100. */
  function Two(n: nat): (s: string)
    requires n < 100
    ensures |s| == 2 && AllDigits(s)
  {
    [Digit(n / 10), Digit(n % 10)]
  }

  /** The canonical stamp `DDdHHhMMm`. */
  function Stamp(d: nat, h: nat, m: nat): string
    requires d < 100 && h < 100 && m < 100
  {
    Two(d) + "d" + Two(h) + "h" + Two(m) + "m"
  }

  lemma TwoValue(n: nat)
    requires n < 100
    ensures DigitsValue(Two(n)) == n
    ensures ParseInt(Two(n)) == Some(n)
    ensures KeepDigits(Two(n)) == Two(n)
    ensures forall j :: 0 <= j < 2 ==> !IsDelim(Two(n)[j])
  {
    var s := Two(n);
    assert s[..1] == [s[0]];
    assert s[..1][..0] == [];
    assert DigitsValue(s[..1]) == DigitVal(s[0]);
  }

  /** Splitting at the first delimiter of `a + [c] + b` when `a` has none. */
  lemma {:induction false} SplitAllAfterField(a: string, c: char, b: string)
    requires forall j :: 0 <= j < |a| ==> !IsDelim(a[j])
    requires IsDelim(c)
    ensures SplitAll(a + [c] + b) == [a] + SplitAll(b)
    decreases |a|
  {
    if |a| == 0 {
      assert a + [c] + b == [c] + b;
      assert ([c] + b)[1..] == b;
    } else {
      var s := a + [c] + b;
      assert s[0] == a[0];
      assert s[1..] == a[1..] + [c] + b;
      SplitAllAfterField(a[1..], c, b);
      assert [a[0]] + a[1..] == a;
    }
  }

  lemma {:induction false} IndexAfterField(a: string, c: char, b: string)
    requires c !in a
    ensures IndexOf(a + [c] + b, c) == Some(|a|)
    decreases |a|
  {
    var s := a + [c] + b;
    if |a| > 0 {
      assert s[1..] == a[1..] + [c] + b;
      IndexAfterField(a[1..], c, b);
    }
  }

  lemma NoLetters(n: nat)
    requires n < 100
    ensures 'd' !in Two(n) && 'h' !in Two(n) && 'm' !in Two(n)
  {
    TwoValue(n);
  }

  /** Round trip through the lenient parser: a canonical stamp yields its
      total in minutes. */
  lemma ConvertirStamp(d: nat, h: nat, m: nat)
    requires d < 100 && h < 100 && m < 100
    ensures ConvertirATiempoMinutos(Stamp(d, h, m)) == d * 1440 + h * 60 + m
  {
    ComponentsOfStamp(d, h, m, "m");
    assert Stamp(d, h, m) == StampPrefix(d, h) + (Two(m) + "m");
    MinutesBeforeM(m);
  }

  /** "DDdHHh" followed by anything. */
  function StampPrefix(d: nat, h: nat): string
    requires d < 100 && h < 100
  {
    Two(d) + "d" + Two(h) + "h"
  }

  /** After a canonical day and hour part, the counts are those two and the
      minutes read from the rest. */
  lemma ComponentsOfStamp(d: nat, h: nat, m: nat, tail: string)
    requires d < 100 && h < 100 && m < 100
    ensures Components(StampPrefix(d, h) + (Two(m) + tail)) == (d, h, MinutePart(Two(m) + tail))
  {
    ReadTwo(d); ReadTwo(h);
    NoLetters(d); NoLetters(h);
    var c := Two(m) + tail;
    assert StampPrefix(d, h) + c == Two(d) + "d" + Two(h) + "h" + c;
    ComponentsOfParts(Two(d), Two(h), c);
  }

  lemma ReadTwo(n: nat)
    requires n < 100
    ensures Read(Two(n)) == Some(n)
  {
    TwoValue(n);
  }

  lemma MinutesBeforeM(m: nat)
    requires m < 100
    ensures MinutePart(Two(m) + "m") == m
  {
    TwoValue(m);
    var r := Two(m) + "m";
    assert r[2] == 'm';
    assert KeepDigits(r) == Two(m) by {
      KeepDigitsAppendNonDigit(Two(m), 'm');
    }
  }

  lemma {:induction false} KeepDigitsAppendNonDigit(a: string, c: char)
    requires AllDigits(a) && !IsDigit(c)
    ensures KeepDigits(a + [c]) == a
    decreases |a|
  {
    if |a| == 0 {
      assert [c][1..] == [];
    } else {
      assert (a + [c])[1..] == a[1..] + [c];
      KeepDigitsAppendNonDigit(a[1..], c);
      assert [a[0]] + a[1..] == a;
    }
  }

  /** Round trip through the strict parser. */
  lemma ParsearStamp(d: nat, h: nat, m: nat)
    requires d < 100 && h < 100 && m < 100
    ensures JavaSplit(Stamp(d, h, m)) == [Two(d), Two(h), Two(m)]
    ensures ParsearMarcaDeTiempo(Stamp(d, h, m)) == Success(d * 1440 + h * 60 + m)
  {
    StampJavaSplit(d, h, m);
    TwoValue(d); TwoValue(h); TwoValue(m);
    ParseOfFields(Stamp(d, h, m), [Two(d), Two(h), Two(m)], d, h, m);
    var v := d * 1440 + h * 60 + m;
    assert 0 <= v < JavaInt.IntMax;
  }

  lemma ParsearStampValue(d: nat, h: nat, m: nat)
    requires d < 100 && h < 100 && m < 100
    ensures ParsearMarcaDeTiempo(Stamp(d, h, m)) == Success(d * 1440 + h * 60 + m)
  {
    ParsearStamp(d, h, m);
  }

  lemma StampJavaSplit(d: nat, h: nat, m: nat)
    requires d < 100 && h < 100 && m < 100
    ensures JavaSplit(Stamp(d, h, m)) == [Two(d), Two(h), Two(m)]
  {
    TwoValue(d); TwoValue(h); TwoValue(m);
    var s := Stamp(d, h, m);
    assert s == Two(d) + ['d'] + (Two(h) + ['h'] + (Two(m) + ['m'] + ""));
    SplitAllAfterField(Two(d), 'd', Two(h) + ['h'] + (Two(m) + ['m'] + ""));
    SplitAllAfterField(Two(h), 'h', Two(m) + ['m'] + "");
    SplitAllAfterField(Two(m), 'm', "");
    assert SplitAll(s) == [Two(d), Two(h), Two(m), ""];
    assert IsDelim(s[2]);
    assert DropTrailingEmpty([Two(d), Two(h), Two(m), ""]) == [Two(d), Two(h), Two(m)] by {
      assert [Two(d), Two(h), Two(m), ""][..3] == [Two(d), Two(h), Two(m)];
    }
  }

  lemma StampOfExample()
    ensures Stamp(1, 0, 24) == "01d00h24m"
  {
    assert Digit(0) == '0' && Digit(1) == '1' && Digit(2) == '2' && Digit(4) == '4';
    assert Two(1) == "01" && Two(0) == "00" && Two(24) == "24";
  }

  /** The worked example: "01d00h24m" (which is `Stamp(1, 0, 24)`, see
      above) is 1464 minutes, for the lenient parser and for the strict one. */
  lemma ConvertirExample()
    ensures ConvertirATiempoMinutos(Stamp(1, 0, 24)) == 1464
  {
    ConvertirStamp(1, 0, 24);
  }
  lemma ParsearExample()
    ensures ParsearMarcaDeTiempo(Stamp(1, 0, 24)) == Success(1464)
  {
    ParsearStamp(1, 0, 24);
  }

  /** On canonical stamps the two parsers agree. */
  lemma ParsersAgreeOnStamps(d: nat, h: nat, m: nat)
    requires d < 100 && h < 100 && m < 100
    ensures ParsearMarcaDeTiempo(Stamp(d, h, m)) == Success(ConvertirATiempoMinutos(Stamp(d, h, m)))
  {
    ParsearStampValue(d, h, m);
    ConvertirStamp(d, h, m);
    SameResult(ParsearMarcaDeTiempo(Stamp(d, h, m)), ConvertirATiempoMinutos(Stamp(d, h, m)), d * 1440 + h * 60 + m);
  }

  lemma SameResult(p: Result<int, ParseError>, c: int, v: int)
    requires p == Success(v) && c == v
    ensures p == Success(c)
  {
  }

  // ------------------------------------------- quirks of the lenient parser

  /** A single character survives exactly when it is a digit; with
      `KeepDigitsConcat` this fixes `KeepDigits` on every string. */
  lemma KeepDigitsOne(c: char)
    ensures KeepDigits([c]) == if IsDigit(c) then [c] else []
  {
    assert [c][1..] == [];
  }

  /** Every digit of `s` is kept and nothing else is. */
  lemma {:induction false} KeepDigitsMembers(s: string)
    ensures forall c :: c in KeepDigits(s) <==> c in s && IsDigit(c)
    decreases |s|
  {
    if |s| > 0 {
      assert s == [s[0]] + s[1..];
      KeepDigitsMembers(s[1..]);
    }
  }

  lemma {:induction false} KeepDigitsConcat(a: string, b: string)
    ensures KeepDigits(a + b) == KeepDigits(a) + KeepDigits(b)
    decreases |a|
  {
    if |a| > 0 {
      assert (a + b)[1..] == a[1..] + b;
      KeepDigitsConcat(a[1..], b);
    } else {
      assert a + b == b;
    }
  }

  /** Digits written after the 'm' are still read as part of the minutes:
      "DDdHHhMMmKK" counts MM * 100 + KK minutes. */
  lemma ConvertirReadsDigitsAfterM(d: nat, h: nat, m: nat, k: nat)
    requires d < 100 && h < 100 && m < 100 && k < 100
    ensures ConvertirATiempoMinutos(Stamp(d, h, m) + Two(k)) == d * 1440 + h * 60 + m * 100 + k
  {
    ComponentsOfStamp(d, h, m, "m" + Two(k));
    assert Stamp(d, h, m) + Two(k) == StampPrefix(d, h) + (Two(m) + ("m" + Two(k)));
    MinutesAfterM(m, k);
    assert Two(m) + ("m" + Two(k)) == Two(m) + "m" + Two(k);
    var mm := m * 100 + k;
    assert 0 <= d * 1440 + h * 60 + mm < 200000;
  }

  lemma MinutesAfterM(m: nat, k: nat)
    requires m < 100 && k < 100
    ensures MinutePart(Two(m) + "m" + Two(k)) == m * 100 + k
  {
    TwoValue(m); TwoValue(k);
    var restH := Two(m) + "m" + Two(k);
    assert restH[2] == 'm';
    assert KeepDigits(restH) == Two(m) + Two(k) by {
      assert restH == (Two(m) + ['m']) + Two(k);
      KeepDigitsConcat(Two(m) + ['m'], Two(k));
      KeepDigitsAppendNonDigit(Two(m), 'm');
    }
    MinutesOfTwoPairs(m, k);
  }

  lemma MinutesOfTwoPairs(m: nat, k: nat)
    requires m < 100 && k < 100
    ensures DigitsValue(Two(m) + Two(k)) == m * 100 + k
  {
    TwoValue(m);
    var s := Two(m) + Two(k);
    assert AllDigits(s);
    assert s[..3][..2] == Two(m);
    assert DigitsValue(s[..3]) == m * 10 + k / 10;
    assert s[..4] == s;
  }

  /** Splitting at the first `c` of `a + [c] + b` when `a` has none. */
  lemma FirstSplit(a: string, c: char, b: string)
    requires c !in a
    ensures var s := a + [c] + b;
      IndexOf(s, c) == Some(|a|) && s[..|a|] == a && s[|a| + 1..] == b
  {
    IndexAfterField(a, c, b);
    var s := a + [c] + b;
    assert s[..|a|] == a;
    assert s[|a| + 1..] == b;
  }

  /** The day part: whatever precedes the first 'd' is read as the day
      count. If that read throws, every count is 0; otherwise the hours and
      minutes come from what follows the 'd', whatever the day part held. */
  lemma ComponentsDaySplit(a: string, b: string)
    requires 'd' !in a
    ensures Read(a).None? ==> Components(a + "d" + b) == (0, 0, 0)
    ensures Read(a).Some? ==> Components(a + "d" + b) == (Read(a).value, HourMinute(b).0, HourMinute(b).1)
  {
    FirstSplit(a, 'd', b);
  }

  /** The hour part: whatever precedes the first 'h' is read as the hour
      count. If that read throws, hours and minutes are 0; otherwise the
      minutes come from what follows the 'h'. */
  lemma HourMinuteSplit(a: string, b: string)
    requires 'h' !in a
    ensures Read(a).None? ==> HourMinute(a + "h" + b) == (0, 0)
    ensures Read(a).Some? ==> HourMinute(a + "h" + b) == (Read(a).value, MinutePart(b))
  {
    FirstSplit(a, 'h', b);
  }

  /** `replaceAll("\\D", "")` drops every non-digit, wherever it stands: a
      sign, a space or a stray letter inside a part changes nothing. */
  lemma ReadIgnoresNonDigit(a: string, c: char, b: string)
    requires !IsDigit(c)
    ensures Read(a + [c] + b) == Read(a + b)
  {
    KeepDigitsConcat(a + [c], b);
    KeepDigitsConcat(a, [c]);
    KeepDigitsConcat(a, b);
    assert [c][1..] == [];
    assert KeepDigits([c]) == [];
    assert KeepDigits(a + [c] + b) == KeepDigits(a + b);
  }

  /** When the day and hour parts read, the minutes come from what follows
      the 'h'. */
  lemma ComponentsOfParts(a: string, b: string, c: string)
    requires 'd' !in a && 'h' !in b
    ensures Read(a).Some? && Read(b).Some? ==>
      Components(a + "d" + b + "h" + c) == (Read(a).value, Read(b).value, MinutePart(c))
  {
    assert a + "d" + b + "h" + c == a + "d" + (b + "h" + c);
    ComponentsDaySplit(a, b + "h" + c);
    HourMinuteSplit(b, c);
  }

  /** After a part whose read throws, the parts already read are kept and the
      later ones are 0: a failing day part gives nothing at all, a failing
      hour part keeps the days, a failing minute part keeps days and hours. */
  lemma ConvertirKeepsPartsBeforeError(a: string, b: string, c: string)
    requires 'd' !in a && 'h' !in b
    ensures var s := a + "d" + b + "h" + c;
      && (Read(a).None? ==> Components(s) == (0, 0, 0))
      && (Read(a).Some? && Read(b).None? ==> Components(s) == (Read(a).value, 0, 0))
      && (Read(a).Some? && Read(b).Some? && Read(c).None? ==> Components(s) == (Read(a).value, Read(b).value, 0))
      && (Read(a).Some? && Read(b).Some? && 'm' in c && Read(c).Some? ==>
            Components(s) == (Read(a).value, Read(b).value, Read(c).value))
  {
    var s := a + "d" + b + "h" + c;
    assert s == a + "d" + (b + "h" + c);
    ComponentsDaySplit(a, b + "h" + c);
    HourMinuteSplit(b, c);
  }

  /** A part whose letter is absent counts 0: no 'd' means no days, no 'h'
      no hours, no 'm' no minutes; the other parts are read as usual. */
  lemma ConvertirWithoutDays(s: string)
    ensures 'd' !in s ==> Components(s).0 == 0
    ensures 'h' !in s ==> Components(s).1 == 0
    ensures 'm' !in s ==> Components(s).2 == 0
    ensures 'd' !in s ==> ConvertirATiempoMinutos(s) == Combine(0, HourMinute(s).0, HourMinute(s).1)
  {
    match IndexOf(s, 'd')
    case None =>
    case Some(i) =>
      var rest := s[i + 1..];
      if 'h' !in s {
        NotInSuffix(s, 'h', i + 1);
      }
      if 'm' !in s {
        NotInSuffix(s, 'm', i + 1);
        match IndexOf(rest, 'h')
        case None =>
        case Some(k) =>
          NotInSuffix(rest, 'm', k + 1);
      }
  }

  lemma NotInSuffix(s: string, c: char, k: nat)
    requires k <= |s| && c !in s
    ensures c !in s[k..]
  {
  }

  /** Instance: "HHhMMm" is hours and minutes only. */
  lemma ConvertirHoursMinutesOnly(h: nat, m: nat)
    requires h < 100 && m < 100
    ensures ConvertirATiempoMinutos(Two(h) + "h" + Two(m) + "m") == h * 60 + m
  {
    NoLetters(h); NoLetters(m);
    var tail := Two(m) + "m";
    var s := Two(h) + "h" + tail;
    assert Two(h) + "h" + Two(m) + "m" == s;
    assert 'd' !in tail;
    assert 'd' !in s;
    HourMinuteSplit(Two(h), tail);
    ReadTwo(h);
    MinutesBeforeM(m);
    assert HourMinute(s) == (h, m);
    assert Components(s) == (0, h, m);
  }

  /** Instance: an empty hour part after the day keeps the day count. */
  lemma ConvertirEmptyHourPart(d: nat, rest: string)
    requires d < 100
    ensures ConvertirATiempoMinutos(Two(d) + "dh" + rest) == d * 1440
  {
    TwoValue(d); NoLetters(d);
    assert Two(d) + "dh" + rest == Two(d) + "d" + "" + "h" + rest;
    ConvertirKeepsPartsBeforeError(Two(d), "", rest);
    assert KeepDigits("") == "";
    assert Read(Two(d)) == Some(d);
    assert Read("") == None;
  }

  // -------------------------------------------- quirks of the strict parser

  predicate SameUpToDelims(s: string, t: string) {
    && |s| == |t|
    && forall i :: 0 <= i < |s| ==> s[i] == t[i] || (IsDelim(s[i]) && IsDelim(t[i]))
  }

  lemma {:induction false} SplitAllUpToDelims(s: string, t: string)
    requires SameUpToDelims(s, t)
    ensures SplitAll(s) == SplitAll(t)
    decreases |s|
  {
    if |s| > 0 {
      assert SameUpToDelims(s[1..], t[1..]) by {
        forall i | 0 <= i < |s| - 1 ensures s[1..][i] == t[1..][i] || (IsDelim(s[1..][i]) && IsDelim(t[1..][i])) {
          assert s[1..][i] == s[i + 1] && t[1..][i] == t[i + 1];
        }
      }
      SplitAllUpToDelims(s[1..], t[1..]);
      if !IsDelim(s[0]) {
        assert s[0] == t[0];
      }
    }
  }

  /** Which letter separates the fields does not matter: two stamps that
      differ only in WHICH delimiter letter sits at a position parse alike. */
  lemma DelimitersInterchangeable(s: string, t: string)
    requires SameUpToDelims(s, t)
    ensures JavaSplit(s) == JavaSplit(t)
    ensures ParsearMarcaDeTiempo(s) == ParsearMarcaDeTiempo(t)
  {
    SplitAllUpToDelims(s, t);
    assert HasDelim(s) <==> HasDelim(t) by {
      if HasDelim(s) {
        var i :| 0 <= i < |s| && IsDelim(s[i]);
        assert IsDelim(t[i]);
      }
      if HasDelim(t) {
        var i :| 0 <= i < |t| && IsDelim(t[i]);
        assert IsDelim(s[i]);
      }
    }
    if !HasDelim(s) {
      assert s == t by {
        forall i | 0 <= i < |s| ensures s[i] == t[i] {
          assert !IsDelim(s[i]);
        }
      }
    }
  }

  /** Hence "01h00m24d" reads exactly like "01d00h24m". */
  lemma LettersInAnyOrder(d: nat, h: nat, m: nat)
    requires d < 100 && h < 100 && m < 100
    ensures ParsearMarcaDeTiempo(Two(d) + "h" + Two(h) + "m" + Two(m) + "d") == Success(d * 1440 + h * 60 + m)
  {
    var s := Stamp(d, h, m);
    var t := Two(d) + "h" + Two(h) + "m" + Two(m) + "d";
    assert |s| == |t| == 9;
    assert SameUpToDelims(s, t);
    DelimitersInterchangeable(s, t);
    ParsearStamp(d, h, m);
  }

  lemma {:induction false} DropTrailingKeepsNonEmptyPrefix(p: seq<string>, q: seq<string>)
    requires |p| > 0 && p[|p| - 1] != ""
    ensures p <= DropTrailingEmpty(p + q)
    decreases |q|
  {
    if |q| > 0 && q[|q| - 1] == "" {
      assert (p + q)[..|p + q| - 1] == p + q[..|q| - 1];
      DropTrailingKeepsNonEmptyPrefix(p, q[..|q| - 1]);
    }
  }

  /** Once the first three fields are known, the strict parser's result is
      determined by them alone. */
  lemma ParseOfFields(s: string, parts: seq<string>, d: int, h: int, m: int)
    requires parts == JavaSplit(s) && |parts| >= 3
    requires ParseInt(parts[0]) == Some(d) && ParseInt(parts[1]) == Some(h) && ParseInt(parts[2]) == Some(m)
    ensures ParsearMarcaDeTiempo(s) == Success(Combine(d, h, m))
  {
  }

  /** Fields after the third are never looked at: whatever follows a
      canonical stamp, the result is the stamp's. */
  lemma ExtraFieldsIgnored(d: nat, h: nat, m: nat, rest: string)
    requires d < 100 && h < 100 && m < 100
    ensures ParsearMarcaDeTiempo(Stamp(d, h, m) + rest) == Success(d * 1440 + h * 60 + m)
  {
    TwoValue(d); TwoValue(h); TwoValue(m);
    var s := Stamp(d, h, m) + rest;
    StampPlusJavaSplit(d, h, m, rest);
    var parts := JavaSplit(s);
    assert parts[0] == Two(d) && parts[1] == Two(h) && parts[2] == Two(m);
    ParseOfFields(s, parts, d, h, m);
    SmallCombine(d, h, m);
  }

  /** A canonical stamp with anything after it splits into at least its
      three fields. */
  lemma StampPlusJavaSplit(d: nat, h: nat, m: nat, rest: string)
    requires d < 100 && h < 100 && m < 100
    ensures |JavaSplit(Stamp(d, h, m) + rest)| >= 3
    ensures JavaSplit(Stamp(d, h, m) + rest)[..3] == [Two(d), Two(h), Two(m)]
  {
    TwoValue(d);
    var s := Stamp(d, h, m) + rest;
    var p := [Two(d), Two(h), Two(m)];
    StampSplit(d, h, m, rest);
    assert s[2] == 'd';
    assert HasDelim(s);
    DropTrailingKeepsNonEmptyPrefix(p, SplitAll(rest));
  }

  lemma SmallCombine(d: nat, h: nat, m: nat)
    requires d < 100 && h < 100 && m < 100
    ensures Combine(d, h, m) == d * 1440 + h * 60 + m
  {
    assert 0 <= d * 1440 + h * 60 + m < JavaInt.IntMax;
  }

  lemma StampSplit(d: nat, h: nat, m: nat, rest: string)
    requires d < 100 && h < 100 && m < 100
    ensures SplitAll(Stamp(d, h, m) + rest) == [Two(d), Two(h), Two(m)] + SplitAll(rest)
  {
    TwoNoDelim(d); TwoNoDelim(h); TwoNoDelim(m);
    var t3 := Two(m) + ['m'] + rest;
    var t2 := Two(h) + ['h'] + t3;
    assert Stamp(d, h, m) + rest == Two(d) + ['d'] + t2;
    SplitAllAfterField(Two(m), 'm', rest);
    SplitAllAfterField(Two(h), 'h', t3);
    SplitAllAfterField(Two(d), 'd', t2);
    assert [Two(d)] + ([Two(h)] + ([Two(m)] + SplitAll(rest))) == [Two(d), Two(h), Two(m)] + SplitAll(rest);
  }

  lemma TwoNoDelim(n: nat)
    requires n < 100
    ensures forall j :: 0 <= j < |Two(n)| ==> !IsDelim(Two(n)[j])
  {
    TwoValue(n);
  }

  /** A leading delimiter produces an empty first field, which `parseInt`
      rejects; a string that is nothing but delimiters has no field at all. */
  lemma LeadingDelimiterFails(c: char, rest: string)
    requires IsDelim(c)
    ensures ParsearMarcaDeTiempo([c] + rest).Failure?
  {
    var s := [c] + rest;
    assert s[1..] == rest;
    assert SplitAll(s) == [""] + SplitAll(rest);
    assert IsDelim(s[0]);
    var parts := JavaSplit(s);
    assert parts <= [""] + SplitAll(rest);
    if |parts| > 0 {
      assert parts[0] == "";
    }
  }

  /** With fewer than three fields the third read fails. */
  lemma TwoFieldsFail(d: nat, h: nat)
    requires d < 100 && h < 100
    ensures ParsearMarcaDeTiempo(Two(d) + "d" + Two(h) + "h") == Failure(MissingField)
  {
    TwoValue(d); TwoValue(h);
    var s := Two(d) + "d" + Two(h) + "h";
    assert s == Two(d) + ['d'] + (Two(h) + ['h'] + "");
    SplitAllAfterField(Two(d), 'd', Two(h) + ['h'] + "");
    SplitAllAfterField(Two(h), 'h', "");
    assert SplitAll(s) == [Two(d), Two(h), ""];
    assert IsDelim(s[2]);
    assert DropTrailingEmpty([Two(d), Two(h), ""]) == [Two(d), Two(h)] by {
      assert [Two(d), Two(h), ""][..2] == [Two(d), Two(h)];
    }
  }

  /** Fields may carry a sign, and nothing bounds hours or minutes:
      "-DDdHHhMMm" is -DD days plus HH hours plus MM minutes. */
  lemma SignedDayField(d: nat, h: nat, m: nat)
    requires d < 100 && h < 100 && m < 100
    ensures ParsearMarcaDeTiempo("-" + Stamp(d, h, m)) == Success(h * 60 + m - d * 1440)
  {
    TwoValue(h); TwoValue(m);
    NegTwo(d);
    SignedStampJavaSplit(d, h, m);
    ParseOfFields("-" + Stamp(d, h, m), ["-" + Two(d), Two(h), Two(m)], 0 - d, h, m);
    assert JavaInt.InRange(h * 60 + m - d * 1440);
  }

  lemma NegTwo(d: nat)
    requires d < 100
    ensures ParseInt("-" + Two(d)) == Some(0 - d)
  {
    TwoValue(d);
    var neg := "-" + Two(d);
    assert neg[1..] == Two(d);
  }

  lemma SignedStampJavaSplit(d: nat, h: nat, m: nat)
    requires d < 100 && h < 100 && m < 100
    ensures JavaSplit("-" + Stamp(d, h, m)) == ["-" + Two(d), Two(h), Two(m)]
  {
    var neg := "-" + Two(d);
    var s := "-" + Stamp(d, h, m);
    SignedStampSplit(d, h, m);
    TwoValue(d);
    assert s[3] == 'd';
    assert HasDelim(s);
    assert DropTrailingEmpty([neg, Two(h), Two(m), ""]) == [neg, Two(h), Two(m)] by {
      assert [neg, Two(h), Two(m), ""][..3] == [neg, Two(h), Two(m)];
    }
  }

  lemma SignedStampSplit(d: nat, h: nat, m: nat)
    requires d < 100 && h < 100 && m < 100
    ensures SplitAll("-" + Stamp(d, h, m)) == ["-" + Two(d), Two(h), Two(m), ""]
  {
    StampSplit(d, h, m, "");
    assert Stamp(d, h, m) + "" == Stamp(d, h, m);
    var s := "-" + Stamp(d, h, m);
    assert s[1..] == Stamp(d, h, m);
    assert !IsDelim(s[0]);
    var rest := SplitAll(Stamp(d, h, m));
    assert rest == [Two(d), Two(h), Two(m), ""];
    assert rest[1..] == [Two(h), Two(m), ""];
    assert [s[0]] + Two(d) == "-" + Two(d);
    assert SplitAll(s) == [[s[0]] + rest[0]] + rest[1..];
  }
}

=== FILE: wrappers.dfy ===
/** Failure-compatible result types shared by every module of the model. */
module Wrappers {

  /** A value that may be absent: the model's stand-in for a Java `null`. */
  datatype Option<+T> = None | Some(value: T) {
    predicate IsFailure() { None? }

    function PropagateFailure<U>(): Option<U>
      requires None?
    {
      None
    }

    function Extract(): T
      requires Some?
    {
      value
    }

    function GetOr(default: T): T {
      match this
      case Some(v) => v
      case None => default
    }
  }

  /** A computation that either succeeds with a value or fails with an error,
      the model's stand-in for a thrown Java exception. */
  datatype Result<+R, +E> = Success(value: R) | Failure(error: E) {
    predicate IsFailure() { Failure? }

    function PropagateFailure<U>(): Result<U, E>
      requires Failure?
    {
      Failure(error)
    }

    function Extract(): R
      requires Success?
    {
      value
    }
  }
}
